=== FILE: README.md ===
# bushido record mapper, modelled in Dafny

This project models the core of the bushido PHP toolkit in Dafny 4.11.
That core is the meta-table record mapper and the small pure pieces around it.

- **`Meta_Table`** (`MetaTable`): each field has a metadata map. The value pipeline is built on it:
  - `set_value` and `get_value`;
  - defaults;
  - method, function and literal resolvers;
  - Word-character folding;
  - the callback hooks.

  The metadata query `get_meta_table_keys_with_meta_info_key` and the `create_fields` group-tree builder are modelled too.
- **`Record_Table`** (`RecordTable`):
  - the SQL text of `save`, `create_save_sql`, `load`, `delete`, `update_fields`, `where_clause` and the select clause;
  - the `is_new` test;
  - the `old_data` snapshot behind `is_dirty` and `get_old_data`;
  - `clean_enum_options`.
- **`Record_Table_Couchbase`** (`Couchbase`): the overrides of the Couchbase variant:
  - the key read as `META().id`;
  - unquoted numbers;
  - the document-id WHERE clause;
  - the lower-case version-4 UUID test of section 4.4 of RFC 4122;
  - the save result.
- **The pure validators** (`Validate`):
  - required, the lengths, digit, alphanumeric and the Luhn checksum;
  - white and black lists;
  - the group validators for count, all-or-none, one group, mask, match and no-match;
  - `setup` and `valid_error`.
- **`FieldGroup` and `Field`** (`Form`):
  - partitioning into fields and groups;
  - validation forwarding and attribute filtering;
  - value merging, field lookup;
  - group and field validation.
- **Small standalone pieces:**
  - `Auth::check_access` (`Auth`);
  - paging arithmetic (`Paging`);
  - `Base` error de-duplication (`Base`);
  - `Database::results_check`, the fetch-mode stack and the MySQL and MSSQL `create_select_query` builders (`Database`).

Shared modules:

- `Php` holds the PHP value model:
  - `Value` is `Null | Bool | Int | Str | List | Obj`;
  - `Data` is a string-keyed map;
  - PHP 8 loose (`==`) and strict (`===`) comparison, truthiness, `isset` and string conversion;
  - an `Outcome` type for raised errors.
- `NumericString` holds PHP 8's numeric-string grammar: white space, a sign, digits with a fraction, an exponent, and an exact value.
- `Strings` holds the string helpers.
- `Sql` holds the value and id encoding shared by the SQL builders.

The database is a parameter throughout:

- `qstr` and the column wrappers are fields of a `Db` record;
- the results of `execute` and `Insert_ID`, and the fetched row, are inputs to the operations that use them;
- method and user-function resolvers are name sets with call functions (`Env`), not PHP introspection;
- field objects are handles named by their meta-table key.

## Model

| member | source | states |
|---|---|---|
| Base.Unique | base.class.php:55-57 | the de-duplicated list has no duplicates and holds exactly the messages of its input |
| Base.UniqueOrder | base.class.php:55-57 | the kept messages appear in the order of their first occurrences in the input |
| Base.UniqueOfDistinct | base.class.php:55-57 | de-duplicating a list without duplicates returns it unchanged |
| Base.AddError | base.class.php:47-58 | after `error`, the list has no duplicates and holds exactly the old messages plus the new one or ones |
| Base.AddErrorOrder | base.class.php:47-58 | after `error`, each message appears once, ordered by its first occurrence in the old list followed by the new messages |
| Base.AddErrorExtends | base.class.php:47-58 | `error` keeps the existing list as a prefix: new messages are appended, first occurrences stay in order |
| Base.AddKnownError | base.class.php:47-58 | reporting a message already in the list leaves the list unchanged |
| Base.ErrorTemplate | base.class.php:66-78 | `error_tpl` produces nothing exactly when the list is empty, and otherwise lists every error |
| Paging.TotalPages | paging.class.php:145-153 | total pages is the ceiling of total over increment; an increment of zero raises |
| Paging.Start | paging.class.php:155-174 | the start is 0 unless page, increment and total are positive; it then lies inside the total, is `(page-1)*increment` for pages in range, and is the start of the last page for a page beyond it |
| Paging.End | paging.class.php:176-190 | the end is the smaller of `start + increment` and the total |
| Paging.PageWithinTotal | paging.class.php:155-190 | for positive inputs, `0 <= start < end <= total` |
| Paging.PageOfContains | paging.class.php:192-204 | `calc_page` gives the page whose row range contains the start |
| Paging.PageOfStart | paging.class.php:155-204 | `calc_page(calc_start(p)) == p` for every page from 1 to the page count |
| Paging.Repage | paging.class.php:58-63 | after the increment changes, the new page is the one containing the first row of the old page |
| Paging.LimitSqlReadsBack | paging.class.php:82-86 | the `LIMIT` text reads back as the start, a comma and space, then the increment |
| Database.ResultsCheck | database.class.php:218-246 | a false result fails; without `fail_empty` everything else passes; with it, a result passes exactly when it has rows |
| Database.ResultsCheckWeakens | database.class.php:218-246 | a result that passes with `fail_empty` also passes without it |
| Database.PopFetchMode | database.class.php:255-265 | popping restores the last saved mode; an empty stack gives a null mode |
| Database.PushPopRestores | database.class.php:248-265 | a push followed by a pop restores the previous state exactly |
| Database.NestedPushPop | database.class.php:248-265 | nested pushes are undone last-in first-out |
| Database.MysqlSelectQuery | database.class.php:119-134 | the MySQL builder returns null exactly when `from` is missing, and otherwise a `SELECT` statement |
| Database.MysqlSelectDefault | database.class.php:119-134 | with no `select` key the query selects `*`; a `select` key that is present but null selects nothing, because `array_merge` keeps it |
| Database.MssqlSelectQuery | database.class.php:19-60 | the MSSQL builder returns null without `from`, or for an array limit whose number or offset is missing or not a digit string, so always for a list limit; a paged query selects `TOP offset` rows and keeps those with `RowNum > offset - number` |
| Database.PagedRowCount | database.class.php:26-36 | of the rows numbered `1..offset`, exactly `min(number, offset)` are numbered above `offset - number` |
| Database.PagedQueryKeeps | database.class.php:26-36 | for digit-string number and offset, the paged query is built, selects `TOP offset` rows and bounds `RowNum` by `offset - number`, which keeps `min(number, offset)` rows |
| Sql.NullWithoutDbNull | meta_table.class.php:848 | outside a `db_null` field a null is saved exactly as the empty string is, and `NULL` appears for a non-null value only when its own text encodes to `NULL` |
| Sql.RawIntegers | meta_table.class.php:848 | with number quoting off, an integer is written as decimal text that reads back as the same integer |
| MetaTable.GetInfo | meta_table.class.php:376-383 | `get_meta_table_value` returns the stored entry when it is set and not null, and the supplied default otherwise |
| MetaTable.SetInfo | meta_table.class.php:386-389 | `set_meta_table_value` stores the entry, registers a new key at the end, and changes no other entry |
| MetaTable.GetAfterSet | meta_table.class.php:376-389 | a get after a set returns the value set, or the default when it was null; other entries read as before |
| MetaTable.RemoveInfo | meta_table.class.php:392-398 | with no info key the whole field goes, otherwise only that entry; nothing else changes |
| MetaTable.KeysWith | meta_table.class.php:402-417 | a key is listed exactly when it is in the table and its entry matches, or does not match when `return_not` is set |
| MetaTable.KeysWithOrdered | meta_table.class.php:402-417 | the listed keys keep meta-table order |
| MetaTable.KeysWithComplement | meta_table.class.php:402-417 | the listing with `return_not` is exactly the complement of the one without it |
| MetaTable.Classify | meta_table.class.php:505-532 | a resolver names a method if the object has that method, else a user function if one exists, else it is a literal; only truthy values name anything |
| MetaTable.LiteralsStayLiteral | meta_table.class.php:505-532 | falsy values, arrays and objects are always literals |
| MetaTable.DefaultIgnoresData | meta_table.class.php:476-487 | unless the default names a method, the default does not depend on the stored data |
| MetaTable.ConvertRemovesWordChars | meta_table.class.php:142-161 | after folding, no Word "smart" character from the table is left |
| MetaTable.ConvertKeepsAscii | meta_table.class.php:142-161 | folding leaves plain ASCII text unchanged |
| MetaTable.ConvertShrinks | meta_table.class.php:142-161 | folding never makes the text longer |
| MetaTable.PrepareValue | meta_table.class.php:164-186 | only strings are changed; without a purifier they are folded unless `allow_word_characters` is set |
| MetaTable.SetValue | meta_table.class.php:164-200 | `set_value` stores under the key only: a method or function resolver's result verbatim, else the value, with the default for null or the zero date |
| MetaTable.GetValue | meta_table.class.php:222-236 | `get_value` prefers a method or function resolver; then a stored value that is set and not null or the zero date; then the literal `get_value` entry; then the default |
| MetaTable.SetThenGet | meta_table.class.php:164-236 | for a field without resolvers, getting after setting a non-defaultable value returns the prepared value |
| MetaTable.SetNullThenGet | meta_table.class.php:164-236 | for such a field, getting after setting null returns the default |
| MetaTable.SetValueResolverVerbatim | meta_table.class.php:188-199 | with a function `set_value` resolver, even a null value is replaced by the resolver's result and no default is applied |
| MetaTable.GetValueFunctionIgnoresData | meta_table.class.php:222-236 | with a function `get_value` resolver, the stored data is ignored |
| MetaTable.ProcessCallback | meta_table.class.php:353-374 | a literal is returned as it is; a method or function is called with the argument; a bare list is an array without a `value` entry, so it reads as null |
| MetaTable.CallbackChains | meta_table.class.php:353-374 | a literal value with a callback hands the value on to the callback |
| MetaTable.RunHooks | meta_table.class.php:461-472 | the hook run succeeds exactly when every key carrying the hook returns a value whose lowest bit is set |
| MetaTable.DecimalAnswerTruncates | meta_table.class.php:461-472 | a hook answering a decimal string counts by the parity of its integer part |
| MetaTable.HookQuirks | meta_table.class.php:461-472 | no hooks means success; a hook returning 2 fails the run, because `&=` is bitwise |
| MetaTable.ListHookFails | meta_table.class.php:353-358 | a hook entry that is a list answers null, so the run does not succeed, and fails without raising when it is the only hook |
| MetaTable.SetData | meta_table.class.php:94-115 | `set` touches only the keys an array input gives values for, a list being keyed by its positions, or every key for a non-array input; all other data is kept |
| MetaTable.SetDataList | meta_table.class.php:94-115 | a list input sets no key that does not name one of its positions, so with no such key the data is unchanged |
| MetaTable.SetDataStores | meta_table.class.php:94-115 | each touched plain field ends up holding its prepared incoming value |
| MetaTable.BuildFields | meta_table.class.php:540-582 | every selected non-group field gets a field object and is listed; the selected groups are listed for the second pass |
| MetaTable.BuildGroups | meta_table.class.php:583-626 | only field objects change; every built group is one of the groups, has a non-empty children entry and vice versa; a group buildable before the loop is built |
| MetaTable.BuildGroupsSnoc | meta_table.class.php:587-624 | one more group is built, with its field object stored and the children that have field objects at its turn recorded, exactly when one of its listed children has a field object at that point; otherwise nothing changes |
| MetaTable.CreateFields | meta_table.class.php:540-644 | the root holds every group the group loop built, plus every built field that no built group lists as a child; every recorded group is in the root with non-empty children |
| MetaTable.FieldsBeforeGroups | meta_table.class.php:540-644 | since fields are built first, a group with a selected plain child is always built and reaches the root |
| RecordTable.WhereClause | meta_table.class.php:909-912 | the clause is the key column, ` = `, then the encoded id; a null id means the record's own key |
| RecordTable.WhereReadsBack | meta_table.class.php:909-912 | an unquoted integer id reads back as itself, and a string id appears as its `qstr` |
| RecordTable.IsNew | meta_table.class.php:700-712 | with an auto key, a record is new unless its id is numeric and at least 1 (for Couchbase: unless it is a version-4 UUID); otherwise, unless the probe query found it |
| RecordTable.IsNewByNumber | meta_table.class.php:700-704 | an integer id and its decimal string are new exactly when below 1 |
| RecordTable.IsNewDecimal | meta_table.class.php:700-704 | with a generated relational key, a decimal id `n.d` is new exactly when `n` is 0 |
| RecordTable.IsNewFallsBack | meta_table.class.php:700-704 | a falsy id falls back to the current key value |
| RecordTable.GetOldData | meta_table.class.php:1083-1091 | without `retain_dirty` the old value is null; with it, a field's snapshot entry, or the whole snapshot when no field is named |
| RecordTable.DirtyWithoutSnapshot | meta_table.class.php:1077-1091 | without a snapshot, any non-null value is dirty |
| RecordTable.SnapshotIsClean | meta_table.class.php:1077-1091 | right after the snapshot matches the data, a field holding its stored value is clean |
| RecordTable.SetRecord | meta_table.class.php:687-694 | `set` changes only the data, and `set(null)` also empties the snapshot |
| RecordTable.ClearedIsDirty | meta_table.class.php:687-694 | after `set(null)`, every non-null value of a named field is dirty |
| RecordTable.SaveWith | meta_table.class.php:818-889 | `save` writes exactly the listed fields that qualify; reports a missing field list and a failed execute; sets the key from `Insert_ID` on insert; refreshes the snapshot on success |
| RecordTable.SaveFilters | meta_table.class.php:836-846 | `save` never writes an auto key or a `db_readonly` field, and with `retain_dirty` writes only dirty fields |
| RecordTable.SaveNothingToWrite | meta_table.class.php:836-889 | when no field qualifies, nothing is executed and the result is true |
| RecordTable.SaveCleansWritten | meta_table.class.php:882-884 | after a successful save every written field is clean again |
| RecordTable.SaveAssignsStaleKey | meta_table.class.php:862-875 | as written, a new auto-key record with nothing to write still takes `Insert_ID` as its key |
| RecordTable.SaveKeyOnlyAfterInsert | meta_table.class.php:862-875 | with the corrected rule, the data changes only after an INSERT that succeeded |
| RecordTable.CouchbaseNeverWritesKey | database/couchbase/record_table_couchbase.class.php:11-20 | after `init_couchbase`, the key field is never among the written columns, even without an auto key |
| RecordTable.SaveSqlKeys | meta_table.class.php:773-800 | `create_save_sql` starts from the named fields or else the `db_field` keys (raising for an auto key with neither, null otherwise); it removes the auto key whether or not fields are named, and the read-only keys unless they are asked for; for a duplicate-free list and a non-numeric key field the kept keys are exactly the listed ones minus these |
| RecordTable.NamedFieldsLoseAutoKey | meta_table.class.php:784-789 | with a generated key, naming the key field among the fields still drops it, and keeps the other named field |
| RecordTable.CreateSaveSql | meta_table.class.php:773-816 | the statement is an INSERT for a new record and an UPDATE otherwise |
| RecordTable.UpdateTextsAgree | meta_table.class.php:773-848 | `save` and `create_save_sql` build the same UPDATE text for the same columns |
| RecordTable.Load | meta_table.class.php:718-771 | `load` fails without an id or without fields; otherwise it selects the fields by the WHERE clause; on a row it sets the data, runs the load hooks and takes the snapshot |
| RecordTable.LoadedIsClean | meta_table.class.php:762-764 | after a successful load with `retain_dirty`, no loaded field is dirty |
| RecordTable.Delete | meta_table.class.php:891-906 | `delete` issues `DELETE FROM` with the WHERE clause, and reports a failed execute |
| RecordTable.DeleteOwnRow | meta_table.class.php:891-912 | with no id, `delete` targets the record's own key |
| RecordTable.UpdateFields | meta_table.class.php:918-957 | `update_fields` runs only with an id and an updatable field; on success it stores the values locally when the id is the record's own, and otherwise it reports an error |
| RecordTable.UpdateStoresLocally | meta_table.class.php:918-957 | after such an update, each plain field holds its prepared value |
| RecordTable.SelectClause | meta_table.class.php:1009-1018 | `*` is kept as it is; otherwise the names are qualified by the table and wrapped; no database field at all raises |
| RecordTable.QualifiedList | meta_table.class.php:1009-1018 | the source's joined string equals the join of the individually qualified names |
| RecordTable.CleanEnumOptionLosesQuotes | meta_table.class.php:1072-1074 | as written, an option `'a'` of an enum comes back as `a`, without its quotes |
| RecordTable.CleanEnumOptionExact | meta_table.class.php:1072-1074 | the corrected cleaning recovers exactly the option an enum literal encodes |
| RecordTable.CleanEnumAgrees | meta_table.class.php:1072-1074 | for options that do not start or end with a quote, both cleanings agree |
| Couchbase.InitCouchbase | database/couchbase/record_table_couchbase.class.php:11-20 | numbers are not quoted; a key field in the meta table gets `field_as = META().id` and `db_readonly`, and nothing else changes |
| Couchbase.CouchbaseWhere | database/couchbase/record_table_couchbase.class.php:23-26 | the left side is `META(table).id` with an auto key and the key field otherwise; the id is encoded as in the relational WHERE clause |
| Couchbase.SaveResult | database/couchbase/record_table_couchbase.class.php:28-31 | a truthy result becomes `true`; anything else is passed on |
| Couchbase.FormatUuidV4 | database/couchbase/record_table_couchbase.class.php:33-45 | the language of `is_new`'s UUID pattern (the keys come from the database's `UUID()`, not from PHP): every version-4 UUID formatted from 16 bytes has the 8-4-4-4-12 lower-case shape, version nibble 4 and variant `10` |
| Couchbase.ParseFormat | database/couchbase/record_table_couchbase.class.php:33-45 | the language of `is_new`'s UUID pattern: parsing a formatted UUID gives back its bytes with the version and variant bits set |
| Couchbase.FormatParse | database/couchbase/record_table_couchbase.class.php:33-45 | the language of `is_new`'s UUID pattern: every string the pattern accepts is the formatting of its own bytes |
| Couchbase.GeneratedKeyIsNotNew | database/couchbase/record_table_couchbase.class.php:33-45 | `is_new` takes no string of the pattern's language for a new record, and takes every integer key for a new one |
| Validate.NewRequire | validate.class.php:115-126 | the required rule refuses `''`, null and every extra error value |
| Validate.RequireDefault | validate.class.php:128-137 | the plain required rule fails exactly for `''` and null |
| Validate.RequireRefusesExtra | validate.class.php:115-137 | every extra error value, `''` and null fail the required rule |
| Validate.LengthRules | validate.class.php:207-309 | a non-empty string passes min, max and exact length by comparing its length; every other value passes |
| Validate.DigitIntegers | validate.class.php:322-345 | an integer passes the digit rule exactly when it is not negative |
| Validate.DigitImpliesAlphaNum | validate.class.php:322-473 | a value that passes the digit rule passes the alphanumeric rule |
| Validate.WhiteAndBlackDisagree | validate.class.php:1901-1955 | for a non-null value, the white and black lists over the same values never both accept |
| Validate.CheckSum | validate.class.php:1104-1132 | the checksum passes exactly when the Luhn sum of the digits is divisible by 10; non-digits raise |
| Validate.DiscoverExample | validate.class.php:1104-1132 | the number `6011000000000004` has a Luhn sum of 10 and passes |
| Validate.DelimitedRequirement | validate.class.php:1408-1428 | a delimited string passes when it has at least the required number of parts |
| Validate.AllOrNoneMeaning | validate.class.php:1214-1247 | all-or-none passes exactly when every field is filled or none is |
| Validate.GroupMatchMeaning | validate.class.php:1440-1464 | group-match passes exactly when every present value loosely equals the first |
| Validate.GroupNoMatchMeaning | validate.class.php:1475-1497 | group-no-match passes exactly when the present values are pairwise loosely distinct |
| Validate.RequireCountMonotone | validate.class.php:1366-1397 | filling in a value never lowers the count of filled fields |
| Validate.GroupsWithInputMonotone | validate.class.php:1311-1365 | filling in a value never lowers the number of groups with input, in either reading of group entries |
| Validate.GroupMaskMonotone | validate.class.php:1311-1365 | (corrected reading, see Findings) if the mask rule accepts after one more field is filled, it accepted before |
| Validate.RequireOneGroupMonotone | validate.class.php:1259-1310 | filling in a value never breaks the one-group rule, in either reading of group entries |
| Validate.GroupsOfNamesIgnored | validate.class.php:1259-1355 | as written, groups listed by field name are never seen as filled |
| Validate.GroupsByName | validate.class.php:1259-1355 | when groups hold field objects, reading them by name gives the same one-group verdict and the same count of groups with input |
| Validate.Setup | validate.class.php:21-35 | `setup` names the validator, prefixes an alternative error that starts with a space, takes a group's fields, and returns the attributes of max and exact length, disable and read-only |
| Validate.ValidError | validate.class.php:47-58 | a failing validator records its alternative error, or the default message, de-duplicated |
| Validate.Validate | validate.class.php:41-58 | (group-mask and one-group rules use the corrected group-entry reading, see Findings) a passing validator is unchanged; a failing one records its error |
| Validate.FailureReported | validate.class.php:47-58 | after a failure, the alternative error or the default message is among the errors |
| Form.AddAttributesSets | form.class.php:351-361 | every given key becomes valid and holds its last given value; other attributes are kept |
| Form.SetupAttributesGuarded | form.class.php:380-386 | attributes from `setup` are applied only for keys that are already valid |
| Form.ValidationGuardsAttributes | form.class.php:363-388 | adding validation never adds an attribute that is not valid, and keeps the others |
| Form.MaxLengthDropped | form.class.php:334-388 | a field with the base attribute list (`id`, `name`, `value`, `disabled`) given a max-length rule gets no `maxlength` attribute, because the key is not declared valid; subclasses such as the text field (line 490) declare it |
| Form.MaxLengthDeclared | form.class.php:337-388 | once `maxlength` is declared, the rule sets it to the length |
| Form.DisabledApplied | form.class.php:337-388 | the disable rule sets `disabled` on a plain field |
| Form.AddFields | form.class.php:34-52 | `add_fields` sorts members into groups and fields in order, ignoring non-objects |
| Form.AddFieldsConcat | form.class.php:34-52 | adding two lists in turn is the same as adding them joined |
| Form.AddFieldsAppends | form.class.php:34-52 | adding members appends exactly their field objects to the fields and their group objects to the child groups, each in the members' order; nothing else is added |
| Form.FieldsInCount | form.class.php:34-52 | the fields added are exactly the field members, in order |
| Form.AllFields | form.class.php:282-292 | `get_all_fields` holds the group's own fields and every child group's fields |
| Form.AddValidation | form.class.php:54-85 | group rules stay on the group, bound to all its fields; other rules go to each field and each child group |
| Form.EveryFieldReceives | form.class.php:54-85 | every field in the tree receives the single-value rules |
| Form.AddValidationKeepsNames | form.class.php:54-85 | adding validation keeps the field names |
| Form.GetField | form.class.php:306-317 | `get_field` returns the first field with a loosely equal name in `get_all_fields` order, and nothing exactly when there is none |
| Form.GetFieldFindsEveryField | form.class.php:306-317 | every field of the tree can be found by its name |
| Form.MergeValuesMeaning | form.class.php:119-140 | the merge holds every key any argument gives; a later argument wins |
| Form.MergeOne | form.class.php:119-140 | merging a single array returns it unchanged |
| Form.MergeTakesDefault | form.class.php:119-140 | with two or more arguments, a field missing from an argument takes that argument's `_default` value |
| Form.RunValidators | form.class.php:391-430 | a field is valid exactly when every one of its validators passes; all of them run |
| Form.RunValidatorsPassing | form.class.php:391-430 | when all validators pass, nothing is recorded |
| Form.RunValidatorsReports | form.class.php:391-430 | every failing validator's errors reach the field |
| Form.FieldValue | form.class.php:391-400 | the value is `values[name]`, else `values[name_default]`, else null |
| Form.FieldValidate | form.class.php:391-430 | (corrected: each item checked directly, see Findings) a field is valid exactly when its validators accept its value, or every item of an array value |
| Form.NullDefaultDiverges | form.class.php:391-430 | as written, a `_default` entry holding a null item never finishes |
| Form.NullItemReadsDefault | form.class.php:391-430 | as written, a value `[null]` with a `<name>_default` entry validates the default, while the corrected validation checks the null item |
| Form.AsWrittenAgrees | form.class.php:391-430 | without null items, the code as written and the corrected validation agree |
| Form.Collect | form.class.php:87-117 | (with the corrected field validation) the combined run succeeds exactly when every part succeeds, keeping each part's result |
| Form.CollectRaisesFirst | form.class.php:87-117 | (with the corrected field validation) a combined run raises the first error raised |
| Form.GroupRunSucceeds | form.class.php:87-117 | (with the corrected field validation) group validation completes exactly when every child group's and field's does |
| Form.GroupRunValid | form.class.php:87-117 | (with the corrected field validation, and the corrected group-entry reading for group-mask and one-group rules, see Findings) a group is valid exactly when every group rule, child group and field is valid |
| Form.ValidGroupHasValidFields | form.class.php:87-117 | (with the corrected field validation) in a valid group, every field of the tree is valid |
| Php.LooseNumericForms | validate.class.php:1948 | loose comparison reads an exponent and surrounding white space as part of a number, and a trailing letter makes a string non-numeric |
| Php.FractionForms | validate.class.php:1948 | an integer loosely equals its text with one fraction digit exactly when that digit is 0 |
| Auth.Normalise | auth.class.php:277-285 | a single permission becomes one group of one; otherwise each entry becomes a group, a list standing for itself |
| Auth.NormaliseEncode | auth.class.php:277-285 | a requirement already in normal form is left as it is |
| Auth.CheckAccessMeaning | auth.class.php:253-301 | access is granted exactly when the requirement is truthy and some group has all its permissions in the access list |
| Auth.GoodMeaning | auth.class.php:288-298 | the inner loop holds exactly when every permission of the group is found; without an access array it raises unless the group is empty |
| Auth.ScanWithoutArray | auth.class.php:288-300 | without an access array, the scan grants access through an empty first group and raises otherwise |
| Auth.EmptyConjunctionGrants | auth.class.php:288-300 | an empty group grants access to anyone |
| Auth.AccessMonotone | auth.class.php:288-298 | more access rights never take access away |
| Auth.SinglePermissionForms | auth.class.php:277-285 | `"p"`, `["p"]` and `[["p"]]` are the same requirement |
| Auth.FalsyPermissionDenied | auth.class.php:273-275 | a falsy single permission is denied, though the list holding it is granted |

## Left out

- HTMLPurifier. The purifier is an optional string function in `Env`, and its configuration and cache directory are not modelled. It is a foreign library that uses the filesystem.
- Database execution:
  - `execute`, `GetRowAssoc`, `Insert_ID` and the probe query of `is_new` are inputs;
  - `get_enum_options` and `MetaColumns` read the schema and are not modelled;
  - the session debug echo in `save` and `display_debug_backtrace` are output only.
- PHP introspection: `method_exists`, `get_defined_functions` and its cache, and `new $class` are replaced by the name sets of `Env` and by field handles. The side effects of resolver methods are not modelled; they see the data read-only.
- `toggle_meta_table_info_for_all_keys`, `load_fields`, `update_field`, `load_readonly`, `get_raw_data`, `get`, `validate_fields`, `output` and `get_descript`. They are thin wrappers, HTML output, or outside the record mapper's core.
- MetaTable.KeysWith: the `return_meta_info_array` form, which returns the entries instead of the keys, is not modelled.
- MetaTable.RunHooks: the hook results are values supplied through `Env`. A returned string is read by its longest numeric prefix, truncated toward zero; a returned string with no numeric prefix, array or object raises, as PHP 8 does for `&=` on them. A hook entry that is itself a list is not returned as is: it is a parameter array, read as null. PHP's "non-numeric value" warning for a partly numeric string is not modelled.
- Php.LooseEq: numeric strings are compared as exact decimals. PHP reads them as 64-bit integers or IEEE doubles, so rounding, integer overflow to float, `INF` and `NAN` are not modelled. There is no float value: a PHP float only ever appears here as the value of a numeric string.
- The date, regex, numeric, unique, session, special-character and function-adapter validators, and `ExplodingValidator`. They depend on the clock, PCRE, floating point, the database or dynamic callables.
- The base `Validator::validate` is abstract and is not modelled.
- HTML rendering: `output`, `output_fields`, `attributes_html`, `label_html`, the field subclasses' constructors, and `get_errors`, `get_fields_with_error` and `add_field_with_error` in form.class.php. The template content of `error_tpl` is also out: `Base.ErrorTemplate` returns the list it would render.
- Everything in auth.class.php except `check_access`. The rest uses sessions, redirects, SQL, random passwords and the database.
- Couchbase connection, record sets and `translate_sql`, which rewrite SQL against the SDK. Keys are generated by the database's `UUID()`, which is not modelled; the UUID lemmas describe the strings `is_new`'s pattern accepts.
- Paging's form-validation constructor, `base_get_string` and `PagingRecordSet`.
- PHP arrays are maps from strings. `array_merge`'s renumbering of integer keys and PHP's normalisation of numeric-string keys are not modelled. Lists are sequences of values.
- `mb_strlen` counts Dafny characters. There is no multi-byte decoding.
- Objects are values. PHP object identity and `clone` are modelled by value semantics, and a field object is its handle.
- Auth.CheckAccessMeaning: associative permission arrays are modelled as lists. A non-array `user_access` raises `TypeError` as under PHP 8; older PHP versions return null from `array_search` with a warning instead.
- Form.NullDefaultDiverges: the unbounded recursion of the code as written is modelled with a fuel bound. "Never finishes" means "runs out of any fuel".
- Database.MysqlSelectQuery: the contract states the null case and the `SELECT` head, but not the full order of the later clauses.
- Database.MssqlSelectQuery: the contract states the null cases, the head and the `RowNum` bound of the paged query, but not the full text of the unpaged query.
- MetaTable.ProcessCallback: a hook entry cannot be a parameter array with `value` and `callback` entries, because `Value` has no associative arrays; such arrays appear only as the `Params` form of a direct call.
- MetaTable.SetData: for a list input the contract does not promise that every key is set. A list is an array, so only keys naming one of its positions are set.
- Form.MergeValues: a list argument contributes nothing. PHP merges it with its keys renumbered, which is not modelled (see the line on `array_merge` above).
- RecordTable.SaveSqlKeys: the exact kept keys are stated for a duplicate-free key list and a non-numeric key field. With duplicates, only the first copy of the auto key is removed. With a numeric key field, the first numerically equal key is removed (`RemoveFirstLooseNumeric` shows one). For these inputs the contract states only that every kept key is listed and not read-only unless asked for.
- RecordTable.CreateSaveSql: the contract states which statement is built, but not its full column and value lists.
- Validate.DelimitedRequirement: stated for a one-character delimiter only.
- Validate.Passes: alphanumeric is modelled on ASCII letters and digits, as `ctype_alnum` in the C locale.

## Findings

| source | as written | input that shows it | evidently intended | confidence | as-written member | corrected member |
|---|---|---|---|---|---|---|
| meta_table.class.php:1072-1074 | `clean_enum_options` trims every leading and trailing quote, then collapses doubled quotes | the enum option `'a'`, listed as `'''a'''`, comes back as `a` | strip exactly the enclosing quotes, then undouble, giving back `'a'` | not executed | RecordTable.CleanEnumOptionLosesQuotes | RecordTable.CleanEnumOptionExact |
| meta_table.class.php:862-875 | `save` assigns `Insert_ID` to the key of a new auto-key record whenever the result is truthy, even when nothing was written | a new record whose every field is read-only: no INSERT runs, yet the key is set from the connection's last insert id | set the key only after an INSERT that ran and succeeded | not executed | RecordTable.SaveAssignsStaleKey | RecordTable.SaveKeyOnlyAfterInsert |
| validate.class.php:1259-1355 | `ValidRequireOneGroup` and `ValidGroupMask` read `$field->name` on group entries that are documented as field names (strings) | groups `["a"]` and `["b"]` with both fields filled: the groups are never seen as filled | read the entry itself as the field name | not executed | Validate.GroupsOfNamesIgnored | Validate.GroupsByName |
| form.class.php:391-430 | `Field::validate` validates each item of an array value by storing it under the field's name and calling itself again | a field with no entry whose `<name>_default` is `[null]`: the null item makes the inner call read `[null]` again, forever; and `{name: [null], name_default: "x"}`: the null item is replaced by `"x"`, which is validated instead | validate each item directly | not executed | Form.NullDefaultDiverges, Form.NullItemReadsDefault | Form.AsWrittenAgrees |

=== FILE: auth.dfy ===
/** `Auth`: the permission test of the authentication class. A permission
    requirement is a single permission, a list of alternatives, or a list
    whose entries are themselves lists of permissions that are all needed:
    a disjunction of conjunctions. A user's access list satisfies it when
    some conjunction has every one of its permissions in the list. */
module Auth {
  import opened Php

  /** What `array_search` raises under PHP 8 when the haystack is not an
      array. */
  const SearchError: string := "TypeError: array_search(): Argument #2 ($haystack) must be of type array"

  /** One entry of the requirement as a conjunction: a list stands for
      itself, anything else for the list holding just it. */
  function Conjunction(e: Value): seq<Value> {
    if e.List? then e.items else [e]
  }

  /** The requirement fitted into a list of conjunctions. */
  function Normalise(permissions: Value): (r: seq<seq<Value>>)
    ensures !permissions.List? ==> r == [[permissions]]
    ensures permissions.List? ==> |r| == |permissions.items|
                                  && forall k :: 0 <= k < |r| ==> r[k] == Conjunction(permissions.items[k])
  {
    var es := if permissions.List? then permissions.items else [permissions];
    seq(|es|, k requires 0 <= k < |es| => Conjunction(es[k]))
  }

  /** A requirement written out in its normal form. */
  function Encode(groups: seq<seq<Value>>): (r: Value)
    ensures r.List? && |r.items| == |groups| && forall k :: 0 <= k < |groups| ==> r.items[k] == List(groups[k])
  {
    List(seq(|groups|, k requires 0 <= k < |groups| => List(groups[k])))
  }

  /** Normalising a requirement already in normal form changes nothing, so
      the normal form is a fixed point. */
  lemma NormaliseEncode(groups: seq<seq<Value>>)
    ensures Normalise(Encode(groups)) == groups
  {
  }

  /** A truthy requirement has at least one conjunction. */
  lemma TruthyHasConjunction(permissions: Value)
    requires Truthy(permissions)
    ensures |Normalise(permissions)| >= 1
  {
  }

  /** Every permission of a conjunction is in the access list. */
  predicate Holds(group: seq<Value>, access: seq<Value>) {
    forall k :: 0 <= k < |group| ==> LooseIn(group[k], access)
  }

  /** Some conjunction holds. */
  predicate Grants(groups: seq<seq<Value>>, access: seq<Value>) {
    exists g :: 0 <= g < |groups| && Holds(groups[g], access)
  }

  /** `array_search($needle, $haystack) !== false`. */
  function Search(needle: Value, haystack: Value): (r: Outcome<bool>)
    ensures r.Raised? <==> !haystack.List?
    ensures haystack.List? ==> r == Ok(LooseIn(needle, haystack.items))
  {
    if haystack.List? then Ok(LooseIn(needle, haystack.items)) else Raised(SearchError)
  }

  /** The inner loop: every permission of the conjunction is searched for
      in turn, and `$good` ends true when none is missing. */
  function Good(group: seq<Value>, userAccess: Value): Outcome<bool> {
    if |group| == 0 then Ok(true)
    else
      var front := Good(group[..|group| - 1], userAccess);
      var found := Search(group[|group| - 1], userAccess);
      if front.Raised? then front
      else if found.Raised? then Raised(found.reason)
      else Ok(front.value && found.value)
  }

  /** The outer loop from conjunction `i` on: the first conjunction that
      holds ends the scan with `true`. */
  function Scan(groups: seq<seq<Value>>, userAccess: Value, i: nat): Outcome<bool>
    requires i <= |groups|
    decreases |groups| - i
  {
    if i == |groups| then Ok(false)
    else
      var good := Good(groups[i], userAccess);
      if good.Raised? then good
      else if good.value then Ok(true)
      else Scan(groups, userAccess, i + 1)
  }

  /** `Auth::check_access($user_access, $permissions)`. */
  function CheckAccess(userAccess: Value, permissions: Value): Outcome<bool> {
    if !Truthy(permissions) then Ok(false) else Scan(Normalise(permissions), userAccess, 0)
  }

  /** The inner loop decides whether the conjunction holds; with no array of
      access rights it raises unless the conjunction is empty. */
  lemma {:induction false} GoodMeaning(group: seq<Value>, userAccess: Value)
    ensures userAccess.List? ==> Good(group, userAccess) == Ok(Holds(group, userAccess.items))
    ensures !userAccess.List? ==> Good(group, userAccess) == (if |group| == 0 then Ok(true) else Raised(SearchError))
  {
    if |group| > 0 {
      var n := |group| - 1;
      GoodMeaning(group[..n], userAccess);
      if userAccess.List? {
        var front, access := group[..n], userAccess.items;
        assert Holds(group, access) <==> Holds(front, access) && LooseIn(group[n], access) by {
          assert forall k :: 0 <= k < n ==> front[k] == group[k];
        }
      }
    }
  }

  /** The outer loop from conjunction `i` on grants access exactly when one
      of the remaining conjunctions holds. */
  lemma {:induction false} ScanMeaning(groups: seq<seq<Value>>, access: seq<Value>, i: nat)
    requires i <= |groups|
    ensures Scan(groups, List(access), i) == Ok(exists g :: i <= g < |groups| && Holds(groups[g], access))
    decreases |groups| - i
  {
    if i < |groups| {
      GoodMeaning(groups[i], List(access));
      ScanMeaning(groups, access, i + 1);
    }
  }

  /** With no array of access rights the scan stops at the first
      conjunction: an empty one grants access, any other raises. */
  lemma ScanWithoutArray(groups: seq<seq<Value>>, userAccess: Value)
    requires !userAccess.List? && |groups| >= 1
    ensures Scan(groups, userAccess, 0) == (if |groups[0]| == 0 then Ok(true) else Raised(SearchError))
  {
    GoodMeaning(groups[0], userAccess);
  }

  /** `check_access` denies a falsy requirement, and otherwise grants access
      exactly when some conjunction of the normal form holds. */
  lemma CheckAccessMeaning(access: seq<Value>, permissions: Value)
    ensures CheckAccess(List(access), permissions) == Ok(Truthy(permissions) && Grants(Normalise(permissions), access))
  {
    if Truthy(permissions) {
      ScanMeaning(Normalise(permissions), access, 0);
    }
  }

  /** A requirement with an empty conjunction is met by anyone, whatever
      their access rights. */
  lemma EmptyConjunctionGrants(access: seq<Value>, permissions: Value, g: nat)
    requires permissions.List? && g < |permissions.items| && permissions.items[g] == List([])
    ensures CheckAccess(List(access), permissions) == Ok(true)
  {
    CheckAccessMeaning(access, permissions);
    assert Normalise(permissions)[g] == [];
    assert Holds(Normalise(permissions)[g], access);
  }

  /** More access rights never take access away. */
  lemma AccessMonotone(a: seq<Value>, b: seq<Value>, permissions: Value)
    requires forall k :: 0 <= k < |a| ==> StrictIn(a[k], b)
    requires CheckAccess(List(a), permissions) == Ok(true)
    ensures CheckAccess(List(b), permissions) == Ok(true)
  {
    CheckAccessMeaning(a, permissions);
    CheckAccessMeaning(b, permissions);
    var groups := Normalise(permissions);
    var g :| 0 <= g < |groups| && Holds(groups[g], a);
    forall k | 0 <= k < |groups[g]| ensures LooseIn(groups[g][k], b) {
      var j :| 0 <= j < |a| && LooseEq(a[j], groups[g][k]);
      var m :| 0 <= m < |b| && b[m] == a[j];
    }
  }

  /** A truthy single permission, the list of just it, and the list holding
      the list of just it are the same requirement. */
  lemma SinglePermissionForms(userAccess: Value, p: Value)
    requires !p.List? && Truthy(p)
    ensures CheckAccess(userAccess, p) == CheckAccess(userAccess, List([p]))
    ensures CheckAccess(userAccess, p) == CheckAccess(userAccess, List([List([p])]))
  {
    assert Normalise(List([p]))[0] == [p];
    assert Normalise(List([List([p])]))[0] == [p];
    assert Normalise(p) == Normalise(List([p])) == Normalise(List([List([p])]));
  }

  /** A falsy single permission is denied, though the list holding it asks
      for it like any other permission. */
  lemma FalsyPermissionDenied(access: seq<Value>, p: Value)
    requires !p.List? && !Truthy(p) && StrictIn(p, access)
    ensures CheckAccess(List(access), p) == Ok(false)
    ensures CheckAccess(List(access), List([p])) == Ok(true)
  {
    CheckAccessMeaning(access, List([p]));
    var m :| 0 <= m < |access| && access[m] == p;
    LooseEqReflexive(p);
    assert Normalise(List([p]))[0] == [p];
    assert LooseIn(p, access) by {
      assert LooseEq(access[m], p);
    }
    assert Holds(Normalise(List([p]))[0], access);
  }
}

=== FILE: base.dfy ===
/** `Base`: the friendly error-message list every toolkit object carries.
    Messages are appended and the list is then de-duplicated, keeping the
    first occurrence of each message in order (`array_unique`). */
module Base {

  predicate NoDuplicates(s: seq<string>) {
    forall i, j :: 0 <= i < j < |s| ==> s[i] != s[j]
  }

  /** Joining sequences is associative; stated for any element type, which
      keeps the element type's own axioms out of the proof. */
  lemma ConcatAssoc<T>(a: seq<T>, b: seq<T>, c: seq<T>)
    ensures a + b + c == a + (b + c)
  {
  }

  /** Updating the right operand of a map union updates the union; stated
      for any key and value type. */
  lemma UnionUpdate<K, V>(a: map<K, V>, b: map<K, V>, k: K, v: V)
    ensures a + b[k := v] == (a + b)[k := v]
  {
  }

  lemma NoDuplicatesTail(s: seq<string>)
    requires NoDuplicates(s) && |s| > 0
    ensures NoDuplicates(s[1..]) && s[0] !in s[1..]
  {
  }

  lemma NoDuplicatesCons(x: string, s: seq<string>)
    requires NoDuplicates(s) && x !in s
    ensures NoDuplicates([x] + s)
  {
    var r := [x] + s;
    forall i, j | 0 <= i < j < |r| ensures r[i] != r[j] {
      if i == 0 {
        assert r[j] == s[j - 1];
      }
    }
  }

  /** The position of the first occurrence of `x` in `s`. */
  function FirstIndex(s: seq<string>, x: string): (k: nat)
    requires x in s
    ensures k < |s| && s[k] == x && x !in s[..k]
    ensures forall j :: 0 <= j < k ==> s[j] != x
  {
    if s[0] == x then 0
    else
      var k := FirstIndex(s[1..], x);
      assert s[..k + 1] == [s[0]] + s[1..][..k];
      k + 1
  }

  /** Extending a list after the first occurrence of `x` does not move it. */
  lemma FirstIndexOfPrefix(s: seq<string>, m: nat, x: string)
    requires m <= |s| && x in s[..m]
    ensures FirstIndex(s, x) == FirstIndex(s[..m], x)
  {
    var a := FirstIndex(s, x);
    var b := FirstIndex(s[..m], x);
    assert s[b] == x;
    assert forall j :: 0 <= j < b ==> s[j] == s[..m][j];
  }

  /** `array_unique` on a list of strings: first occurrences, in order. */
  function Unique(s: seq<string>): (r: seq<string>)
    ensures NoDuplicates(r)
    ensures forall x :: x in r <==> x in s
    ensures |r| <= |s|
  {
    if |s| == 0 then []
    else
      var prefix := Unique(s[..|s| - 1]);
      if s[|s| - 1] in prefix then prefix else prefix + [s[|s| - 1]]
  }

  /** The kept messages appear in the order of their first occurrences. */
  lemma {:induction false} UniqueOrder(s: seq<string>)
    ensures forall i, j :: 0 <= i < j < |Unique(s)| ==> FirstIndex(s, Unique(s)[i]) < FirstIndex(s, Unique(s)[j])
  {
    if |s| > 0 {
      var init := s[..|s| - 1];
      var last := s[|s| - 1];
      var prefix := Unique(init);
      UniqueOrder(init);
      forall i | 0 <= i < |prefix|
        ensures prefix[i] in s && FirstIndex(s, prefix[i]) == FirstIndex(init, prefix[i])
      {
        assert prefix[i] in init;
        FirstIndexOfPrefix(s, |s| - 1, prefix[i]);
      }
      if last !in prefix {
        assert last !in init;
        assert FirstIndex(s, last) == |s| - 1;
      }
    }
  }

  /** A list without duplicates is its own de-duplication. */
  lemma {:induction false} UniqueOfDistinct(s: seq<string>)
    requires NoDuplicates(s)
    ensures Unique(s) == s
  {
    if |s| > 0 {
      UniqueOfDistinct(s[..|s| - 1]);
    }
  }

  /** De-duplicating a list whose prefix is already distinct keeps that prefix
      in place: earlier messages never move. */
  lemma {:induction false} UniqueKeepsDistinctPrefix(p: seq<string>, s: seq<string>)
    requires NoDuplicates(p)
    ensures |Unique(p + s)| >= |p| && Unique(p + s)[..|p|] == p
    decreases |s|
  {
    if |s| == 0 {
      assert p + s == p;
      UniqueOfDistinct(p);
    } else {
      var q := p + s;
      assert q[..|q| - 1] == p + s[..|s| - 1];
      UniqueKeepsDistinctPrefix(p, s[..|s| - 1]);
    }
  }

  /** The argument of `Base::error`: one message or an array of them. */
  datatype Message = One(text: string) | Many(texts: seq<string>)

  function Texts(m: Message): seq<string> {
    match m
    case One(t) => [t]
    case Many(ts) => ts
  }

  /** `Base::error`: append, then de-duplicate. */
  function AddError(errors: seq<string>, m: Message): (r: seq<string>)
    ensures NoDuplicates(r)
    ensures forall x :: x in r <==> x in errors || x in Texts(m)
  {
    Unique(errors + Texts(m))
  }

  /** The list `AddError` leaves holds each message once, ordered by where
      it first appears in the old list followed by the new messages. */
  lemma AddErrorOrder(errors: seq<string>, m: Message)
    ensures forall i, j :: 0 <= i < j < |AddError(errors, m)| ==>
      FirstIndex(errors + Texts(m), AddError(errors, m)[i]) < FirstIndex(errors + Texts(m), AddError(errors, m)[j])
  {
    UniqueOrder(errors + Texts(m));
  }

  /** After any call, the messages recorded before it keep their positions
      (provided the list was already duplicate-free, as every list built by
      `AddError` is), and exactly the new messages are added. */
  lemma AddErrorExtends(errors: seq<string>, m: Message)
    requires NoDuplicates(errors)
    ensures |AddError(errors, m)| >= |errors|
    ensures AddError(errors, m)[..|errors|] == errors
  {
    UniqueKeepsDistinctPrefix(errors, Texts(m));
  }

  /** Reporting a message already in the list leaves the list unchanged. */
  lemma AddKnownError(errors: seq<string>, text: string)
    requires NoDuplicates(errors)
    requires text in errors
    ensures AddError(errors, One(text)) == errors
  {
    UniqueOfDistinct(errors);
  }

  /** `error_tpl`: the template payload, or nothing for an empty list. */
  function ErrorTemplate(errors: seq<string>): (r: Template)
    ensures r.NoTemplate? <==> |errors| == 0
    ensures r.ErrorList? ==> r.errors == errors
  {
    if |errors| == 0 then NoTemplate else ErrorList(errors)
  }

  /** What `error_tpl` returns: nothing, or the error template filled with
      the list. */
  datatype Template = NoTemplate | ErrorList(errors: seq<string>)
}

=== FILE: couchbase.dfy ===
/** `Couchbase`: what `Record_Table_Couchbase` changes about a record table.
    Keys are document ids: the key field is read as `META().id` and never
    written, numbers are not quoted, the WHERE clause can name the document
    id, and `is_new` takes an auto key for an existing record exactly when it
    matches a lower-case version-4 UUID pattern (section 4.4 of RFC 4122).
    The keys themselves come from the database's `UUID()`; `FormatUuidV4`
    describes the language of the pattern, not a generator of the toolkit. */
module Couchbase {
  import opened Strings
  import opened Php
  import opened MetaTable
  import opened Sql
  import Database

  // ---------------------------------------------------------------------
  // UUID version 4
  // ---------------------------------------------------------------------

  type Byte = b: int | 0 <= b < 256

  const HexDigits: string := "0123456789abcdef"

  /** The positions of the four hyphens of the 8-4-4-4-12 layout. */
  predicate HyphenAt(i: int) {
    i == 8 || i == 13 || i == 18 || i == 23
  }

  /** The pattern `^[0-9a-f]{8}-[0-9a-f]{4}-4[0-9a-f]{3}-[89ab][0-9a-f]{3}-[0-9a-f]{12}`
      over the whole string: version nibble 4, variant bits `10`. */
  predicate UuidShape(s: string) {
    |s| == 36
    && (forall i :: 0 <= i < 36 ==> if HyphenAt(i) then s[i] == '-' else IsLowerHex(s[i]))
    && s[14] == '4'
    && (s[19] == '8' || s[19] == '9' || s[19] == 'a' || s[19] == 'b')
  }

  /** `preg_match` of the pattern with a final `$`, which PCRE also lets
      match just before a final line feed. */
  predicate MatchesUuidV4(s: string) {
    UuidShape(s) || (|s| == 37 && s[36] == '\n' && UuidShape(s[..36]))
  }

  /** The Couchbase `is_new` for an auto-generated key: anything but a
      string matching the pattern is new. */
  predicate IsNewAuto(id: Value) {
    !(id.Str? && MatchesUuidV4(id.s))
  }

  function HexValue(c: char): (n: nat)
    requires IsLowerHex(c)
    ensures n < 16 && HexDigits[n] == c
  {
    if IsDigit(c) then c as int - '0' as int else c as int - 'a' as int + 10
  }

  lemma HexValueOfDigit(n: nat)
    requires n < 16
    ensures IsLowerHex(HexDigits[n]) && HexValue(HexDigits[n]) == n
  {
  }

  /** Two lower-case hexadecimal digits per byte, high nibble first. */
  function HexOf(bs: seq<Byte>): (r: string)
    ensures |r| == 2 * |bs|
  {
    seq(2 * |bs|, i requires 0 <= i < 2 * |bs| =>
      if i % 2 == 0 then HexDigits[bs[i / 2] / 16] else HexDigits[bs[i / 2] % 16])
  }

  predicate AllHex(s: string) {
    forall i :: 0 <= i < |s| ==> IsLowerHex(s[i])
  }

  lemma HexOfIsHex(bs: seq<Byte>)
    ensures AllHex(HexOf(bs))
  {
    var r := HexOf(bs);
    forall i | 0 <= i < |r| ensures IsLowerHex(r[i]) {
      HexValueOfDigit(bs[i / 2] / 16);
      HexValueOfDigit(bs[i / 2] % 16);
    }
  }

  /** The bytes a string of hexadecimal digit pairs spells. */
  function DecodeHex(s: string): (r: seq<Byte>)
    requires |s| % 2 == 0 && AllHex(s)
    ensures |r| * 2 == |s|
  {
    seq(|s| / 2, j requires 0 <= j < |s| / 2 => HexValue(s[2 * j]) * 16 + HexValue(s[2 * j + 1]))
  }

  lemma DecodeHexOf(bs: seq<Byte>)
    ensures AllHex(HexOf(bs)) && DecodeHex(HexOf(bs)) == bs
  {
    HexOfIsHex(bs);
    var t := HexOf(bs);
    var r := DecodeHex(t);
    forall j | 0 <= j < |bs| ensures r[j] == bs[j] {
      assert t[2 * j] == HexDigits[bs[j] / 16];
      assert t[2 * j + 1] == HexDigits[bs[j] % 16];
      HexValueOfDigit(bs[j] / 16);
      HexValueOfDigit(bs[j] % 16);
    }
  }

  lemma HexOfDecode(s: string)
    requires |s| % 2 == 0 && AllHex(s)
    ensures HexOf(DecodeHex(s)) == s
  {
    var bs := DecodeHex(s);
    var r := HexOf(bs);
    forall i | 0 <= i < |s| ensures r[i] == s[i] {
      var j := i / 2;
      var hi, lo := HexValue(s[2 * j]), HexValue(s[2 * j + 1]);
      assert bs[j] == hi * 16 + lo;
      assert bs[j] / 16 == hi && bs[j] % 16 == lo;
      assert i == 2 * j || i == 2 * j + 1;
    }
  }

  /** Sets the version nibble (byte 6) to 4 and the variant bits (byte 8)
      to `10`, keeping the other 122 bits. */
  function Versioned(b: seq<Byte>): (r: seq<Byte>)
    requires |b| == 16
    ensures |r| == 16
  {
    b[6 := 64 + b[6] % 16][8 := 128 + b[8] % 64]
  }

  /** Where character `i` of the 8-4-4-4-12 layout comes from in the 32
      digits, and back. */
  function DigitIndex(i: int): int {
    if i < 8 then i else if i < 13 then i - 1 else if i < 18 then i - 2 else if i < 23 then i - 3 else i - 4
  }

  function LayoutIndex(j: int): int {
    if j < 8 then j else if j < 12 then j + 1 else if j < 16 then j + 2 else if j < 20 then j + 3 else j + 4
  }

  /** The 32 digits laid out 8-4-4-4-12. */
  function Hyphenate(t: string): (r: string)
    requires |t| == 32
    ensures |r| == 36
  {
    seq(36, i requires 0 <= i < 36 => if HyphenAt(i) then '-' else t[DigitIndex(i)])
  }

  function Unhyphenate(s: string): (t: string)
    requires |s| == 36
    ensures |t| == 32
  {
    seq(32, j requires 0 <= j < 32 => s[LayoutIndex(j)])
  }

  /** The lower-case version-4 UUID that section 4.4 of RFC 4122 builds from
      16 bytes: the strings the `is_new` pattern accepts are exactly these. */
  function FormatUuidV4(b: seq<Byte>): (r: string)
    requires |b| == 16
    ensures UuidShape(r)
  {
    var v := Versioned(b);
    var t := HexOf(v);
    HexOfIsHex(v);
    assert t[12] == HexDigits[v[6] / 16] && v[6] / 16 == 4;
    assert t[16] == HexDigits[v[8] / 16] && 8 <= v[8] / 16 < 12;
    Hyphenate(t)
  }

  /** The 16 bytes a UUID string spells. */
  function ParseUuid(s: string): (r: seq<Byte>)
    requires UuidShape(s)
    ensures |r| == 16
  {
    assert AllHex(Unhyphenate(s)) by {
      forall j | 0 <= j < 32 ensures IsLowerHex(Unhyphenate(s)[j]) {
        assert !HyphenAt(LayoutIndex(j));
      }
    }
    DecodeHex(Unhyphenate(s))
  }

  /** Parsing a formatted UUID gives back the bytes with the version and
      variant bits set. */
  lemma ParseFormat(b: seq<Byte>)
    requires |b| == 16
    ensures ParseUuid(FormatUuidV4(b)) == Versioned(b)
  {
    var v := Versioned(b);
    var t := HexOf(v);
    assert Unhyphenate(Hyphenate(t)) == t by {
      forall j | 0 <= j < 32 ensures Unhyphenate(Hyphenate(t))[j] == t[j] {
        assert !HyphenAt(LayoutIndex(j)) && DigitIndex(LayoutIndex(j)) == j;
      }
    }
    DecodeHexOf(v);
  }

  /** Every string of the UUID shape is the formatting of its own bytes:
      the pattern admits exactly the version-4 UUIDs. */
  lemma FormatParse(s: string)
    requires UuidShape(s)
    ensures FormatUuidV4(ParseUuid(s)) == s
  {
    var t := Unhyphenate(s);
    assert t[12] == s[14] && t[16] == s[19];
    var bs := DecodeHex(t);
    assert bs[6] == HexValue(t[12]) * 16 + HexValue(t[13]) && t[12] == '4';
    assert bs[8] == HexValue(t[16]) * 16 + HexValue(t[17]) && 8 <= HexValue(t[16]) < 12;
    assert Versioned(bs) == bs;
    HexOfDecode(t);
    assert Hyphenate(t) == s by {
      forall i | 0 <= i < 36 ensures Hyphenate(t)[i] == s[i] {
        if !HyphenAt(i) {
          assert LayoutIndex(DigitIndex(i)) == i;
        }
      }
    }
  }

  /** A key in the pattern's language, such as one the database's `UUID()`
      generates, is never taken for a new record, and no integer key is ever
      taken for an existing one. */
  lemma GeneratedKeyIsNotNew(b: seq<Byte>, n: int)
    requires |b| == 16
    ensures !IsNewAuto(Str(FormatUuidV4(b)))
    ensures IsNewAuto(Int(n))
  {
  }

  // ---------------------------------------------------------------------
  // Configuration, WHERE clause and save result
  // ---------------------------------------------------------------------

  datatype Setup = Setup(config: Config, table: Table)

  /** `init_couchbase`: numbers are no longer quoted; a key field present
      in the meta table is read as `META().id` and becomes read-only. */
  function InitCouchbase(c: Config, t: Table): (r: Setup)
    ensures r.config == c.(quoteNumbers := false, couchbase := true)
    ensures t.Valid() ==> r.table.Valid()
    ensures c.keyField in t.info ==>
      GetInfo(r.table, c.keyField, "field_as", Null) == Str("META().id")
      && GetInfo(r.table, c.keyField, "db_readonly", Null) == Bool(true)
      && r.table.keys == t.keys
    ensures c.keyField in t.info ==>
      forall k, ik :: k != c.keyField || (ik != "field_as" && ik != "db_readonly") ==>
        Lookup(r.table, k, ik) == Lookup(t, k, ik)
    ensures c.keyField !in t.info ==> r.table == t
  {
    var config := c.(quoteNumbers := false, couchbase := true);
    if c.keyField in t.info then
      var t1 := SetInfo(t, c.keyField, "field_as", Str("META().id"));
      Setup(config, SetInfo(t1, c.keyField, "db_readonly", Bool(true)))
    else Setup(config, t)
  }

  /** The left side of the Couchbase WHERE clause. */
  function KeyExpression(c: Config): string {
    if c.autoKey then "META(" + c.tableName + ").id" else c.keyField
  }

  /** The Couchbase `where_clause` for an id already resolved. */
  function CouchbaseWhere(c: Config, db: Db, id: Value): (r: string)
    ensures StartsWith(r, KeyExpression(c) + " = ")
    ensures r[|KeyExpression(c) + " = "|..] == EncodeId(c, db, id)
  {
    PrefixStartsWith(KeyExpression(c) + " = ", EncodeId(c, db, id));
    KeyExpression(c) + " = " + EncodeId(c, db, id)
  }

  /** The Couchbase `save`: a truthy result that is not a boolean becomes
      `true`; anything else is passed on. */
  function SaveResult(q: Database.QueryResult): (r: Database.QueryResult)
    ensures Database.ResultTruthy(r) <==> Database.ResultTruthy(q)
    ensures Database.ResultTruthy(q) ==> r == Database.QTrue
    ensures !Database.ResultTruthy(q) ==> r == q
  {
    if Database.ResultTruthy(q) then Database.QTrue else q
  }
}

=== FILE: database.dfy ===
/** `Database`: the toolkit's extension of the SQL abstraction layer. Only
    the pure parts are modelled: the result check, the fetch-mode stack and
    the select-query builders of the MySQL/MySQLi and MSSQL drivers. */
module Database {
  import opened Strings
  import opened Php
  import NumericString

  /** What `execute` hands back: `false` on failure, `true`, a record set
      (whose `EOF` flag says whether it holds no row), or a plain array. */
  datatype QueryResult =
    | QFalse
    | QTrue
    | QRecordSet(eof: bool)
    | QArray(items: seq<Value>)

  predicate ResultTruthy(q: QueryResult) {
    match q
    case QFalse => false
    case QTrue => true
    case QRecordSet(_) => true
    case QArray(items) => |items| > 0
  }

  /** `results_check`: a failed query is false; with `failEmpty`, so are a
      record set at EOF and an empty array; everything else is true. */
  function ResultsCheck(q: QueryResult, failEmpty: bool): (r: bool)
    ensures q.QFalse? ==> !r
    ensures !failEmpty ==> (r <==> !q.QFalse?)
    ensures failEmpty ==> (r <==> ResultHasRows(q))
  {
    match q
    case QFalse => false
    case QTrue => true
    case QRecordSet(eof) => !(failEmpty && eof)
    case QArray(items) => !(failEmpty && |items| == 0)
  }

  /** The results a caller asking for rows can use: anything but a failure,
      an exhausted record set or an empty array. */
  predicate ResultHasRows(q: QueryResult) {
    match q
    case QFalse => false
    case QTrue => true
    case QRecordSet(eof) => !eof
    case QArray(items) => |items| > 0
  }

  /** A passing check with `failEmpty` implies a passing check without it. */
  lemma ResultsCheckWeakens(q: QueryResult)
    ensures ResultsCheck(q, true) ==> ResultsCheck(q, false)
  {
  }

  /** The connection's fetch mode and the stack of saved modes. */
  datatype FetchState = FetchState(mode: Value, stack: seq<Value>)

  /** `push_fetch_mode`: save the current mode, then switch to the given one
      (`false` when none is given, meaning the global default). */
  function PushFetchMode(st: FetchState, to: Value): (r: FetchState)
    ensures r.stack == st.stack + [st.mode]
    ensures r.mode == (if to == Null then Bool(false) else to)
  {
    FetchState(if to != Null then to else Bool(false), st.stack + [st.mode])
  }

  /** `pop_fetch_mode`: restore the most recently saved mode; `array_pop` on
      an empty stack yields null. */
  function PopFetchMode(st: FetchState): (r: FetchState)
    ensures |st.stack| > 0 ==> r.mode == st.stack[|st.stack| - 1] && r.stack + [r.mode] == st.stack
    ensures |st.stack| == 0 ==> r == FetchState(Null, [])
  {
    if |st.stack| == 0 then FetchState(Null, [])
    else FetchState(st.stack[|st.stack| - 1], st.stack[..|st.stack| - 1])
  }

  /** Pushing then popping restores the state exactly. */
  lemma PushPopRestores(st: FetchState, to: Value)
    ensures PopFetchMode(PushFetchMode(st, to)) == st
  {
    assert (st.stack + [st.mode])[..|st.stack|] == st.stack;
  }

  /** The stack is last-in first-out: nested push/pop pairs restore each
      level in turn. */
  lemma NestedPushPop(st: FetchState, a: Value, b: Value)
    ensures var inner := PushFetchMode(PushFetchMode(st, a), b);
      PopFetchMode(inner) == PushFetchMode(st, a)
      && PopFetchMode(PopFetchMode(inner)) == st
  {
    PushPopRestores(PushFetchMode(st, a), b);
    PushPopRestores(st, a);
  }

  /** The `limit` parameter of `create_select_query`: a scalar, or an array
      with `number` and `offset` entries (a missing entry reads as null). */
  datatype Limit = LimitValue(v: Value) | LimitPage(number: Value, offset: Value)

  /** The parameters of `create_select_query`; `None` is an absent key. */
  datatype SelectQuery = SelectQuery(
    select: Option<Value>,
    from: Option<Value>,
    condition: Option<Value>,
    orderBy: Option<Value>,
    limit: Option<Limit>)

  /** A key that is set and not null (`isset`). */
  predicate Given(p: Option<Value>) {
    p.Some? && p.value != Null
  }

  /** A parameter after `array_merge` with a default: present keys win, even
      when their value is null (which prints as ""). */
  function MergedText(p: Option<Value>, default: string): string {
    if p.Some? then ToStr(p.value) else default
  }

  function LimitText(l: Limit): string {
    match l
    case LimitValue(v) => ToStr(v)
    case LimitPage(_, _) => "Array"
  }

  function Tabs(n: nat): (r: string)
    ensures |r| == n && forall i :: 0 <= i < n ==> r[i] == '\t'
  {
    if n == 0 then "" else "\t" + Tabs(n - 1)
  }

  /** A line break followed by `n` tabs, as the source's multi-line string
      literals contain them (the file uses CRLF line ends). */
  function Break(n: nat): string {
    "\r\n" + Tabs(n)
  }

  /** The MySQL/MySQLi `create_select_query`: null without `from`; otherwise
      select (default `*`), from, where, order-by and limit, each on its own
      line, in that order. */
  function MysqlSelectQuery(q: SelectQuery): (r: Option<string>)
    ensures r.None? <==> !Given(q.from)
    ensures r.Some? ==> StartsWith(r.value, Break(6) + "SELECT ")
  {
    if !Given(q.from) then None
    else
      PrefixStartsWith(Break(6) + "SELECT ", MergedText(q.select, "*") + MysqlFromOn(q));
      Some(Break(6) + "SELECT " + (MergedText(q.select, "*") + MysqlFromOn(q)))
  }

  /** The MySQL query from its `FROM` line on. */
  function MysqlFromOn(q: SelectQuery): (r: string)
    requires Given(q.from)
    ensures StartsWith(r, Break(6) + "FROM ")
  {
    var limit := if q.limit.Some? then LimitText(q.limit.value) else "";
    var rest := ToStr(q.from.value)
      + Break(6) + MergedText(q.condition, "")
      + Break(6) + MergedText(q.orderBy, "")
      + Break(6) + limit;
    PrefixStartsWith(Break(6) + "FROM ", rest);
    Break(6) + "FROM " + rest
  }

  /** A query built without `select` reads every column, while a `select`
      key that is present but null selects nothing: `array_merge` keeps the
      null. */
  lemma MysqlSelectDefault(q: SelectQuery)
    requires Given(q.from)
    ensures q.select.None? ==> StartsWith(MysqlSelectQuery(q).value, Break(6) + "SELECT *")
    ensures q.select == Some(Null) ==> StartsWith(MysqlSelectQuery(q).value, Break(6) + "SELECT " + Break(6) + "FROM ")
  {
    var b := Break(6) + "SELECT ";
    var rest := MysqlFromOn(q);
    if q.select.None? {
      assert MysqlSelectQuery(q).value == b + ("*" + rest);
      PrefixStartsWith("*", rest);
      StartsWithExtend(b, "*" + rest, "*");
      assert b + "*" == Break(6) + "SELECT *";
    }
    if q.select == Some(Null) {
      assert MysqlSelectQuery(q).value == b + ("" + rest);
      assert "" + rest == rest;
      StartsWithExtend(b, rest, Break(6) + "FROM ");
      assert b + (Break(6) + "FROM ") == Break(6) + "SELECT " + Break(6) + "FROM ";
    }
  }

  /** `ctype_digit` on a PHP value: a string of decimal digits; an integer
      between -128 and 255 is read as a character code, any other integer as
      its decimal text; everything else fails. */
  predicate CtypeDigit(v: Value) {
    match v
    case Str(s) => AllDigits(s)
    case Int(i) => if -128 <= i <= 255 then '0' as int <= i <= '9' as int else i > 255
    case _ => false
  }

  /** The whole number a `ctype_digit` value stands for in arithmetic. */
  function CtypeDigitValue(v: Value): int
    requires CtypeDigit(v)
  {
    if v.Int? then v.i else DigitsValue(v.s)
  }

  /** Every `ctype_digit` value is numeric, non-negative and whole. */
  lemma CtypeDigitNumeric(v: Value)
    requires CtypeDigit(v)
    ensures IsNumeric(v) && NumericValue(v) == CtypeDigitValue(v) as real
    ensures CtypeDigitValue(v) >= 0
  {
    if v.Str? {
      NumericString.IntegerStringNumeric(v.s);
    }
  }

  /** The parameter text `isset`-or-default, as the MSSQL builder reads it. */
  function SetText(p: Option<Value>, default: string): string {
    if Given(p) then ToStr(p.value) else default
  }

  /** The MSSQL `create_select_query`. An array limit selects the first
      `offset` rows with a row number and keeps those numbered above
      `offset - number`; when either entry is missing or not a digit string
      no statement is built and null is returned, so a list limit, which has
      neither entry, always gives null. A digit-string limit becomes `TOP n`;
      any other scalar is spliced in verbatim. */
  function MssqlSelectQuery(q: SelectQuery): (r: Option<string>)
    ensures !Given(q.from) ==> r.None?
    ensures Given(q.from) && IsPaged(q) ==>
      (r.Some? <==> CtypeDigit(PageNumber(q.limit.value)) && CtypeDigit(PageOffset(q.limit.value)))
    ensures IsPaged(q) && q.limit.value.LimitValue? ==> r.None?
    ensures Given(q.from) && !IsPaged(q) ==> r.Some?
    ensures r.Some? && IsPaged(q) ==>
      var l := q.limit.value;
      l.LimitPage?
      && StartsWith(r.value, Break(8) + "SELECT *" + Break(8) + "FROM (" + Break(9) + "SELECT TOP " + ToStr(l.offset) + " ")
      && EndsWith(r.value, "WHERE RowNum > " + IntToString(CtypeDigitValue(l.offset) - CtypeDigitValue(l.number)))
  {
    if !Given(q.from) then None
    else
      var select := SetText(q.select, "*");
      var from := ToStr(q.from.value);
      var condition := SetText(q.condition, "");
      var orderBy := SetText(q.orderBy, "");
      if IsPaged(q) then
        var number := PageNumber(q.limit.value);
        var offset := PageOffset(q.limit.value);
        if CtypeDigit(number) && CtypeDigit(offset) then
          Some(PagedText(select, from, condition, orderBy, ToStr(offset),
            CtypeDigitValue(offset) - CtypeDigitValue(number)))
        else None
      else
        var limit := if LimitSet(q.limit) then LimitText(q.limit.value) else "";
        if LimitSet(q.limit) && CtypeDigit(q.limit.value.v) then
          Some(Break(8) + "SELECT TOP " + limit + " " + select + Break(8) + "FROM " + from
            + Break(8) + condition + Break(8) + orderBy)
        else
          Some(Break(8) + "SELECT " + limit + " " + select + Break(8) + "FROM " + from
            + Break(8) + condition + Break(8) + orderBy)
  }

  /** The paged MSSQL statement: the first `top` rows numbered in order,
      of which those numbered above `start` are kept. */
  function PagedText(select: string, from: string, condition: string, orderBy: string, top: string, start: int): (r: string)
    ensures StartsWith(r, Break(8) + "SELECT *" + Break(8) + "FROM (" + Break(9) + "SELECT TOP " + top + " ")
    ensures EndsWith(r, "WHERE RowNum > " + IntToString(start))
  {
    var head := Break(8) + "SELECT *" + Break(8) + "FROM (" + Break(9) + "SELECT TOP " + top + " ";
    var middle := select + ", ROW_NUMBER() OVER(" + orderBy + ") as RowNum"
      + Break(9) + "FROM " + from
      + Break(9) + condition
      + Break(8) + ") AS page"
      + Break(8);
    var tail := "WHERE RowNum > " + IntToString(start);
    PrefixStartsWith(head, middle);
    StartsWithAppend(head + middle, head, tail);
    SuffixEndsWith(head + middle, tail);
    (head + middle) + tail
  }

  /** `isset` on the limit entry: a paged limit is an array, never null. */
  predicate LimitSet(l: Option<Limit>) {
    l.Some? && !(l.value.LimitValue? && l.value.v == Null)
  }

  /** `is_array` on the limit: a paged limit, or a list. */
  predicate IsPaged(q: SelectQuery) {
    q.limit.Some? && (q.limit.value.LimitPage? || q.limit.value.v.List?)
  }

  /** `$limit["number"]`: null for a list, which has no such entry. */
  function PageNumber(l: Limit): Value {
    if l.LimitPage? then l.number else Null
  }

  /** `$limit["offset"]`: null for a list, which has no such entry. */
  function PageOffset(l: Limit): Value {
    if l.LimitPage? then l.offset else Null
  }

  /** How many of the rows numbered `1..n` have a number above `bound`. */
  function CountAbove(n: nat, bound: int): (c: nat)
    ensures c <= n
  {
    if n == 0 then 0 else CountAbove(n - 1, bound) + (if n > bound then 1 else 0)
  }

  lemma {:induction false} CountAboveValue(n: nat, bound: int)
    ensures CountAbove(n, bound) == if bound < 0 then n else if bound >= n then 0 else n - bound
  {
    if n > 0 {
      CountAboveValue(n - 1, bound);
    }
  }

  /** When the source has at least `offset` rows, the paged MSSQL query
      keeps `min(number, offset)` of them: the last `number` rows of the
      first `offset`. */
  lemma PagedRowCount(number: nat, offset: nat)
    ensures CountAbove(offset, offset - number) == if number < offset then number else offset
  {
    CountAboveValue(offset, offset - number);
  }

  /** For digit-string entries, the paged MSSQL query asks for the first
      `offset` rows and keeps those numbered above `offset - number`, which
      are `min(number, offset)` of them when the source has `offset` rows. */
  lemma PagedQueryKeeps(q: SelectQuery, number: nat, offset: nat)
    requires Given(q.from) && q.limit == Some(LimitPage(Str(NatToString(number)), Str(NatToString(offset))))
    ensures var r := MssqlSelectQuery(q);
      r.Some?
      && StartsWith(r.value, Break(8) + "SELECT *" + Break(8) + "FROM (" + Break(9) + "SELECT TOP " + NatToString(offset) + " ")
      && EndsWith(r.value, "WHERE RowNum > " + IntToString(offset - number))
      && CountAbove(offset, offset - number) == if number < offset then number else offset
  {
    var l := q.limit.value;
    NatToStringRoundTrip(number);
    NatToStringRoundTrip(offset);
    assert CtypeDigit(l.number) && CtypeDigitValue(l.number) == number;
    assert CtypeDigit(l.offset) && CtypeDigitValue(l.offset) == offset;
    assert ToStr(l.offset) == NatToString(offset);
    PagedRowCount(number, offset);
  }
}

=== FILE: form.dfy ===
/** `Form`: field groups and fields. A group holds single fields and child
    groups. Validators handed to a group are split: the group rules are set
    up with every field of the group and kept by the group; the single-value
    validators travel down the tree to every field, each field keeping its
    own copy. */
module Form {
  import opened Strings
  import opened Php
  import Base
  import NumericString
  import opened Validate

  // ---------------------------------------------------------------------
  // Data
  // ---------------------------------------------------------------------

  /** A validator of a group rule: the only kind a group keeps. */
  type GroupValidator = v: Validator | v.kind.GroupKind?
    witness Validator(GroupKind(GroupMatch), "", "", Null, [], [])

  /** What `Field` keeps (its subclasses add the HTML side). */
  datatype Field = Field(
    name: string,
    description: string,
    validators: seq<Validator>,
    validAttributes: seq<string>,
    attributes: map<string, Value>,
    errors: seq<string>)

  /** What `FieldGroup` keeps. */
  datatype Group = Group(
    name: string,
    description: string,
    fields: seq<Field>,
    groups: seq<Group>,
    validators: seq<GroupValidator>,
    errors: seq<string>)

  /** An element handed to `add_fields`. */
  datatype Member = FieldMember(field: Field) | GroupMember(group: Group) | NotObject(value: Value)

  // ---------------------------------------------------------------------
  // Fields: attributes and validators
  // ---------------------------------------------------------------------

  const DefaultValidAttributes: seq<string> := ["id", "name", "value", "disabled"]

  /** Whether no later entry of `attrs` than the `i`-th has its key: the
      entry whose value stays. */
  predicate LastFor(attrs: seq<(string, Value)>, i: int)
    requires 0 <= i < |attrs|
  {
    forall j :: i < j < |attrs| ==> attrs[j].0 != attrs[i].0
  }

  /** `add_attributes`: every key becomes a valid attribute and is set. */
  function AddAttributes(f: Field, attrs: seq<(string, Value)>): (r: Field)
    ensures r == f.(validAttributes := r.validAttributes, attributes := r.attributes)
    ensures r.validAttributes == f.validAttributes + KeysOf(attrs)
    decreases |attrs|
  {
    if |attrs| == 0 then f
    else
      var front := attrs[..|attrs| - 1];
      var (k, v) := attrs[|attrs| - 1];
      var f1 := AddAttributes(f, front);
      assert KeysOf(attrs) == KeysOf(front) + [k];
      f1.(validAttributes := f1.validAttributes + [k], attributes := f1.attributes[k := v])
  }

  /** After `add_attributes` each key is set to its last value in the
      array, and the other attributes are unchanged. */
  lemma {:induction false} AddAttributesSets(f: Field, attrs: seq<(string, Value)>)
    ensures forall k :: k in AddAttributes(f, attrs).attributes <==> k in f.attributes || k in KeysOf(attrs)
    ensures forall k :: k in f.attributes && k !in KeysOf(attrs) ==> AddAttributes(f, attrs).attributes[k] == f.attributes[k]
    ensures forall i :: 0 <= i < |attrs| && LastFor(attrs, i) ==> AddAttributes(f, attrs).attributes[attrs[i].0] == attrs[i].1
    decreases |attrs|
  {
    if |attrs| > 0 {
      var front := attrs[..|attrs| - 1];
      var (k, v) := attrs[|attrs| - 1];
      AddAttributesSets(f, front);
      assert KeysOf(attrs) == KeysOf(front) + [k];
      forall i | 0 <= i < |attrs| && LastFor(attrs, i)
        ensures AddAttributes(f, attrs).attributes[attrs[i].0] == attrs[i].1
      {
        if i < |front| {
          assert front[i] == attrs[i];
          assert LastFor(front, i);
        }
      }
    }
  }

  /** `array_search($key, $this->valid_attributes) !== false`. */
  predicate IsValidAttribute(f: Field, key: string) {
    exists i :: 0 <= i < |f.validAttributes| && LooseEq(Str(f.validAttributes[i]), Str(key))
  }

  /** The attributes a validator's `setup` returns, applied in order
      where the name is valid. */
  function ApplySetupAttributes(f: Field, attrs: seq<(string, Value)>): (r: Field)
    ensures r == f.(attributes := r.attributes)
    decreases |attrs|
  {
    if |attrs| == 0 then f
    else
      var f1 := ApplySetupAttributes(f, attrs[..|attrs| - 1]);
      var (k, v) := attrs[|attrs| - 1];
      if IsValidAttribute(f, k) then f1.(attributes := f1.attributes[k := v]) else f1
  }

  /** The attributes a validator asks for reach the field only under a
      valid attribute name; the others are left alone. */
  lemma {:induction false} SetupAttributesGuarded(f: Field, attrs: seq<(string, Value)>)
    ensures forall k :: k in ApplySetupAttributes(f, attrs).attributes ==> k in f.attributes || (k in KeysOf(attrs) && IsValidAttribute(f, k))
    ensures forall k :: k in f.attributes && !IsValidAttribute(f, k)
                        ==> k in ApplySetupAttributes(f, attrs).attributes && ApplySetupAttributes(f, attrs).attributes[k] == f.attributes[k]
    ensures forall i :: 0 <= i < |attrs| && LastFor(attrs, i) && IsValidAttribute(f, attrs[i].0)
                        ==> attrs[i].0 in ApplySetupAttributes(f, attrs).attributes
                            && ApplySetupAttributes(f, attrs).attributes[attrs[i].0] == attrs[i].1
    decreases |attrs|
  {
    if |attrs| > 0 {
      var front := attrs[..|attrs| - 1];
      var (k, v) := attrs[|attrs| - 1];
      SetupAttributesGuarded(f, front);
      assert KeysOf(attrs) == KeysOf(front) + [k];
      forall i | 0 <= i < |attrs| && LastFor(attrs, i) && IsValidAttribute(f, attrs[i].0)
        ensures attrs[i].0 in ApplySetupAttributes(f, attrs).attributes
          && ApplySetupAttributes(f, attrs).attributes[attrs[i].0] == attrs[i].1
      {
        if i < |front| {
          assert front[i] == attrs[i];
          assert LastFor(front, i);
        }
      }
    }
  }

  /** The `setup` call a field makes: a group rule receives the field
      itself, a single-value validator only the name and description. */
  function SetupFor(name: string, description: string, v: Validator): (s: SetupRun)
    ensures s.validator.kind == v.kind && s.validator.name == name && s.validator.desc == description
    ensures v.kind.GroupKind? ==> s.validator.fields == [Obj(name)]
  {
    Setup(v, name, description, if v.kind.GroupKind? then Obj(name) else Bool(false))
  }

  function SetupAll(name: string, description: string, vs: seq<Validator>): (r: seq<Validator>)
    ensures |r| == |vs|
    ensures forall i :: 0 <= i < |vs| ==> r[i] == SetupFor(name, description, vs[i]).validator
  {
    seq(|vs|, i requires 0 <= i < |vs| => SetupFor(name, description, vs[i]).validator)
  }

  /** `Field::add_validation`: each validator is set up for this field and
      appended; the attributes it asks for are applied when valid. */
  function AddFieldValidation(f: Field, vs: seq<Validator>): (r: Field)
    ensures r.name == f.name && r.description == f.description && r.errors == f.errors
    ensures r.validAttributes == f.validAttributes
    ensures r.validators == f.validators + SetupAll(f.name, f.description, vs)
    decreases |vs|
  {
    if |vs| == 0 then f
    else
      var front := vs[..|vs| - 1];
      var f1 := AddFieldValidation(f, front);
      var s := SetupFor(f.name, f.description, vs[|vs| - 1]);
      SetupAllSnoc(f.name, f.description, vs);
      ApplySetupAttributes(f1, s.attributes).(validators := f1.validators + [s.validator])
  }

  lemma SetupAllSnoc(name: string, description: string, vs: seq<Validator>)
    requires |vs| > 0
    ensures SetupAll(name, description, vs)
      == SetupAll(name, description, vs[..|vs| - 1]) + [SetupFor(name, description, vs[|vs| - 1]).validator]
  {
  }

  /** Validators change only attributes whose names are valid. */
  lemma {:induction false} ValidationGuardsAttributes(f: Field, vs: seq<Validator>)
    ensures forall k :: k in AddFieldValidation(f, vs).attributes ==> k in f.attributes || IsValidAttribute(f, k)
    ensures forall k :: k in f.attributes && !IsValidAttribute(f, k)
                        ==> k in AddFieldValidation(f, vs).attributes && AddFieldValidation(f, vs).attributes[k] == f.attributes[k]
    decreases |vs|
  {
    if |vs| > 0 {
      var front := vs[..|vs| - 1];
      var f1 := AddFieldValidation(f, front);
      ValidationGuardsAttributes(f, front);
      var s := SetupFor(f.name, f.description, vs[|vs| - 1]);
      SetupAttributesGuarded(f1, s.attributes);
      assert forall key :: IsValidAttribute(f1, key) == IsValidAttribute(f, key);
    }
  }

  /** The `Field` constructor: `id` and `name` attributes are the name, the
      value attribute is null; validators come first, then attributes. */
  function NewField(name: string, description: string, validation: seq<Validator>, attrs: seq<(string, Value)>): (f: Field)
    ensures f.name == name && f.description == description && f.errors == []
    ensures f.validators == SetupAll(name, description, validation)
    ensures f.validAttributes == DefaultValidAttributes + KeysOf(attrs)
  {
    var f0 := Field(name, description, [], DefaultValidAttributes, map["id" := Str(name), "name" := Str(name), "value" := Null], []);
    AddAttributes(AddFieldValidation(f0, validation), attrs)
  }

  function PlainField(name: string, description: string): (f: Field)
    ensures f == NewField(name, description, [], [])
  {
    Field(name, description, [], DefaultValidAttributes, map["id" := Str(name), "name" := Str(name), "value" := Null], [])
  }

  /** `maxlength` is not among a plain field's valid attributes. */
  lemma MaxLengthNotValid(name: string, description: string)
    ensures !IsValidAttribute(PlainField(name, description), "maxlength")
  {
    var key := "maxlength";
    NumericString.NotNumericForms(key);
    forall i | 0 <= i < |DefaultValidAttributes|
      ensures !LooseEq(Str(DefaultValidAttributes[i]), Str(key))
    {
      assert |DefaultValidAttributes[i]| < |key|;
    }
  }

  /** A validator's `maxlength` never reaches a plain field. */
  lemma MaxLengthDropped(name: string, description: string, n: int)
    ensures "maxlength" !in NewField(name, description, [NewValidator(FieldKind(MaxLength(n)), Null)], []).attributes
  {
    MaxLengthNotValid(name, description);
    ValidationGuardsAttributes(PlainField(name, description), [NewValidator(FieldKind(MaxLength(n)), Null)]);
  }

  /** Once the field declares `maxlength`, the validator sets it. */
  lemma MaxLengthDeclared(name: string, description: string, n: int, x: Value)
    ensures var f := NewField(name, description, [], [("maxlength", x)]);
      var r := AddFieldValidation(f, [NewValidator(FieldKind(MaxLength(n)), Null)]);
      "maxlength" in r.attributes && r.attributes["maxlength"] == Int(n)
  {
    var f := NewField(name, description, [], [("maxlength", x)]);
    MaxLengthValid(f, name, description, x);
    var s := SetupFor(name, description, NewValidator(FieldKind(MaxLength(n)), Null));
    assert s.attributes == [("maxlength", Int(n))];
    assert LastFor(s.attributes, 0);
    SetupAttributesGuarded(f, s.attributes);
  }

  lemma MaxLengthValid(f: Field, name: string, description: string, x: Value)
    requires f == NewField(name, description, [], [("maxlength", x)])
    ensures IsValidAttribute(f, "maxlength")
  {
    assert f.validAttributes == DefaultValidAttributes + ["maxlength"];
    assert f.validAttributes[4] == "maxlength";
    LooseEqReflexive(Str("maxlength"));
  }

  /** `disabled` is valid from the start, so `ValidDisable` sets it. */
  lemma DisabledApplied(name: string, description: string)
    ensures var f := NewField(name, description, [NewValidator(FieldKind(Disable), Null)], []);
      "disabled" in f.attributes && f.attributes["disabled"] == Str("disabled")
  {
    var f0 := PlainField(name, description);
    assert LooseEq(Str(DefaultValidAttributes[3]), Str("disabled"));
    assert IsValidAttribute(f0, "disabled");
    var s := SetupFor(name, description, NewValidator(FieldKind(Disable), Null));
    assert s.attributes == [("disabled", Str("disabled"))];
    assert LastFor(s.attributes, 0);
    SetupAttributesGuarded(f0, s.attributes);
  }

  // ---------------------------------------------------------------------
  // Groups: members, fields and validators
  // ---------------------------------------------------------------------

  /** `add_fields`: objects with a `fields` list are child groups, other
      objects single fields; anything else is skipped. Order is kept. */
  function AddFields(g: Group, ms: seq<Member>): (r: Group)
    ensures r == g.(fields := r.fields, groups := r.groups)
    ensures |r.fields| >= |g.fields| && r.fields[..|g.fields|] == g.fields
    ensures |r.groups| >= |g.groups| && r.groups[..|g.groups|] == g.groups
    ensures forall f :: f in r.fields <==> f in g.fields || FieldMember(f) in ms
    ensures forall c :: c in r.groups <==> c in g.groups || GroupMember(c) in ms
    ensures |r.fields| + |r.groups| == |g.fields| + |g.groups| + ObjectCount(ms)
    decreases |ms|
  {
    if |ms| == 0 then g
    else
      var g1 := AddMember(g, ms[0]);
      var r := AddFields(g1, ms[1..]);
      assert forall m :: m in ms <==> m == ms[0] || m in ms[1..];
      assert r.fields[..|g.fields|] == g1.fields[..|g.fields|];
      assert r.groups[..|g.groups|] == g1.groups[..|g.groups|];
      r
  }

  /** One member added: a field or a child group appended, a non-object
      skipped. */
  function AddMember(g: Group, m: Member): Group {
    match m
    case FieldMember(f) => g.(fields := g.fields + [f])
    case GroupMember(c) => g.(groups := g.groups + [c])
    case NotObject(_) => g
  }

  /** The number of objects among the members. */
  function ObjectCount(ms: seq<Member>): (n: nat)
    ensures n <= |ms|
  {
    if |ms| == 0 then 0 else (if ms[0].NotObject? then 0 else 1) + ObjectCount(ms[1..])
  }

  /** The fields among the members, in order. */
  function MemberFields(ms: seq<Member>): seq<Field> {
    if |ms| == 0 then [] else (if ms[0].FieldMember? then [ms[0].field] else []) + MemberFields(ms[1..])
  }

  /** The child groups among the members, in order. */
  function MemberGroups(ms: seq<Member>): seq<Group> {
    if |ms| == 0 then [] else (if ms[0].GroupMember? then [ms[0].group] else []) + MemberGroups(ms[1..])
  }

  /** Adding members appends their fields and their child groups. */
  lemma {:induction false} AddFieldsAppends(g: Group, ms: seq<Member>)
    ensures AddFields(g, ms).fields == g.fields + MemberFields(ms)
    ensures AddFields(g, ms).groups == g.groups + MemberGroups(ms)
    decreases |ms|
  {
    if |ms| > 0 {
      var g1 := AddMember(g, ms[0]);
      AddFieldsAppends(g1, ms[1..]);
      AddMemberAppends(g, ms);
    } else {
      assert g.fields + [] == g.fields && g.groups + [] == g.groups;
    }
  }

  /** The first step of adding members. */
  lemma AddMemberAppends(g: Group, ms: seq<Member>)
    requires |ms| > 0
    ensures AddMember(g, ms[0]).fields + MemberFields(ms[1..]) == g.fields + MemberFields(ms)
    ensures AddMember(g, ms[0]).groups + MemberGroups(ms[1..]) == g.groups + MemberGroups(ms)
  {
    var fs := if ms[0].FieldMember? then [ms[0].field] else [];
    var cs := if ms[0].GroupMember? then [ms[0].group] else [];
    assert AddMember(g, ms[0]).fields == g.fields + fs;
    assert AddMember(g, ms[0]).groups == g.groups + cs;
    Base.ConcatAssoc(g.fields, fs, MemberFields(ms[1..]));
    Base.ConcatAssoc(g.groups, cs, MemberGroups(ms[1..]));
  }

  lemma {:induction false} MembersConcat(a: seq<Member>, b: seq<Member>)
    ensures MemberFields(a + b) == MemberFields(a) + MemberFields(b)
    ensures MemberGroups(a + b) == MemberGroups(a) + MemberGroups(b)
    decreases |a|
  {
    if |a| > 0 {
      MembersConcat(a[1..], b);
      assert (a + b)[0] == a[0] && (a + b)[1..] == a[1..] + b;
    } else {
      assert a + b == b;
    }
  }

  /** Adding members in two calls is adding them in one. */
  lemma AddFieldsConcat(g: Group, a: seq<Member>, b: seq<Member>)
    ensures AddFields(AddFields(g, a), b) == AddFields(g, a + b)
  {
    AddFieldsAppends(g, a);
    AddFieldsAppends(AddFields(g, a), b);
    AddFieldsAppends(g, a + b);
    MembersConcat(a, b);
    var ab := AddFields(AddFields(g, a), b);
    var r := AddFields(g, a + b);
    assert ab == g.(fields := ab.fields, groups := ab.groups);
    assert r == g.(fields := r.fields, groups := r.groups);
    Base.ConcatAssoc(g.fields, MemberFields(a), MemberFields(b));
    Base.ConcatAssoc(g.groups, MemberGroups(a), MemberGroups(b));
  }

  /** `get_all_fields`: the group's own fields, then each child group's, in
      order. */
  function AllFields(g: Group): (fs: seq<Field>)
    ensures forall f :: f in fs <==> f in g.fields || exists i :: 0 <= i < |g.groups| && f in AllFields(g.groups[i])
    decreases g, 1
  {
    g.fields + ChildFields(g, 0)
  }

  function ChildFields(g: Group, i: nat): (fs: seq<Field>)
    requires i <= |g.groups|
    ensures forall f :: f in fs <==> exists j :: i <= j < |g.groups| && f in AllFields(g.groups[j])
    decreases g, 0, |g.groups| - i
  {
    if i == |g.groups| then [] else AllFields(g.groups[i]) + ChildFields(g, i + 1)
  }

  /** The field objects a group rule is given, by name. */
  function FieldObjects(fs: seq<Field>): (r: seq<Value>)
    ensures |r| == |fs| && forall i :: 0 <= i < |fs| ==> r[i] == Obj(fs[i].name)
  {
    seq(|fs|, i requires 0 <= i < |fs| => Obj(fs[i].name))
  }

  /** The group rules among the validators. */
  function GroupRulesIn(vs: seq<Validator>): (r: seq<GroupValidator>)
    ensures forall v :: v in r <==> v in vs && v.kind.GroupKind?
  {
    if |vs| == 0 then []
    else if vs[0].kind.GroupKind? then [vs[0]] + GroupRulesIn(vs[1..])
    else GroupRulesIn(vs[1..])
  }

  /** The single-value validators among the validators. */
  function SingleValueIn(vs: seq<Validator>): (r: seq<Validator>)
    ensures forall v :: v in r <==> v in vs && v.kind.FieldKind?
  {
    if |vs| == 0 then []
    else if vs[0].kind.FieldKind? then [vs[0]] + SingleValueIn(vs[1..])
    else SingleValueIn(vs[1..])
  }

  /** A group rule set up for a group: the group's name and description and
      all its fields. */
  function SetupGroupRule(g: Group, v: GroupValidator): (r: GroupValidator)
    ensures r.kind == v.kind && r.name == g.name && r.desc == g.description
    ensures r.fields == FieldObjects(AllFields(g))
  {
    Setup(v, g.name, g.description, List(FieldObjects(AllFields(g)))).validator
  }

  /** `FieldGroup::add_validation`: the group rules are set up with every
      field of the group and kept; the single-value validators are handed
      to each child group and to each field. */
  function AddValidation(g: Group, vs: seq<Validator>): (r: Group)
    ensures r.name == g.name && r.description == g.description && r.errors == g.errors
    ensures |r.validators| == |g.validators| + |GroupRulesIn(vs)| && r.validators[..|g.validators|] == g.validators
    ensures forall j :: |g.validators| <= j < |r.validators| ==>
      r.validators[j] == SetupGroupRule(g, GroupRulesIn(vs)[j - |g.validators|])
    ensures |r.fields| == |g.fields|
      && forall i :: 0 <= i < |g.fields| ==> r.fields[i] == AddFieldValidation(g.fields[i], SingleValueIn(vs))
    ensures |r.groups| == |g.groups|
      && forall i :: 0 <= i < |g.groups| ==> r.groups[i] == AddValidation(g.groups[i], SingleValueIn(vs))
    decreases g, 1
  {
    var single := SingleValueIn(vs);
    g.(validators := WithGroupRules(g, GroupRulesIn(vs)), groups := WithChildValidation(g, single),
       fields := WithFieldValidation(g.fields, single))
  }

  /** Each child group with the single-value validators handed down. */
  function WithChildValidation(g: Group, single: seq<Validator>): (r: seq<Group>)
    ensures |r| == |g.groups| && forall i :: 0 <= i < |g.groups| ==> r[i] == AddValidation(g.groups[i], single)
    decreases g, 0
  {
    seq(|g.groups|, i requires 0 <= i < |g.groups| => AddValidation(g.groups[i], single))
  }

  /** The group's validators with the group rules, set up for it, appended. */
  function WithGroupRules(g: Group, rules: seq<GroupValidator>): (r: seq<Validator>)
    ensures |r| == |g.validators| + |rules| && r[..|g.validators|] == g.validators
    ensures forall j :: |g.validators| <= j < |r| ==> r[j] == SetupGroupRule(g, rules[j - |g.validators|])
  {
    var own := seq(|rules|, j requires 0 <= j < |rules| => SetupGroupRule(g, rules[j]));
    assert (g.validators + own)[..|g.validators|] == g.validators;
    g.validators + own
  }

  /** Each field with the single-value validators added. */
  function WithFieldValidation(fs: seq<Field>, single: seq<Validator>): (r: seq<Field>)
    ensures |r| == |fs| && forall i :: 0 <= i < |fs| ==> r[i] == AddFieldValidation(fs[i], single)
  {
    seq(|fs|, i requires 0 <= i < |fs| => AddFieldValidation(fs[i], single))
  }

  /** The single-value validators keep away from group rules, so a child
      group gains no rules of its own. */
  lemma SingleValueHasNoRules(vs: seq<Validator>)
    ensures GroupRulesIn(SingleValueIn(vs)) == []
    ensures SingleValueIn(SingleValueIn(vs)) == SingleValueIn(vs)
  {
    var s := SingleValueIn(vs);
    NoRules(s);
    AllSingle(s);
  }

  lemma {:induction false} NoRules(s: seq<Validator>)
    requires forall v :: v in s ==> v.kind.FieldKind?
    ensures GroupRulesIn(s) == []
  {
    if |s| > 0 {
      assert s[0] in s;
      NoRules(s[1..]);
    }
  }

  lemma {:induction false} AllSingle(s: seq<Validator>)
    requires forall v :: v in s ==> v.kind.FieldKind?
    ensures SingleValueIn(s) == s
  {
    if |s| > 0 {
      assert s[0] in s;
      AllSingle(s[1..]);
      assert s == [s[0]] + s[1..];
    }
  }

  /** `after` is `before` with each field given the validators. */
  predicate Receives(before: seq<Field>, after: seq<Field>, vs: seq<Validator>) {
    |after| == |before| && forall i :: 0 <= i < |before| ==> after[i] == AddFieldValidation(before[i], vs)
  }

  lemma ReceivesConcat(b1: seq<Field>, a1: seq<Field>, b2: seq<Field>, a2: seq<Field>, vs: seq<Validator>)
    requires Receives(b1, a1, vs) && Receives(b2, a2, vs)
    ensures Receives(b1 + b2, a1 + a2, vs)
  {
  }

  /** Every field of the tree, and only those, receives every single-value
      validator: the fields keep their order, and each gains the validators
      set up for it. */
  lemma {:induction false} EveryFieldReceives(g: Group, vs: seq<Validator>)
    requires GroupRulesIn(vs) == []
    ensures Receives(AllFields(g), AllFields(AddValidation(g, vs)), SingleValueIn(vs))
    decreases g, 1
  {
    var r := AddValidation(g, vs);
    ChildrenReceive(g, vs, 0);
    assert Receives(g.fields, r.fields, SingleValueIn(vs));
    ReceivesConcat(g.fields, r.fields, ChildFields(g, 0), ChildFields(r, 0), SingleValueIn(vs));
  }

  lemma {:induction false} ChildrenReceive(g: Group, vs: seq<Validator>, i: nat)
    requires GroupRulesIn(vs) == [] && i <= |g.groups|
    ensures i <= |AddValidation(g, vs).groups|
    ensures Receives(ChildFields(g, i), ChildFields(AddValidation(g, vs), i), SingleValueIn(vs))
    decreases g, 0, |g.groups| - i
  {
    var r := AddValidation(g, vs);
    if i < |g.groups| {
      SingleValueHasNoRules(vs);
      var c := g.groups[i];
      assert r.groups[i] == AddValidation(c, SingleValueIn(vs));
      EveryFieldReceives(c, SingleValueIn(vs));
      ChildrenReceive(g, vs, i + 1);
      ReceivesConcat(AllFields(c), AllFields(r.groups[i]), ChildFields(g, i + 1), ChildFields(r, i + 1), SingleValueIn(vs));
    }
  }

  /** The `FieldGroup` constructor: members first, then the description
      (the name when the description is falsy), then the validators. */
  function NewGroup(name: string, ms: seq<Member>, validation: seq<Validator>, description: Value): (g: Group)
    ensures g.name == name && g.errors == []
    ensures g.description == if Truthy(description) then ToStr(description) else name
    ensures |g.fields| == |FieldsIn(ms)| && |g.groups| == |AddFields(Group(name, "", [], [], [], []), ms).groups|
    ensures |g.validators| == |GroupRulesIn(validation)|
  {
    var g0 := AddFields(Group(name, "", [], [], [], []), ms);
    assert |g0.fields| == |FieldsIn(ms)| by {
      FieldsInCount(Group(name, "", [], [], [], []), ms);
    }
    var g1 := g0.(description := if Truthy(description) then ToStr(description) else name);
    AddValidation(g1, validation)
  }

  /** The single fields among the members, in order. */
  function FieldsIn(ms: seq<Member>): (fs: seq<Field>)
    ensures forall f :: f in fs <==> FieldMember(f) in ms
  {
    if |ms| == 0 then []
    else if ms[0].FieldMember? then [ms[0].field] + FieldsIn(ms[1..])
    else FieldsIn(ms[1..])
  }

  /** `add_fields` appends exactly the single fields among the members. */
  lemma {:induction false} FieldsInCount(g: Group, ms: seq<Member>)
    ensures AddFields(g, ms).fields == g.fields + FieldsIn(ms)
    decreases |ms|
  {
    if |ms| > 0 {
      var g1 := match ms[0]
        case FieldMember(f) => g.(fields := g.fields + [f])
        case GroupMember(c) => g.(groups := g.groups + [c])
        case NotObject(_) => g;
      FieldsInCount(g1, ms[1..]);
    }
  }

  // ---------------------------------------------------------------------
  // Looking up fields
  // ---------------------------------------------------------------------

  /** The position of the first field whose name loosely equals `name`,
      or the length when there is none. */
  function FirstNamed(fs: seq<Field>, name: string): (i: nat)
    ensures i <= |fs|
    ensures forall j :: 0 <= j < i ==> !LooseEq(Str(fs[j].name), Str(name))
    ensures i < |fs| ==> LooseEq(Str(fs[i].name), Str(name))
  {
    if |fs| == 0 then 0
    else if LooseEq(Str(fs[0].name), Str(name)) then 0
    else 1 + FirstNamed(fs[1..], name)
  }

  /** `get_field`: the first field of the whole tree whose name loosely
      equals `name`, or nothing (`false`). */
  function GetField(g: Group, name: string): (r: Option<Field>)
    ensures r.Some? ==> r.value in AllFields(g) && LooseEq(Str(r.value.name), Str(name))
    ensures r.Some? ==> exists i :: (0 <= i < |AllFields(g)| && AllFields(g)[i] == r.value
                                     && forall j :: 0 <= j < i ==> !LooseEq(Str(AllFields(g)[j].name), Str(name)))
    ensures r.None? <==> forall f :: f in AllFields(g) ==> !LooseEq(Str(f.name), Str(name))
  {
    var fs := AllFields(g);
    var i := FirstNamed(fs, name);
    if i < |fs| then Some(fs[i]) else None
  }

  /** Every field of the tree can be found by its own name. */
  lemma GetFieldFindsEveryField(g: Group, f: Field)
    requires f in AllFields(g)
    ensures GetField(g, f.name).Some?
  {
    LooseEqReflexive(Str(f.name));
  }

  /** `get_field_names`: the names of all fields of the tree, in order. */
  function FieldNames(g: Group): (ns: seq<string>)
    ensures |ns| == |AllFields(g)|
    ensures forall n :: n in ns <==> exists f :: f in AllFields(g) && f.name == n
  {
    var fs := AllFields(g);
    var ns := seq(|fs|, i requires 0 <= i < |fs| => fs[i].name);
    assert forall f :: f in fs ==> f.name in ns by {
      forall f | f in fs ensures f.name in ns {
        var i :| 0 <= i < |fs| && fs[i] == f;
        assert ns[i] == f.name;
      }
    }
    ns
  }

  /** Adding validators keeps the field names of the tree. */
  lemma AddValidationKeepsNames(g: Group, vs: seq<Validator>)
    requires GroupRulesIn(vs) == []
    ensures FieldNames(AddValidation(g, vs)) == FieldNames(g)
  {
    EveryFieldReceives(g, vs);
  }

  // ---------------------------------------------------------------------
  // Merging value arrays
  // ---------------------------------------------------------------------

  /** The checkbox correction: a field missing from the array takes its
      `<name>_default` entry, field by field. */
  function FillDefaults(m: Data, names: seq<string>): (r: Data)
    ensures forall k :: IsSetIn(m, k) ==> k in r && r[k] == m[k]
    ensures forall k :: k in r ==> k in m || k in names
    ensures forall k :: k in m && k !in names ==> k in r && r[k] == m[k]
    ensures forall n :: n in names && !IsSetIn(m, n) && IsSetIn(m, n + "_default") ==> n in r && r[n] == m[n + "_default"]
    ensures forall n :: n in names && IsSetIn(m, n + "_default") ==> IsSetIn(r, n)
    decreases |names|
  {
    if |names| == 0 then m
    else
      var n := names[0];
      var m1 := if !IsSetIn(m, n) && IsSetIn(m, n + "_default") then m[n := m[n + "_default"]] else m;
      assert forall k :: IsSetIn(m, k) ==> IsSetIn(m1, k) && m1[k] == m[k];
      FillDefaults(m1, names[1..])
  }

  /** What one argument adds to the merge: nothing for a non-array; an
      array, with the checkbox correction when there is more than one
      argument. */
  function Contribution(arg: Input, names: seq<string>, many: bool): Data {
    match arg
    case Scalar(_) => map[]
    case Assoc(m) => if many then FillDefaults(m, names) else m
  }

  /** `array_merge` of arrays with string keys, left to right. */
  function MergeAll<K, V>(cs: seq<map<K, V>>): map<K, V> {
    if |cs| == 0 then map[] else MergeAll(cs[..|cs| - 1]) + cs[|cs| - 1]
  }

  /** A key is in the merge exactly when some array has it, and its value
      is the one of the last array that has it. */
  lemma {:induction false} MergeAllMeaning<K, V>(cs: seq<map<K, V>>)
    ensures forall k :: k in MergeAll(cs) <==> exists i :: 0 <= i < |cs| && k in cs[i]
    ensures forall k, i :: 0 <= i < |cs| && k in cs[i] && (forall j :: i < j < |cs| ==> k !in cs[j])
                           ==> MergeAll(cs)[k] == cs[i][k]
  {
    if |cs| > 0 {
      var front := cs[..|cs| - 1];
      var last := cs[|cs| - 1];
      MergeAllMeaning(front);
      assert forall i :: 0 <= i < |front| ==> front[i] == cs[i];
      assert MergeAll(cs) == MergeAll(front) + last;
      forall k
        ensures k in MergeAll(cs) <==> exists i :: 0 <= i < |cs| && k in cs[i]
      {
        if k in MergeAll(front) {
          var i :| 0 <= i < |front| && k in front[i];
          assert k in cs[i];
        }
      }
      forall k, i | 0 <= i < |cs| && k in cs[i] && (forall j :: i < j < |cs| ==> k !in cs[j])
        ensures k in MergeAll(cs) && MergeAll(cs)[k] == cs[i][k]
      {
        if i < |front| {
          assert k !in last;
          assert forall j :: i < j < |front| ==> k !in front[j];
        }
      }
    }
  }

  /** `merge_values`: the argument arrays merged in order. */
  function MergeValues(g: Group, args: seq<Input>): Data {
    MergeAll(Contributions(args, FieldNames(g)))
  }

  function Contributions(args: seq<Input>, names: seq<string>): (cs: seq<Data>)
    ensures |cs| == |args|
    ensures forall i :: 0 <= i < |args| ==> cs[i] == Contribution(args[i], names, |args| > 1)
  {
    seq(|args|, i requires 0 <= i < |args| => Contribution(args[i], names, |args| > 1))
  }

  /** A key is in the merged values exactly when some array argument has
      it (after the checkbox correction), and later arguments win. */
  lemma MergeValuesMeaning(g: Group, args: seq<Input>, k: string)
    ensures var cs := Contributions(args, FieldNames(g));
      (k in MergeValues(g, args) <==> exists i :: 0 <= i < |args| && k in cs[i])
      && forall i :: 0 <= i < |args| && k in cs[i] && (forall j :: i < j < |args| ==> k !in cs[j])
                     ==> k in MergeValues(g, args) && MergeValues(g, args)[k] == cs[i][k]
  {
    MergeAllMeaning(Contributions(args, FieldNames(g)));
  }

  /** With one array argument the result is that array: the checkbox
      correction applies only when several arrays are merged. */
  lemma MergeOne(g: Group, m: Data)
    ensures MergeValues(g, [Assoc(m)]) == m
  {
    var cs := Contributions([Assoc(m)], FieldNames(g));
    assert cs == [m];
    assert MergeAll(cs) == MergeAll([]) + m;
  }

  /** With several arguments, a field left unset in the last array that
      mentions it takes that array's `<name>_default` entry. */
  lemma MergeTakesDefault(g: Group, args: seq<Input>, i: nat, f: Field)
    requires |args| > 1 && i < |args| && args[i].Assoc?
    requires f in AllFields(g)
    requires !IsSetIn(args[i].m, f.name) && IsSetIn(args[i].m, f.name + "_default")
    requires forall j :: i < j < |args| ==> f.name !in Contribution(args[j], FieldNames(g), true)
    ensures f.name in MergeValues(g, args) && MergeValues(g, args)[f.name] == args[i].m[f.name + "_default"]
  {
    var names := FieldNames(g);
    assert f.name in names;
    var cs := Contributions(args, names);
    assert cs[i] == FillDefaults(args[i].m, names);
    assert f.name in cs[i];
    MergeValuesMeaning(g, args, f.name);
  }

  // ---------------------------------------------------------------------
  // Validation
  // ---------------------------------------------------------------------

  /** What decides a validator's verdict: its rule and, for a group rule,
      its fields (its messages do not). */
  datatype Check = Check(kind: Kind, fields: seq<Value>)

  function Checks(vs: seq<Validator>): (cs: seq<Check>)
    ensures |cs| == |vs| && forall j :: 0 <= j < |vs| ==> cs[j] == Check(vs[j].kind, vs[j].fields)
  {
    seq(|vs|, j requires 0 <= j < |vs| => Check(vs[j].kind, vs[j].fields))
  }

  /** A check's verdict on one value (single-value rules) or on all values
      (group rules). */
  function Verdict(c: Check, value: Value, values: Data): Outcome<bool> {
    match c.kind
    case FieldKind(rule) => Passes(rule, value)
    case GroupKind(group) => Ok(GroupPasses(group, c.fields, values))
  }

  lemma VerdictOfValidate(v: Validator, value: Value, values: Data)
    ensures Validate.Validate(v, value, values).Ok? <==> Verdict(Check(v.kind, v.fields), value, values).Ok?
    ensures Validate.Validate(v, value, values).Ok? ==>
      Verdict(Check(v.kind, v.fields), value, values) == Ok(Validate.Validate(v, value, values).value.ok)
      && Validate.Validate(v, value, values).value.validator.kind == v.kind
      && Validate.Validate(v, value, values).value.validator.fields == v.fields
  {
  }

  datatype ValidatorsRun = ValidatorsRun(ok: bool, validators: seq<Validator>, errors: seq<string>)

  /** Every validator runs in turn (a failure does not stop the others);
      the errors of a failing one are added to `errors`. An exception
      stops the run. */
  function RunValidators(vs: seq<Validator>, value: Value, values: Data, errors: seq<string>): (r: Outcome<ValidatorsRun>)
    ensures r.Ok? <==> forall j :: 0 <= j < |vs| ==> Verdict(Checks(vs)[j], value, values).Ok?
    ensures r.Ok? ==> Checks(r.value.validators) == Checks(vs)
    ensures r.Ok? ==> (r.value.ok <==> forall j :: 0 <= j < |vs| ==> Verdict(Checks(vs)[j], value, values) == Ok(true))
    decreases |vs|
  {
    if |vs| == 0 then Ok(ValidatorsRun(true, [], errors))
    else
      var n := |vs| - 1;
      var front := vs[..n];
      assert Checks(vs) == Checks(front) + [Check(vs[n].kind, vs[n].fields)];
      match RunValidators(front, value, values, errors)
      case Raised(e) => Raised(e)
      case Ok(head) =>
        VerdictOfValidate(vs[n], value, values);
        match Validate.Validate(vs[n], value, values)
        case Raised(e) => Raised(e)
        case Ok(run) =>
          var errors1 := if run.ok then head.errors else Base.AddError(head.errors, Base.Many(run.validator.errors));
          Ok(ValidatorsRun(head.ok && run.ok, head.validators + [run.validator], errors1))
  }

  /** A run where every validator passes changes nothing. */
  lemma {:induction false} RunValidatorsPassing(vs: seq<Validator>, value: Value, values: Data, errors: seq<string>)
    requires RunValidators(vs, value, values, errors).Ok? && RunValidators(vs, value, values, errors).value.ok
    ensures RunValidators(vs, value, values, errors).value.validators == vs
    ensures RunValidators(vs, value, values, errors).value.errors == errors
    decreases |vs|
  {
    if |vs| > 0 {
      var n := |vs| - 1;
      RunValidatorsPassing(vs[..n], value, values, errors);
      assert vs == vs[..n] + [vs[n]];
    }
  }

  /** Errors are only ever added, and every failing validator's messages
      reach the list. */
  lemma {:induction false} RunValidatorsReports(vs: seq<Validator>, value: Value, values: Data, errors: seq<string>)
    requires RunValidators(vs, value, values, errors).Ok?
    ensures var r := RunValidators(vs, value, values, errors).value;
      |r.validators| == |vs|
      && (forall e :: e in errors ==> e in r.errors)
      && (forall j, e :: 0 <= j < |vs| && !Verdict(Checks(vs)[j], value, values).value && e in r.validators[j].errors
                         ==> e in r.errors)
    decreases |vs|
  {
    if |vs| > 0 {
      var n := |vs| - 1;
      var front := vs[..n];
      RunValidatorsReports(front, value, values, errors);
      ReportsStep(vs, value, values, errors);
    }
  }

  lemma ReportsStep(vs: seq<Validator>, value: Value, values: Data, errors: seq<string>)
    requires |vs| > 0 && RunValidators(vs, value, values, errors).Ok?
    requires var front := vs[..|vs| - 1];
      var h := RunValidators(front, value, values, errors);
      h.Ok? && |h.value.validators| == |front|
      && (forall e :: e in errors ==> e in h.value.errors)
      && (forall j, e :: 0 <= j < |front| && !Verdict(Checks(front)[j], value, values).value && e in h.value.validators[j].errors
                         ==> e in h.value.errors)
    ensures var r := RunValidators(vs, value, values, errors).value;
      |r.validators| == |vs|
      && (forall e :: e in errors ==> e in r.errors)
      && (forall j, e :: 0 <= j < |vs| && !Verdict(Checks(vs)[j], value, values).value && e in r.validators[j].errors
                         ==> e in r.errors)
  {
    var n := |vs| - 1;
    var front := vs[..n];
    assert Checks(vs) == Checks(front) + [Check(vs[n].kind, vs[n].fields)];
    VerdictOfValidate(vs[n], value, values);
    var head := RunValidators(front, value, values, errors).value;
    var run := Validate.Validate(vs[n], value, values).value;
    var r := RunValidators(vs, value, values, errors).value;
    assert r.validators == head.validators + [run.validator];
    forall j, e | 0 <= j < |vs| && !Verdict(Checks(vs)[j], value, values).value && e in r.validators[j].errors
      ensures e in r.errors
    {
      if j < n {
        assert r.validators[j] == head.validators[j];
        assert Checks(vs)[j] == Checks(front)[j];
      }
    }
  }

  datatype FieldRun = FieldRun(ok: bool, field: Field)

  /** The value `Field::validate` checks: the field's entry, else its
      `<name>_default` entry, else null. */
  function FieldValue(name: string, values: Data): (v: Value)
    ensures IsSetIn(values, name) ==> v == values[name]
    ensures v != Null ==> IsSetIn(values, name) || IsSetIn(values, name + "_default")
  {
    if IsSetIn(values, name) then values[name]
    else if IsSetIn(values, name + "_default") then values[name + "_default"]
    else Null
  }

  /** Every check accepts the value; a multi-select value is accepted when
      every item is, each item checked with the field's entry set to it. */
  predicate Accepts(cs: seq<Check>, name: string, value: Value, values: Data)
    decreases value
  {
    if value.List? then
      forall i :: 0 <= i < |value.items| ==> Accepts(cs, name, value.items[i], values[name := value.items[i]])
    else
      forall j :: 0 <= j < |cs| ==> Verdict(cs[j], value, values) == Ok(true)
  }

  /** No check raises on the value or, for a multi-select value, on any
      item. */
  predicate Defined(cs: seq<Check>, name: string, value: Value, values: Data)
    decreases value
  {
    if value.List? then
      forall i :: 0 <= i < |value.items| ==> Defined(cs, name, value.items[i], values[name := value.items[i]])
    else
      forall j :: 0 <= j < |cs| ==> Verdict(cs[j], value, values).Ok?
  }

  /** The field with its validators and errors after a run. */
  predicate SameField(f: Field, r: Field) {
    r == f.(validators := r.validators, errors := r.errors) && Checks(r.validators) == Checks(f.validators)
  }

  /** `Field::validate` on a value: a multi-select value has each item
      validated in turn, the field's entry set to the item; any other value
      goes to every validator, a group rule getting all values. Errors of
      failing validators are added to the field's. */
  function ValidateValue(f: Field, value: Value, values: Data): (r: Outcome<FieldRun>)
    ensures r.Ok? <==> Defined(Checks(f.validators), f.name, value, values)
    ensures r.Ok? ==> SameField(f, r.value.field)
    ensures r.Ok? ==> (r.value.ok <==> Accepts(Checks(f.validators), f.name, value, values))
    decreases value, 1, 0
  {
    if value.List? then ValidateItems(f, value, 0, values)
    else
      match RunValidators(f.validators, value, values, f.errors)
      case Raised(e) => Raised(e)
      case Ok(run) => Ok(FieldRun(run.ok, f.(validators := run.validators, errors := run.errors)))
  }

  /** The items of a multi-select value from the `i`-th on. */
  function ValidateItems(f: Field, value: Value, i: nat, values: Data): (r: Outcome<FieldRun>)
    requires value.List? && i <= |value.items|
    ensures r.Ok? <==> forall k :: i <= k < |value.items| ==>
      Defined(Checks(f.validators), f.name, value.items[k], values[f.name := value.items[k]])
    ensures r.Ok? ==> SameField(f, r.value.field)
    ensures r.Ok? ==> (r.value.ok <==> forall k :: i <= k < |value.items| ==>
      Accepts(Checks(f.validators), f.name, value.items[k], values[f.name := value.items[k]]))
    decreases value, 0, |value.items| - i
  {
    if i == |value.items| then Ok(FieldRun(true, f))
    else
      var item := value.items[i];
      ItemsSplit(Checks(f.validators), f.name, value.items, i, values);
      match ValidateValue(f, item, values[f.name := item])
      case Raised(e) => Raised(e)
      case Ok(first) =>
        var rest := ValidateItems(first.field, value, i + 1, values);
        assert first.field.name == f.name;
        assert Checks(first.field.validators) == Checks(f.validators);
        match rest
        case Raised(e) => Raised(e)
        case Ok(tail) => Ok(FieldRun(first.ok && tail.ok, tail.field))
  }

  /** A claim about the items from the `i`-th on is one about the `i`-th
      item and one about the rest. */
  lemma ItemsSplit(cs: seq<Check>, name: string, items: seq<Value>, i: nat, values: Data)
    requires i < |items|
    ensures (forall k :: i <= k < |items| ==> Defined(cs, name, items[k], values[name := items[k]])) <==>
      Defined(cs, name, items[i], values[name := items[i]]) &&
      forall k :: i + 1 <= k < |items| ==> Defined(cs, name, items[k], values[name := items[k]])
    ensures (forall k :: i <= k < |items| ==> Accepts(cs, name, items[k], values[name := items[k]])) <==>
      Accepts(cs, name, items[i], values[name := items[i]]) &&
      forall k :: i + 1 <= k < |items| ==> Accepts(cs, name, items[k], values[name := items[k]])
  {
  }

  /** `Field::validate`, with each multi-select item validated as the
      field's value. */
  function FieldValidate(f: Field, values: Data): (r: Outcome<FieldRun>)
    ensures r.Ok? <==> Defined(Checks(f.validators), f.name, FieldValue(f.name, values), values)
    ensures r.Ok? ==> SameField(f, r.value.field)
    ensures r.Ok? ==> (r.value.ok <==> Accepts(Checks(f.validators), f.name, FieldValue(f.name, values), values))
  {
    ValidateValue(f, FieldValue(f.name, values), values)
  }

  // ---------------------------------------------------------------------
  // `Field::validate` as written
  // ---------------------------------------------------------------------

  /** `Field::validate` as the source writes it: each item of a
      multi-select value is stored as the field's entry and the whole method
      runs again, so a null item makes it read the `<name>_default` entry
      again. `fuel` bounds the nesting of those calls; `None` means it ran
      out. */
  function ValidateAsWritten(f: Field, values: Data, fuel: nat): Option<Outcome<FieldRun>>
    decreases fuel, 0, 0
  {
    if fuel == 0 then None
    else
      var value := FieldValue(f.name, values);
      if value.List? then ItemsAsWritten(f, values, value.items, fuel - 1)
      else Some(ValidateValue(f, value, values))
  }

  function ItemsAsWritten(f: Field, values: Data, items: seq<Value>, fuel: nat): Option<Outcome<FieldRun>>
    decreases fuel, 1, |items|
  {
    if |items| == 0 then Some(Ok(FieldRun(true, f)))
    else
      match ValidateAsWritten(f, values[f.name := items[0]], fuel)
      case None => None
      case Some(Raised(e)) => Some(Raised(e))
      case Some(Ok(first)) =>
        match ItemsAsWritten(first.field, values, items[1..], fuel)
        case None => None
        case Some(Raised(e)) => Some(Raised(e))
        case Some(Ok(rest)) => Some(Ok(FieldRun(first.ok && rest.ok, rest.field)))
  }

  /** The defect: with no entry for the field and a `<name>_default` entry
      `[null]`, the method calls itself without end, however deep the
      nesting allowed. */
  lemma {:induction false} NullDefaultDiverges(f: Field, values: Data, fuel: nat)
    requires !IsSetIn(values, f.name)
    requires f.name + "_default" in values && values[f.name + "_default"] == List([Null])
    ensures ValidateAsWritten(f, values, fuel) == None
    decreases fuel
  {
    if fuel > 0 {
      assert f.name != f.name + "_default" by {
        assert |f.name + "_default"| > |f.name|;
      }
      assert FieldValue(f.name, values) == List([Null]);
      var values1 := values[f.name := Null];
      if fuel > 1 {
        NullDefaultDiverges(f, values1, fuel - 1);
      }
    }
  }

  /** The defect on a value `[null]` with a `<name>_default` entry: as
      written the null item is stored as the field's entry, so the nested
      call validates the default instead; `FieldValidate` checks the null
      item itself. */
  lemma NullItemReadsDefault(f: Field, values: Data, fuel: nat)
    requires IsSetIn(values, f.name) && values[f.name] == List([Null])
    requires IsSetIn(values, f.name + "_default") && !values[f.name + "_default"].List?
    requires fuel >= 2
    ensures ValidateAsWritten(f, values, fuel) ==
      Some(ValidateValue(f, values[f.name + "_default"], values[f.name := Null]))
    ensures FieldValidate(f, values).Ok? ==>
      (FieldValidate(f, values).value.ok <==> Accepts(Checks(f.validators), f.name, Null, values[f.name := Null]))
  {
    assert f.name != f.name + "_default" by {
      assert |f.name + "_default"| > |f.name|;
    }
    var values1 := values[f.name := Null];
    var d := values[f.name + "_default"];
    assert FieldValue(f.name, values1) == d;
    assert FieldValue(f.name, values) == List([Null]);
    assert ValidateAsWritten(f, values1, fuel - 1) == Some(ValidateValue(f, d, values1));
    assert ValidateAsWritten(f, values, fuel) == ItemsAsWritten(f, values, [Null], fuel - 1);
    assert [Null][1..] == [];
    match ValidateValue(f, d, values1)
    case Raised(_) =>
    case Ok(first) =>
      assert ItemsAsWritten(first.field, values, [], fuel - 1) == Some(Ok(FieldRun(true, first.field)));
  }

  /** The nesting depth of a value's arrays. */
  function Depth(v: Value): nat
    decreases v, 1, 0
  {
    if v.List? then 1 + ItemsDepth(v, 0) else 0
  }

  function ItemsDepth(v: Value, i: nat): (d: nat)
    requires v.List? && i <= |v.items|
    ensures forall k :: i <= k < |v.items| ==> Depth(v.items[k]) <= d
    decreases v, 0, |v.items| - i
  {
    if i == |v.items| then 0
    else
      var a := Depth(v.items[i]);
      var b := ItemsDepth(v, i + 1);
      if a < b then b else a
  }

  /** No array inside the value holds a null item. */
  predicate NoNullItems(v: Value)
    decreases v
  {
    v.List? ==> forall i :: 0 <= i < |v.items| ==> v.items[i] != Null && NoNullItems(v.items[i])
  }

  /** Without null items, the method as written agrees with
      `FieldValidate`, given nesting room for the value's depth. */
  lemma {:induction false} AsWrittenAgrees(f: Field, values: Data, fuel: nat)
    requires NoNullItems(FieldValue(f.name, values)) && fuel > Depth(FieldValue(f.name, values))
    ensures ValidateAsWritten(f, values, fuel) == Some(FieldValidate(f, values))
    decreases fuel, 0, 0
  {
    var value := FieldValue(f.name, values);
    if value.List? {
      assert value.items[0..] == value.items;
      ItemsAgree(f, values, value, 0, fuel - 1);
    }
  }

  lemma {:induction false} ItemsAgree(f: Field, values: Data, v: Value, i: nat, fuel: nat)
    requires v.List? && i <= |v.items|
    requires forall k :: i <= k < |v.items| ==> v.items[k] != Null && NoNullItems(v.items[k]) && fuel > Depth(v.items[k])
    ensures ItemsAsWritten(f, values, v.items[i..], fuel) == Some(ValidateItems(f, v, i, values))
    decreases fuel, 1, |v.items| - i
  {
    if i < |v.items| {
      var item := v.items[i];
      var values1 := values[f.name := item];
      assert FieldValue(f.name, values1) == item;
      AsWrittenAgrees(f, values1, fuel);
      assert v.items[i..][0] == item && v.items[i..][1..] == v.items[i + 1..];
      match ValidateValue(f, item, values1)
      case Raised(_) =>
      case Ok(first) =>
        ItemsAgree(first.field, values, v, i + 1, fuel);
    }
  }

  // ---------------------------------------------------------------------
  // `FieldGroup::validate`
  // ---------------------------------------------------------------------

  datatype GroupRun = GroupRun(ok: bool, group: Group)

  /** Runs every step in order and stops at the first exception, which
      is passed on; otherwise the results of all of them. */
  function Collect<T>(runs: seq<Outcome<T>>): (r: Outcome<seq<T>>)
    ensures r.Ok? <==> forall k :: 0 <= k < |runs| ==> runs[k].Ok?
    ensures r.Ok? ==> |r.value| == |runs| && forall k :: 0 <= k < |runs| ==> r.value[k] == runs[k].value
  {
    if |runs| == 0 then Ok([])
    else
      var n := |runs| - 1;
      var front := Collect(runs[..n]);
      if front.Raised? then Raised(front.reason)
      else if runs[n].Raised? then Raised(runs[n].reason)
      else Ok(front.value + [runs[n].value])
  }

  /** The exception passed on is the first one raised. */
  lemma {:induction false} CollectRaisesFirst<T>(runs: seq<Outcome<T>>, k: nat)
    requires k < |runs| && runs[k].Raised? && forall j :: 0 <= j < k ==> runs[j].Ok?
    ensures Collect(runs) == Raised(runs[k].reason)
  {
    var n := |runs| - 1;
    if k < n {
      CollectRaisesFirst(runs[..n], k);
    } else {
      assert Collect(runs[..n]).Ok?;
    }
  }

  /** The group's own rules (all group rules) after a run that keeps their
      checks. */
  function AsGroupValidators(vs: seq<Validator>, before: seq<GroupValidator>): (r: seq<GroupValidator>)
    requires Checks(vs) == Checks(before)
    ensures r == vs
  {
    assert forall j :: 0 <= j < |vs| ==> Checks(vs)[j].kind == before[j].kind;
    vs
  }

  /** `FieldGroup::validate`: the group's own rules, then every child
      group, then every field, none skipped after a failure. */
  function GroupValidate(g: Group, values: Data): (r: Outcome<GroupRun>)
    ensures r.Ok? ==> r.value.group.name == g.name && r.value.group.description == g.description && r.value.group.errors == g.errors
    ensures r.Ok? ==> |r.value.group.groups| == |g.groups| && |r.value.group.fields| == |g.fields|
    decreases g, 1
  {
    var own := RunValidators(g.validators, Null, values, []);
    var children := Collect(ChildRuns(g, values));
    var fields := Collect(FieldRuns(g.fields, values));
    if own.Raised? then Raised(own.reason)
    else if children.Raised? then Raised(children.reason)
    else if fields.Raised? then Raised(fields.reason)
    else
      Ok(GroupRun(own.value.ok && AllGroupsOk(children.value) && AllFieldsOk(fields.value),
                  g.(validators := AsGroupValidators(own.value.validators, g.validators),
                     groups := RunGroups(children.value),
                     fields := RunFields(fields.value))))
  }

  /** The runs of the child groups, in order. */
  function ChildRuns(g: Group, values: Data): (r: seq<Outcome<GroupRun>>)
    ensures |r| == |g.groups| && forall i :: 0 <= i < |g.groups| ==> r[i] == GroupValidate(g.groups[i], values)
    decreases g, 0
  {
    seq(|g.groups|, i requires 0 <= i < |g.groups| => GroupValidate(g.groups[i], values))
  }

  /** The runs of the fields, in order. */
  function FieldRuns(fs: seq<Field>, values: Data): (r: seq<Outcome<FieldRun>>)
    ensures |r| == |fs| && forall i :: 0 <= i < |fs| ==> r[i] == FieldValidate(fs[i], values)
  {
    seq(|fs|, i requires 0 <= i < |fs| => FieldValidate(fs[i], values))
  }

  /** Whether every run found its group valid. */
  predicate AllGroupsOk(runs: seq<GroupRun>) {
    forall i :: 0 <= i < |runs| ==> runs[i].ok
  }

  /** Whether every run found its field valid. */
  predicate AllFieldsOk(runs: seq<FieldRun>) {
    forall i :: 0 <= i < |runs| ==> runs[i].ok
  }

  /** The groups after their runs. */
  function RunGroups(runs: seq<GroupRun>): (r: seq<Group>)
    ensures |r| == |runs| && forall i :: 0 <= i < |runs| ==> r[i] == runs[i].group
  {
    seq(|runs|, i requires 0 <= i < |runs| => runs[i].group)
  }

  /** The fields after their runs. */
  function RunFields(runs: seq<FieldRun>): (r: seq<Field>)
    ensures |r| == |runs| && forall i :: 0 <= i < |runs| ==> r[i] == runs[i].field
  {
    seq(|runs|, i requires 0 <= i < |runs| => runs[i].field)
  }

  /** A group's run succeeds exactly when every child group's and every
      field's run does. */
  lemma GroupRunSucceeds(g: Group, values: Data)
    ensures GroupValidate(g, values).Ok? <==>
      (forall i :: 0 <= i < |g.groups| ==> GroupValidate(g.groups[i], values).Ok?)
      && (forall i :: 0 <= i < |g.fields| ==> FieldValidate(g.fields[i], values).Ok?)
  {
    assert forall j :: 0 <= j < |g.validators| ==> Verdict(Checks(g.validators)[j], Null, values).Ok?;
    assert RunValidators(g.validators, Null, values, []).Ok?;
    var children, fields := ChildRuns(g, values), FieldRuns(g.fields, values);
    assert GroupValidate(g, values).Ok? <==> Collect(children).Ok? && Collect(fields).Ok?;
  }

  /** After a run each child group and each field is replaced by its own
      run's result. */
  lemma GroupRunParts(g: Group, values: Data)
    requires GroupValidate(g, values).Ok?
    ensures forall i :: 0 <= i < |g.groups| ==>
      GroupValidate(g.groups[i], values).Ok? && GroupValidate(g, values).value.group.groups[i] == GroupValidate(g.groups[i], values).value.group
    ensures forall i :: 0 <= i < |g.fields| ==>
      FieldValidate(g.fields[i], values).Ok? && GroupValidate(g, values).value.group.fields[i] == FieldValidate(g.fields[i], values).value.field
  {
  }

  /** The group is valid exactly when its own rules pass, every child group
      is valid and every field is valid. */
  lemma GroupRunValid(g: Group, values: Data)
    requires GroupValidate(g, values).Ok?
    ensures GroupValidate(g, values).value.ok <==>
      (forall j :: 0 <= j < |g.validators| ==> GroupPasses(g.validators[j].kind.group, g.validators[j].fields, values))
      && (forall i :: 0 <= i < |g.groups| ==> GroupValidate(g.groups[i], values).Ok? && GroupValidate(g.groups[i], values).value.ok)
      && (forall i :: 0 <= i < |g.fields| ==> FieldValidate(g.fields[i], values).Ok? && FieldValidate(g.fields[i], values).value.ok)
  {
    var own := RunValidators(g.validators, Null, values, []);
    var children := Collect(ChildRuns(g, values));
    var fields := Collect(FieldRuns(g.fields, values));
    assert own.Ok? && children.Ok? && fields.Ok?;
    assert GroupValidate(g, values).value.ok == (own.value.ok && AllGroupsOk(children.value) && AllFieldsOk(fields.value));
    OwnRulesPass(g.validators, values);
    ChildrenValid(g, values);
    FieldsValid(g.fields, values);
  }

  /** A group's own rules pass exactly when each rule does. */
  lemma OwnRulesPass(vs: seq<GroupValidator>, values: Data)
    requires RunValidators(vs, Null, values, []).Ok?
    ensures RunValidators(vs, Null, values, []).value.ok <==>
      forall j :: 0 <= j < |vs| ==> GroupPasses(vs[j].kind.group, vs[j].fields, values)
  {
    assert forall j :: 0 <= j < |vs| ==> Verdict(Checks(vs)[j], Null, values).Ok?;
  }

  lemma ChildrenValid(g: Group, values: Data)
    requires Collect(ChildRuns(g, values)).Ok?
    ensures AllGroupsOk(Collect(ChildRuns(g, values)).value) <==>
      forall i :: 0 <= i < |g.groups| ==> GroupValidate(g.groups[i], values).Ok? && GroupValidate(g.groups[i], values).value.ok
  {
  }

  lemma FieldsValid(fs: seq<Field>, values: Data)
    requires Collect(FieldRuns(fs, values)).Ok?
    ensures AllFieldsOk(Collect(FieldRuns(fs, values)).value) <==>
      forall i :: 0 <= i < |fs| ==> FieldValidate(fs[i], values).Ok? && FieldValidate(fs[i], values).value.ok
  {
  }

  /** A valid group has every field of its tree valid. */
  lemma {:induction false} ValidGroupHasValidFields(g: Group, values: Data, f: Field)
    requires GroupValidate(g, values).Ok? && GroupValidate(g, values).value.ok
    requires f in AllFields(g)
    ensures FieldValidate(f, values).Ok? && FieldValidate(f, values).value.ok
    decreases g
  {
    GroupRunValid(g, values);
    if f !in g.fields {
      var i :| 0 <= i < |g.groups| && f in AllFields(g.groups[i]);
      ValidGroupHasValidFields(g.groups[i], values, f);
    }
  }
}

=== FILE: meta_table.dfy ===
/** `MetaTable`: the schema-driven value pipeline of `Meta_Table`.

    A meta table maps each field key, in declaration order, to its info
    (`db_field`, `default`, `get_value`, `set_value`, `field_type`,
    `children`, ...). Values are stored in a `Data` map and pass through
    resolvers: an info entry that names a method of the object is called, one
    that names a user function is called, and anything else is a literal.
    PHP's introspection is replaced by an explicit environment of method and
    function names with uninterpreted call results. */
module MetaTable {
  import opened Strings
  import opened Php
  import Base
  import NumericString

  /** The info of one meta-table key. */
  type Info = map<string, Value>

  /** The meta table: the keys in declaration order and their info. */
  datatype Table = Table(keys: seq<string>, info: map<string, Info>)
  {
    /** Keys are listed once each, and exactly the listed keys have info. */
    predicate Valid() {
      Base.NoDuplicates(keys) && info.Keys == set k | k in keys
    }
  }

  /** The raw info entry, if the key and info key are both present. */
  function Lookup(t: Table, key: string, infoKey: string): Option<Value> {
    if key in t.info && infoKey in t.info[key] then Some(t.info[key][infoKey]) else None
  }

  /** `isset($meta_table[$key][$infoKey])`. */
  predicate IsSet(t: Table, key: string, infoKey: string) {
    Lookup(t, key, infoKey).Some? && Lookup(t, key, infoKey).value != Null
  }

  /** `get_meta_table_value`: the info entry, or `default` when the key or
      the info key is absent or null. */
  function GetInfo(t: Table, key: string, infoKey: string, default: Value): (r: Value)
    ensures IsSet(t, key, infoKey) ==> r == t.info[key][infoKey] && r != Null
    ensures !IsSet(t, key, infoKey) ==> r == default
  {
    if IsSet(t, key, infoKey) then t.info[key][infoKey] else default
  }

  /** `set_meta_table_value`: sets one info entry; a new key is appended to
      the table's order, an existing key keeps its place. */
  function SetInfo(t: Table, key: string, infoKey: string, v: Value): (r: Table)
    ensures t.Valid() ==> r.Valid()
    ensures r.keys == if key in t.info then t.keys else t.keys + [key]
    ensures Lookup(r, key, infoKey) == Some(v)
    ensures forall k, ik :: (k, ik) != (key, infoKey) ==> Lookup(r, k, ik) == Lookup(t, k, ik)
  {
    var entry := if key in t.info then t.info[key] else map[];
    var r := Table(if key in t.info then t.keys else t.keys + [key], t.info[key := entry[infoKey := v]]);
    assert t.Valid() ==> r.Valid() by {
      if t.Valid() && key !in t.info {
        forall i, j | 0 <= i < j < |r.keys| ensures r.keys[i] != r.keys[j] {
          if j == |t.keys| {
            assert r.keys[i] == t.keys[i] && t.keys[i] in t.info;
          }
        }
      }
    }
    r
  }

  /** Reading an info entry back after setting it gives the value set (or
      the default, when the value set is null), and no other entry moves. */
  lemma GetAfterSet(t: Table, key: string, infoKey: string, v: Value, d: Value)
    ensures GetInfo(SetInfo(t, key, infoKey, v), key, infoKey, d) == if v == Null then d else v
    ensures forall k, ik :: (k, ik) != (key, infoKey) ==>
      GetInfo(SetInfo(t, key, infoKey, v), k, ik, d) == GetInfo(t, k, ik, d)
  {
  }

  /** `keys` without `key`. */
  function Without(keys: seq<string>, key: string): (r: seq<string>)
    ensures forall k :: k in r <==> k in keys && k != key
    ensures Base.NoDuplicates(keys) ==> Base.NoDuplicates(r)
  {
    if |keys| == 0 then []
    else
      var rest := Without(keys[1..], key);
      if keys[0] == key then
        assert Base.NoDuplicates(keys) ==> Base.NoDuplicates(rest) by {
          if Base.NoDuplicates(keys) { Base.NoDuplicatesTail(keys); }
        }
        rest
      else
        assert Base.NoDuplicates(keys) ==> Base.NoDuplicates([keys[0]] + rest) by {
          if Base.NoDuplicates(keys) {
            Base.NoDuplicatesTail(keys);
            Base.NoDuplicatesCons(keys[0], rest);
          }
        }
        [keys[0]] + rest
  }

  /** `remove_meta_table_info`: with a falsy info key (null, "" or "0")
      the whole key is removed; otherwise the info entry, if set. */
  function RemoveInfo(t: Table, key: string, infoKey: Option<string>): (r: Table)
    ensures t.Valid() ==> r.Valid()
    ensures !InfoKeyGiven(infoKey) ==> key !in r.info && key !in r.keys
    ensures !InfoKeyGiven(infoKey) ==> forall k, ik :: k != key ==> Lookup(r, k, ik) == Lookup(t, k, ik)
    ensures InfoKeyGiven(infoKey) ==> !IsSet(r, key, infoKey.value) && r.keys == t.keys
    ensures InfoKeyGiven(infoKey) ==>
      forall k, ik :: (k, ik) != (key, infoKey.value) ==> Lookup(r, k, ik) == Lookup(t, k, ik)
  {
    if !InfoKeyGiven(infoKey) then Table(Without(t.keys, key), t.info - {key})
    else if IsSet(t, key, infoKey.value) then Table(t.keys, t.info[key := t.info[key] - {infoKey.value}])
    else t
  }

  predicate InfoKeyGiven(infoKey: Option<string>) {
    infoKey.Some? && Truthy(Str(infoKey.value))
  }

  /** The info of a key, empty for a key without info. */
  function Entry(t: Table, key: string): Info {
    if key in t.info then t.info[key] else map[]
  }

  /** The selection test of `get_meta_table_keys_with_meta_info_key`: the
      info entry is set and, when a value is given, loosely equals it. */
  predicate HasInfo(t: Table, key: string, infoKey: string, value: Value) {
    IsSetIn(Entry(t, key), infoKey) && (value == Null || LooseEq(Entry(t, key)[infoKey], value))
  }

  /** `a` is `b` with some elements left out, order kept. */
  predicate IsSubsequence(a: seq<string>, b: seq<string>)
    decreases |b|
  {
    if |a| == 0 then true
    else if |b| == 0 then false
    else if a[0] == b[0] then IsSubsequence(a[1..], b[1..])
    else IsSubsequence(a, b[1..])
  }

  /** The filter over a list of keys. */
  function KeysFrom(t: Table, keys: seq<string>, infoKey: string, value: Value, negate: bool): (r: seq<string>)
    ensures forall k :: k in r <==> k in keys && HasInfo(t, k, infoKey, value) != negate
    ensures |r| <= |keys|
  {
    if |keys| == 0 then []
    else
      var rest := KeysFrom(t, keys[1..], infoKey, value, negate);
      if HasInfo(t, keys[0], infoKey, value) != negate then [keys[0]] + rest else rest
  }

  /** `get_meta_table_keys_with_meta_info_key` returning key names: the keys
      whose info entry is set (and, when `value` is not null, loosely equal
      to it), or with `negate` the others; PHP's null result for no match is
      the empty list. */
  function KeysWith(t: Table, infoKey: string, value: Value, negate: bool): (r: seq<string>)
    ensures forall k :: k in r <==> k in t.keys && HasInfo(t, k, infoKey, value) != negate
  {
    KeysFrom(t, t.keys, infoKey, value, negate)
  }

  /** The selected keys come in meta-table order. */
  lemma {:induction false} KeysFromOrdered(t: Table, keys: seq<string>, infoKey: string, value: Value, negate: bool)
    ensures IsSubsequence(KeysFrom(t, keys, infoKey, value, negate), keys)
    decreases |keys|
  {
    if |keys| > 0 {
      KeysFromOrdered(t, keys[1..], infoKey, value, negate);
      var rest := KeysFrom(t, keys[1..], infoKey, value, negate);
      if HasInfo(t, keys[0], infoKey, value) == negate {
        SubsequenceOfTail(rest, keys);
      }
    }
  }

  lemma {:induction false} SubsequenceOfTail(a: seq<string>, b: seq<string>)
    requires |b| > 0 && IsSubsequence(a, b[1..])
    ensures IsSubsequence(a, b)
    decreases |a| + |b|, 1
  {
    if |a| > 0 && a[0] == b[0] {
      SubsequenceDropHead(a, b[1..]);
    }
  }

  lemma {:induction false} SubsequenceDropHead(a: seq<string>, c: seq<string>)
    requires |a| > 0 && IsSubsequence(a, c)
    ensures IsSubsequence(a[1..], c)
    decreases |a| + |c|, 0
  {
    if a[0] == c[0] {
      if |c| > 1 || |a| > 1 {
        if |a[1..]| > 0 {
          SubsequenceOfTail(a[1..], c);
        }
      }
    } else {
      SubsequenceDropHead(a, c[1..]);
      SubsequenceOfTail(a[1..], c);
    }
  }

  lemma KeysWithOrdered(t: Table, infoKey: string, value: Value, negate: bool)
    ensures IsSubsequence(KeysWith(t, infoKey, value, negate), t.keys)
  {
    KeysFromOrdered(t, t.keys, infoKey, value, negate);
  }

  /** With and without `negate` the query splits the keys into two parts
      with nothing in common and nothing left over. */
  lemma {:induction false} KeysFromComplement(t: Table, keys: seq<string>, infoKey: string, value: Value)
    ensures |KeysFrom(t, keys, infoKey, value, false)| + |KeysFrom(t, keys, infoKey, value, true)| == |keys|
    ensures forall k :: k in keys ==> (k in KeysFrom(t, keys, infoKey, value, false) <==> k !in KeysFrom(t, keys, infoKey, value, true))
    decreases |keys|
  {
    if |keys| > 0 {
      KeysFromComplement(t, keys[1..], infoKey, value);
    }
  }

  lemma KeysWithComplement(t: Table, infoKey: string, value: Value)
    ensures |KeysWith(t, infoKey, value, false)| + |KeysWith(t, infoKey, value, true)| == |t.keys|
    ensures forall k :: k in t.keys ==> (k in KeysWith(t, infoKey, value, false) <==> k !in KeysWith(t, infoKey, value, true))
  {
    KeysFromComplement(t, t.keys, infoKey, value);
  }

  // ---------------------------------------------------------------------
  // Resolvers
  // ---------------------------------------------------------------------

  /** The argument a resolver is called with: the key alone (getters,
      defaults, callbacks), the key and the incoming value (`set_value`), or
      a chained callback's argument array of the inner argument and value. */
  datatype CallArg =
    | KeyArg(key: string)
    | SetArg(key: string, value: Value)
    | ChainArg(inner: CallArg, value: Value)

  /** What `method_exists`, `get_defined_functions` and the calls stand for.
      `methods` holds the object's method names lower-cased (PHP looks
      methods up case-insensitively); `functions` the user-defined functions
      as PHP lists them, lower-cased; a method sees the record's data.
      `purifier` is the HTML purifier when it is enabled. */
  datatype Env = Env(
    methods: set<string>,
    functions: set<string>,
    callMethod: (string, CallArg, Data) -> Value,
    callFunction: (string, CallArg) -> Value,
    purifier: Option<string -> string>)

  /** `is_method`: non-empty, not an object or array, and a method name. */
  predicate IsMethod(env: Env, v: Value) {
    Truthy(v) && !v.Obj? && !v.List? && LowerAscii(ToStr(v)) in env.methods
  }

  /** `is_user_function`: a non-empty string among the user functions. */
  predicate IsUserFunction(env: Env, v: Value) {
    Truthy(v) && v.Str? && v.s in env.functions
  }

  /** How an info value is used: as a method, a function or itself. */
  datatype Resolver = MethodRef(name: string) | FunctionRef(name: string) | Literal(v: Value)

  /** The resolver order of the source: method first, then function, then
      literal. */
  function Classify(env: Env, v: Value): (r: Resolver)
    ensures r.MethodRef? <==> IsMethod(env, v)
    ensures r.FunctionRef? <==> !IsMethod(env, v) && IsUserFunction(env, v)
    ensures r.Literal? ==> r.v == v
    ensures !r.Literal? ==> Truthy(v)
  {
    if IsMethod(env, v) then MethodRef(ToStr(v))
    else if IsUserFunction(env, v) then FunctionRef(v.s)
    else Literal(v)
  }

  /** Null, falsy values and non-strings other than integers and booleans
      are never called. */
  lemma LiteralsStayLiteral(env: Env, v: Value)
    requires !Truthy(v) || v.List? || v.Obj?
    ensures Classify(env, v) == Literal(v)
  {
  }

  /** Calls a resolver, or returns the literal. */
  function Resolve(env: Env, r: Resolver, arg: CallArg, data: Data): Value {
    match r
    case MethodRef(n) => env.callMethod(n, arg, data)
    case FunctionRef(n) => env.callFunction(n, arg)
    case Literal(v) => v
  }

  /** `get_default`: the `default` info (or `default` when unset), called
      with the key when it names a method or function. */
  function GetDefault(t: Table, env: Env, data: Data, key: string, default: Value): (r: Value)
    ensures var d := GetInfo(t, key, "default", default);
      r == Resolve(env, Classify(env, d), KeyArg(key), data)
  {
    Resolve(env, Classify(env, GetInfo(t, key, "default", default)), KeyArg(key), data)
  }

  /** A default that is not a method does not depend on the record data. */
  lemma DefaultIgnoresData(t: Table, env: Env, d1: Data, d2: Data, key: string, default: Value)
    requires !Classify(env, GetInfo(t, key, "default", default)).MethodRef?
    ensures GetDefault(t, env, d1, key, default) == GetDefault(t, env, d2, key, default)
  {
  }

  /** The zero date stored for an unset date-time column. */
  const ZeroDate: string := "0000-00-00 00:00:00"

  /** `can_default_value`: exactly null and the zero date. */
  predicate CanDefault(v: Value) {
    v == Null || v == Str(ZeroDate)
  }

  // ---------------------------------------------------------------------
  // Word characters
  // ---------------------------------------------------------------------

  /** The literal keys of the first replacement array are all the same six
      bytes (a mis-encoded character), so that array collapses to a single
      entry, whose value is the last one written: "_". */
  const Mangled: string := "\U{C3}\U{AF}\U{C2}\U{BF}\U{C2}\U{BD}"

  /** The Windows-1252 "smart" characters: ellipsis, single and double
      curly quotes, en dash. */
  const WordChars: seq<char> := ['\U{85}', '\U{91}', '\U{92}', '\U{93}', '\U{94}', '\U{96}']

  /** The replacement array in insertion order. */
  const WordReplacements: seq<(string, string)> := [
    (Mangled, "_"),
    ("\U{85}", "_"),
    ("\U{91}", "'"),
    ("\U{92}", "'"),
    ("\U{93}", "\""),
    ("\U{94}", "\""),
    ("\U{96}", "-")
  ]

  /** `str_replace` for each pair in turn. */
  function ReplaceEach(s: string, table: seq<(string, string)>): string
    requires forall i :: 0 <= i < |table| ==> |table[i].0| > 0
    decreases |table|
  {
    if |table| == 0 then s else ReplaceEach(ReplaceAll(s, table[0].0, table[0].1), table[1..])
  }

  /** `convert_word_characters`. */
  function ConvertWordCharacters(s: string): string {
    ReplaceEach(s, WordReplacements)
  }

  predicate IsAscii(c: char) { c as int < 128 }

  /** Replacement only introduces characters of the replacement text. */
  lemma {:induction false} ReplaceAllChars(s: string, pat: string, rep: string)
    requires |pat| > 0
    ensures forall c :: c in ReplaceAll(s, pat, rep) ==> c in s || c in rep
    decreases |s|
  {
    if |s| >= |pat| {
      if s[..|pat|] == pat {
        ReplaceAllChars(s[|pat|..], pat, rep);
      } else {
        ReplaceAllChars(s[1..], pat, rep);
      }
    }
  }

  /** Single non-ASCII characters replaced by ASCII ones: every non-ASCII
      character left was in the input, and none is one of the replaced. */
  lemma {:induction false} SingleCharFold(s: string, table: seq<(string, string)>)
    requires forall i :: 0 <= i < |table| ==>
      |table[i].0| == 1 && |table[i].1| == 1 && !IsAscii(table[i].0[0]) && IsAscii(table[i].1[0])
    ensures forall c :: c in ReplaceEach(s, table) && !IsAscii(c) ==> c in s
    ensures forall c, i :: c in ReplaceEach(s, table) && 0 <= i < |table| ==> [c] != table[i].0
    decreases |table|
  {
    if |table| > 0 {
      var c0 := table[0].0[0];
      var d0 := table[0].1[0];
      assert table[0].0 == [c0] && table[0].1 == [d0];
      var s1 := ReplaceAll(s, [c0], [d0]);
      ReplaceCharPointwise(s, c0, d0);
      SingleCharFold(s1, table[1..]);
      var r := ReplaceEach(s, table);
      assert r == ReplaceEach(s1, table[1..]);
      forall c | c in r && !IsAscii(c) ensures c in s && c != c0 {
        assert c in s1;
        var j :| 0 <= j < |s1| && s1[j] == c;
      }
      forall c, i | c in r && 0 <= i < |table| ensures [c] != table[i].0 {
        if i > 0 {
          assert table[1..][i - 1] == table[i];
        } else if c in r && !IsAscii(c) {
          assert c in s1;
          var j :| 0 <= j < |s1| && s1[j] == c;
        }
      }
    }
  }

  /** No Windows-1252 smart character survives the conversion. */
  lemma ConvertRemovesWordChars(s: string)
    ensures forall c :: c in ConvertWordCharacters(s) ==> c !in WordChars
  {
    var s1 := ReplaceAll(s, Mangled, "_");
    var tail := WordReplacements[1..];
    assert ConvertWordCharacters(s) == ReplaceEach(s1, tail);
    SingleCharFold(s1, tail);
    forall c | c in ConvertWordCharacters(s) ensures c !in WordChars {
      forall i | 0 <= i < |WordChars| ensures c != WordChars[i] {
        assert [WordChars[i]] == tail[i].0;
      }
    }
  }

  /** A pattern with a non-ASCII character never occurs in ASCII text. */
  lemma AbsentFromAscii(s: string, pat: string, k: int)
    requires forall c :: c in s ==> IsAscii(c)
    requires 0 <= k < |pat| && !IsAscii(pat[k])
    ensures !Contains(s, pat)
  {
    forall i | OccursAt(s, pat, i) ensures false {
    }
  }

  /** Plain ASCII text passes through the conversion unchanged. */
  lemma {:induction false} ReplaceEachAscii(s: string, table: seq<(string, string)>)
    requires forall c :: c in s ==> IsAscii(c)
    requires forall i :: 0 <= i < |table| ==> |table[i].0| > 0 && !IsAscii(table[i].0[0])
    ensures ReplaceEach(s, table) == s
    decreases |table|
  {
    if |table| > 0 {
      AbsentFromAscii(s, table[0].0, 0);
      ReplaceAbsent(s, table[0].0, table[0].1);
      ReplaceEachAscii(s, table[1..]);
    }
  }

  lemma ConvertKeepsAscii(s: string)
    requires forall c :: c in s ==> IsAscii(c)
    ensures ConvertWordCharacters(s) == s
  {
    ReplaceEachAscii(s, WordReplacements);
  }

  /** The conversion never lengthens the text. */
  lemma {:induction false} ReplaceEachShrinks(s: string, table: seq<(string, string)>)
    requires forall i :: 0 <= i < |table| ==> 0 < |table[i].1| <= |table[i].0|
    ensures |ReplaceEach(s, table)| <= |s|
    decreases |table|
  {
    if |table| > 0 {
      ReplaceShrinks(s, table[0].0, table[0].1);
      ReplaceEachShrinks(ReplaceAll(s, table[0].0, table[0].1), table[1..]);
    }
  }

  lemma ConvertShrinks(s: string)
    ensures |ConvertWordCharacters(s)| <= |s|
  {
    ReplaceEachShrinks(s, WordReplacements);
  }

  // ---------------------------------------------------------------------
  // Setting and getting values
  // ---------------------------------------------------------------------

  /** The field types whose text the purifier cleans. */
  const PurifyTypes: seq<Value> := [Str("TYPE_TEXT"), Str("TYPE_TEXTAREA")]

  /** The first two steps of `set_value` on a string: smart characters are
      converted unless `allow_word_characters` is set, and when the purifier
      is enabled text and textarea fields are purified unless
      `skip_purify_html` is set. Non-strings pass through. */
  function PrepareValue(t: Table, env: Env, key: string, v: Value): (r: Value)
    ensures !v.Str? ==> r == v
    ensures v.Str? ==> r.Str?
    ensures v.Str? && env.purifier.None? ==>
      r.s == if Truthy(GetInfo(t, key, "allow_word_characters", Null)) then v.s else ConvertWordCharacters(v.s)
  {
    var v1 := if v.Str? && !Truthy(GetInfo(t, key, "allow_word_characters", Null))
      then Str(ConvertWordCharacters(v.s)) else v;
    if v1.Str? && env.purifier.Some? && LooseIn(GetInfo(t, key, "field_type", Null), PurifyTypes)
      && !Truthy(GetInfo(t, key, "skip_purify_html", Null))
    then Str(env.purifier.value(v1.s))
    else v1
  }

  /** `set_value`: the prepared value goes to a `set_value` method or
      function, whose result is stored verbatim; without one, null and the
      zero date are replaced by the default. Only `key` changes. */
  function SetValue(t: Table, env: Env, data: Data, key: string, v: Value): (r: Data)
    ensures r.Keys == data.Keys + {key}
    ensures forall k :: k in data && k != key ==> r[k] == data[k]
    ensures var p := PrepareValue(t, env, key, v);
      match Classify(env, GetInfo(t, key, "set_value", Null))
      case MethodRef(n) => r[key] == env.callMethod(n, SetArg(key, p), data)
      case FunctionRef(n) => r[key] == env.callFunction(n, SetArg(key, p))
      case Literal(_) => r[key] == if CanDefault(p) then GetDefault(t, env, data, key, Null) else p
  {
    var p := PrepareValue(t, env, key, v);
    var stored := match Classify(env, GetInfo(t, key, "set_value", Null))
      case MethodRef(n) => env.callMethod(n, SetArg(key, p), data)
      case FunctionRef(n) => env.callFunction(n, SetArg(key, p))
      case Literal(_) => if CanDefault(p) then GetDefault(t, env, data, key, Null) else p;
    data[key := stored]
  }

  /** `get_value`: a `get_value` method or function answers alone; otherwise
      the stored value, unless it is unset, null or the zero date, in which
      case the literal `get_value` entry, or else the default (the argument,
      or the key's resolved default when the argument is null or the zero
      date). */
  function GetValue(t: Table, env: Env, data: Data, key: string, default: Value): (r: Value)
    ensures var d := if CanDefault(default) then GetDefault(t, env, data, key, Null) else default;
      var g := GetInfo(t, key, "get_value", d);
      match Classify(env, g)
      case MethodRef(n) => r == env.callMethod(n, KeyArg(key), data)
      case FunctionRef(n) => r == env.callFunction(n, KeyArg(key))
      case Literal(_) =>
        (IsSetIn(data, key) && !CanDefault(data[key]) ==> r == data[key])
        && (!(IsSetIn(data, key) && !CanDefault(data[key])) ==>
              r == if IsSet(t, key, "get_value") then t.info[key]["get_value"] else d)
  {
    var d := if CanDefault(default) then GetDefault(t, env, data, key, Null) else default;
    var g := GetInfo(t, key, "get_value", d);
    match Classify(env, g)
    case MethodRef(n) => env.callMethod(n, KeyArg(key), data)
    case FunctionRef(n) => env.callFunction(n, KeyArg(key))
    case Literal(_) => if !IsSetIn(data, key) || CanDefault(data[key]) then g else data[key]
  }

  /** A `get_value` function ignores the stored data entirely. */
  lemma GetValueFunctionIgnoresData(t: Table, env: Env, d1: Data, d2: Data, key: string, default: Value)
    requires IsSet(t, key, "get_value") && Classify(env, t.info[key]["get_value"]).FunctionRef?
    ensures GetValue(t, env, d1, key, default) == GetValue(t, env, d2, key, default)
  {
  }

  /** The field has neither a `set_value` nor a `get_value` resolver and no
      literal `get_value` entry. */
  predicate PlainField(t: Table, env: Env, key: string) {
    Classify(env, GetInfo(t, key, "set_value", Null)).Literal? && !IsSet(t, key, "get_value")
  }

  /** Round trip: on a plain field, a value that survives preparation as
      neither null nor the zero date is read back as stored (provided the
      key's default is not itself the name of something callable, which
      `get_value` would call). */
  lemma SetThenGet(t: Table, env: Env, data: Data, key: string, v: Value)
    requires PlainField(t, env, key)
    requires !CanDefault(PrepareValue(t, env, key, v))
    requires Classify(env, GetDefault(t, env, SetValue(t, env, data, key, v), key, Null)).Literal?
    ensures GetValue(t, env, SetValue(t, env, data, key, v), key, Null) == PrepareValue(t, env, key, v)
  {
  }

  /** Reset: on a plain field whose default is not a method, setting null
      and reading back yields the default. */
  lemma SetNullThenGet(t: Table, env: Env, data: Data, key: string)
    requires PlainField(t, env, key)
    requires !Classify(env, GetInfo(t, key, "default", Null)).MethodRef?
    requires Classify(env, GetDefault(t, env, data, key, Null)).Literal?
    ensures GetValue(t, env, SetValue(t, env, data, key, Null), key, Null) == GetDefault(t, env, data, key, Null)
  {
    var after := SetValue(t, env, data, key, Null);
    DefaultIgnoresData(t, env, data, after, key, Null);
  }

  /** With a `set_value` resolver the stored value is the resolver's answer,
      even for null: no defaulting happens. */
  lemma SetValueResolverVerbatim(t: Table, env: Env, data: Data, key: string, n: string)
    requires Classify(env, GetInfo(t, key, "set_value", Null)) == FunctionRef(n)
    ensures SetValue(t, env, data, key, Null)[key] == env.callFunction(n, SetArg(key, Null))
  {
  }

  // ---------------------------------------------------------------------
  // Callbacks
  // ---------------------------------------------------------------------

  /** The `$parameters` of `process_callback`: a bare value, or an array
      with a `value` entry (null when unset) and possibly a `callback`
      entry. A bare list is an array too, with neither entry. */
  datatype CallbackParams = Bare(v: Value) | Params(value: Value, callback: Option<Value>)

  /** The value `process_callback` works on: a list parameter has no
      `value` entry, so it reads as null. */
  function ParamValue(params: CallbackParams): Value {
    match params
    case Bare(v) => if v.List? then Null else v
    case Params(value, _) => value
  }

  /** `process_callback`: the value is called with the argument when it is
      a method or function; otherwise, if a `callback` entry is present, the
      callback is processed with the argument array of the argument and the
      value; otherwise the value is returned as is. */
  function ProcessCallback(env: Env, data: Data, arg: CallArg, params: CallbackParams): (r: Value)
    ensures params.Bare? && params.v.List? ==> r == Null
    ensures params.Bare? && !params.v.List? && Classify(env, params.v).Literal? ==> r == params.v
    ensures params.Params? && params.callback.None? && Classify(env, params.value).Literal? ==> r == params.value
    ensures !Classify(env, ParamValue(params)).Literal? ==>
      r == Resolve(env, Classify(env, ParamValue(params)), arg, data)
    decreases if params.Params? && params.callback.Some? then 1 else 0
  {
    var value := ParamValue(params);
    match Classify(env, value)
    case MethodRef(n) => env.callMethod(n, arg, data)
    case FunctionRef(n) => env.callFunction(n, arg)
    case Literal(_) =>
      if params.Params? && params.callback.Some? then
        ProcessCallback(env, data, ChainArg(arg, value), Params(params.callback.value, None))
      else value
  }

  /** A literal value with a callable callback hands the callback both the
      argument and the value; with a literal callback the callback itself is
      the answer. */
  lemma CallbackChains(env: Env, data: Data, arg: CallArg, value: Value, callback: Value)
    requires Classify(env, value).Literal?
    ensures var r := ProcessCallback(env, data, arg, Params(value, Some(callback)));
      r == Resolve(env, Classify(env, callback), ChainArg(arg, value), data)
  {
  }

  /** The `&=` of the hook fold: PHP's bitwise and of `1` with the hook's
      result converted to an integer; an operand that cannot be converted
      raises `TypeError`. Only the low bit survives. */
  function LowBit(v: Value): (r: Outcome<bool>)
    ensures v.Bool? ==> r == Ok(v.b)
    ensures v.Int? ==> r == Ok(v.i % 2 == 1)
    ensures v.List? || v.Obj? ==> r.Raised?
    ensures v.Str? ==> (r.Raised? <==> forall j {:trigger NumericString.IsNumericString(v.s[..j])} ::
      0 <= j <= |v.s| ==> !NumericString.IsNumericString(v.s[..j]))
    ensures v.Str? && NumericString.IsNumericString(v.s) ==>
      r == Ok(NumericString.TruncateReal(NumericString.NumericStringValue(v.s)) % 2 == 1)
  {
    match v
    case Null => Ok(false)
    case Bool(b) => Ok(b)
    case Int(i) => Ok(i % 2 == 1)
    case Str(s) =>
      var n := LeadingInt(s);
      if n.None? then Raised("Unsupported operand types") else Ok(n.value % 2 == 1)
    case List(_) => Raised("Unsupported operand types")
    case Obj(_) => Raised("Unsupported operand types")
  }

  /** A hook answering a decimal string counts by the parity of its integer
      part: "3.5" is odd, "2.5" even. */
  lemma DecimalAnswerTruncates(n: nat, d: char)
    requires IsDigit(d)
    ensures LowBit(Str(NatToString(n) + "." + [d])) == Ok(n % 2 == 1)
  {
    var s := NatToString(n) + "." + [d];
    NumericString.FractionDigit(NatToString(n), d);
    NatToStringRoundTrip(n);
    FractionTruncates(n, DigitValue(d));
    assert NumericString.TruncateReal(NumericString.NumericStringValue(s)) == n;
  }

  lemma FractionTruncates(n: nat, d: nat)
    requires d < 10
    ensures NumericString.TruncateReal(n as real + d as real / 10.0) == n
  {
    var x := n as real + d as real / 10.0;
    assert n as real <= x < n as real + 1.0;
  }

  /** The result of the hook of `key`. */
  function HookResult(t: Table, env: Env, data: Data, hook: string, key: string): Value {
    ProcessCallback(env, data, KeyArg(key), Bare(GetInfo(t, key, hook, Null)))
  }

  function HookFold(t: Table, env: Env, data: Data, hook: string, keys: seq<string>): (r: Outcome<bool>)
    ensures r.Ok? ==> (r.value <==> forall i :: 0 <= i < |keys| ==> LowBit(HookResult(t, env, data, hook, keys[i])) == Ok(true))
    ensures r.Raised? ==> exists i :: 0 <= i < |keys| && LowBit(HookResult(t, env, data, hook, keys[i])).Raised?
  {
    if |keys| == 0 then Ok(true)
    else
      match LowBit(HookResult(t, env, data, hook, keys[0]))
      case Raised(e) => Raised(e)
      case Ok(b) =>
        match HookFold(t, env, data, hook, keys[1..])
        case Raised(e) => Raised(e)
        case Ok(rest) => Ok(b && rest)
  }

  /** `process_meta_table_callback` (`on_load`, `on_save`): every key with
      the hook has it processed, and the results are and-ed together. */
  function RunHooks(t: Table, env: Env, data: Data, hook: string): (r: Outcome<bool>)
    ensures r.Ok? ==> (r.value <==> forall k :: k in KeysWith(t, hook, Null, false) ==>
      LowBit(HookResult(t, env, data, hook, k)) == Ok(true))
  {
    HookFold(t, env, data, hook, KeysWith(t, hook, Null, false))
  }

  /** Without hooks the fold succeeds; a hook answering 2 fails it, since
      only the low bit of an integer answer counts. */
  lemma HookQuirks(t: Table, env: Env, data: Data, hook: string)
    ensures |KeysWith(t, hook, Null, false)| == 0 ==> RunHooks(t, env, data, hook) == Ok(true)
    ensures forall k :: k in KeysWith(t, hook, Null, false) && HookResult(t, env, data, hook, k) == Int(2) ==>
      RunHooks(t, env, data, hook) == Ok(false) || RunHooks(t, env, data, hook).Raised?
  {
  }

  /** A hook entry that is a list is a parameter array without a `value`
      entry: the hook answers null, which fails the fold without raising. */
  lemma ListHookFails(t: Table, env: Env, data: Data, hook: string, key: string)
    requires key in KeysWith(t, hook, Null, false) && GetInfo(t, key, hook, Null).List?
    ensures HookResult(t, env, data, hook, key) == Null
    ensures RunHooks(t, env, data, hook) != Ok(true)
    ensures KeysWith(t, hook, Null, false) == [key] ==> RunHooks(t, env, data, hook) == Ok(false)
  {
  }

  // ---------------------------------------------------------------------
  // Setting a whole record
  // ---------------------------------------------------------------------

  /** Where `set` reads a field's value: a checkbox missing from the input
      falls back to its `<key>_default` entry. */
  function DataKey(t: Table, key: string, m: Data): string {
    if LooseEq(GetInfo(t, key, "field_type", Null), Str("TYPE_CHECKBOX"))
      && !IsSetIn(m, key) && IsSetIn(m, key + "_default")
    then key + "_default" else key
  }

  /** `set` calls `set_value` for the key: every key for a non-array
      input, the keys whose entry is set for an array. */
  predicate Touched(t: Table, key: string, input: Input) {
    !IsArray(input) || IsSetIn(Entries(input), DataKey(t, key, Entries(input)))
  }

  /** The value `set` hands to `set_value` for a touched key. */
  function Incoming(t: Table, key: string, input: Input): Value
    requires Touched(t, key, input)
  {
    if !IsArray(input) then Null else Entries(input)[DataKey(t, key, Entries(input))]
  }

  function SetKeys(t: Table, env: Env, data: Data, keys: seq<string>, input: Input): (r: Data)
    ensures r.Keys == data.Keys + set k | k in keys && Touched(t, k, input)
    ensures forall k :: k in data && !(k in keys && Touched(t, k, input)) ==> r[k] == data[k]
    decreases |keys|
  {
    if |keys| == 0 then data
    else
      var k := keys[0];
      var next := if Touched(t, k, input) then SetValue(t, env, data, k, Incoming(t, k, input)) else data;
      SetKeys(t, env, next, keys[1..], input)
  }

  /** `Meta_Table::set`: each meta-table key in order gets `set_value` with
      its input value when that is set; a non-array input sets every key to
      null, i.e. to its default. A list is an array whose keys are its
      positions. Keys the input does not mention keep their value. */
  function SetData(t: Table, env: Env, data: Data, input: Input): (r: Data)
    ensures r.Keys == data.Keys + set k | k in t.keys && Touched(t, k, input)
    ensures forall k :: k in data && !(k in t.keys && Touched(t, k, input)) ==> r[k] == data[k]
    ensures !IsArray(input) ==> forall k :: k in t.keys ==> k in r
  {
    SetKeys(t, env, data, t.keys, input)
  }

  /** A list input is read as the array of its positions, so when no
      meta-table key names a position, `set` changes nothing. */
  lemma SetDataList(t: Table, env: Env, data: Data, items: seq<Value>)
    requires forall k :: k in t.keys ==> !AllDigits(k)
    ensures SetData(t, env, data, Scalar(List(items))) == data
  {
    var input := Scalar(List(items));
    forall k | k in t.keys ensures !Touched(t, k, input) {
      assert !AllDigits(k + "_default") by {
        assert (k + "_default")[|k|] == '_';
      }
    }
  }

  /** For a plain field whose prepared input is a real value, `set` stores
      exactly that value, whatever the other keys do. */
  lemma {:induction false} SetKeysStores(t: Table, env: Env, data: Data, keys: seq<string>, input: Input, key: string)
    requires Base.NoDuplicates(keys) && key in keys && Touched(t, key, input)
    requires Classify(env, GetInfo(t, key, "set_value", Null)).Literal?
    requires !CanDefault(PrepareValue(t, env, key, Incoming(t, key, input)))
    ensures SetKeys(t, env, data, keys, input)[key] == PrepareValue(t, env, key, Incoming(t, key, input))
    decreases |keys|
  {
    var k := keys[0];
    var next := if Touched(t, k, input) then SetValue(t, env, data, k, Incoming(t, k, input)) else data;
    if k == key {
      Base.NoDuplicatesTail(keys);
    } else {
      Base.NoDuplicatesTail(keys);
      SetKeysStores(t, env, next, keys[1..], input, key);
    }
  }

  lemma SetDataStores(t: Table, env: Env, data: Data, input: Input, key: string)
    requires t.Valid() && key in t.keys && Touched(t, key, input)
    requires Classify(env, GetInfo(t, key, "set_value", Null)).Literal?
    requires !CanDefault(PrepareValue(t, env, key, Incoming(t, key, input)))
    ensures SetData(t, env, data, input)[key] == PrepareValue(t, env, key, Incoming(t, key, input))
  {
    SetKeysStores(t, env, data, t.keys, input, key);
  }

  // ---------------------------------------------------------------------
  // Building the field tree
  // ---------------------------------------------------------------------

  /** The `$field_list` filter of `create_fields`: a falsy list selects every
      key; a scalar is a one-element list; membership is loose. */
  predicate Selected(fieldList: Value, key: string) {
    !Truthy(fieldList)
    || (if fieldList.List? then LooseIn(Str(key), fieldList.items) else LooseEq(fieldList, Str(key)))
  }

  predicate IsGroupType(t: Table, key: string) {
    LooseEq(GetInfo(t, key, "field_type", Null), Str("TYPE_GROUP"))
  }

  /** Only `field_obj` entries differ between the tables. */
  ghost predicate SameButFieldObjs(t: Table, r: Table) {
    forall k, ik :: ik != "field_obj" ==> Lookup(r, k, ik) == Lookup(t, k, ik)
  }

  /** A truthy `field_obj` stays truthy. */
  ghost predicate FieldObjsKept(t: Table, r: Table) {
    forall k :: Truthy(GetInfo(t, k, "field_obj", Null)) ==> Truthy(GetInfo(r, k, "field_obj", Null))
  }

  datatype FieldPhase = FieldPhase(table: Table, fields: seq<Value>, groups: seq<string>)

  /** The first loop of `create_fields`: each selected key with a field type
      becomes a field object (stored as its `field_obj`), except groups,
      which are set aside in order. Field objects are the keys' handles. */
  function BuildFields(t: Table, keys: seq<string>, fieldList: Value): (r: FieldPhase)
    ensures SameButFieldObjs(t, r.table) && FieldObjsKept(t, r.table)
    ensures forall k :: GetInfo(r.table, k, "field_obj", Null) in {GetInfo(t, k, "field_obj", Null), Obj(k)}
    ensures forall k :: k in keys && Selected(fieldList, k) && !IsGroupType(t, k) ==>
      GetInfo(r.table, k, "field_obj", Null) == Obj(k)
    ensures forall x :: x in r.fields <==> exists k :: k in keys && Selected(fieldList, k) && !IsGroupType(t, k) && x == Obj(k)
    ensures forall g :: g in r.groups <==> g in keys && Selected(fieldList, g) && IsGroupType(t, g)
    decreases |keys|
  {
    if |keys| == 0 then FieldPhase(t, [], [])
    else
      var k := keys[0];
      if !Selected(fieldList, k) then BuildFields(t, keys[1..], fieldList)
      else if IsGroupType(t, k) then
        var rest := BuildFields(t, keys[1..], fieldList);
        FieldPhase(rest.table, rest.fields, [k] + rest.groups)
      else
        var t1 := SetInfo(t, k, "field_obj", Obj(k));
        var rest := BuildFields(t1, keys[1..], fieldList);
        FieldObjStep(t, k);
        FieldPhase(rest.table, [Obj(k)] + rest.fields, rest.groups)
  }

  /** Storing one field object changes only that key's `field_obj`. */
  lemma FieldObjStep(t: Table, k: string)
    ensures var t1 := SetInfo(t, k, "field_obj", Obj(k));
      SameButFieldObjs(t, t1) && FieldObjsKept(t, t1)
      && GetInfo(t1, k, "field_obj", Null) == Obj(k)
      && (forall j :: GetInfo(t1, j, "field_obj", Null) in {GetInfo(t, j, "field_obj", Null), Obj(j)})
      && (forall j :: IsGroupType(t1, j) == IsGroupType(t, j))
  {
    var t1 := SetInfo(t, k, "field_obj", Obj(k));
    assert forall j :: IsGroupType(t1, j) == IsGroupType(t, j);
  }

  /** The array key a `children` entry looks up: integers and booleans are
      integer keys, null is "", arrays and objects find nothing. */
  function ChildKey(c: Value): Option<string> {
    match c
    case Str(s) => Some(s)
    case Int(i) => Some(IntToString(i))
    case Bool(b) => Some(if b then "1" else "0")
    case Null => Some("")
    case List(_) => None
    case Obj(_) => None
  }

  function ChildObj(t: Table, c: Value): Value {
    if ChildKey(c).Some? then GetInfo(t, ChildKey(c).value, "field_obj", Null) else Null
  }

  /** The field objects of the listed children that exist. */
  function ChildFields(t: Table, children: seq<Value>): (r: seq<Value>)
    ensures forall x :: x in r ==> Truthy(x)
    ensures |r| > 0 <==> exists c :: c in children && Truthy(ChildObj(t, c))
  {
    if |children| == 0 then []
    else
      var rest := ChildFields(t, children[1..]);
      assert forall c :: c in children[1..] ==> c in children;
      if Truthy(ChildObj(t, children[0])) then [ChildObj(t, children[0])] + rest else rest
  }

  function Children(t: Table, g: string): seq<Value> {
    var c := GetInfo(t, g, "children", Null);
    if Truthy(c) && c.List? then c.items else []
  }

  /** A group is built when at least one listed child has a field object. */
  predicate Buildable(t: Table, g: string) {
    exists c :: c in Children(t, g) && Truthy(ChildObj(t, c))
  }

  /** Later field objects never make a buildable group unbuildable. */
  lemma BuildableKept(t: Table, r: Table, g: string)
    requires SameButFieldObjs(t, r) && FieldObjsKept(t, r)
    requires Buildable(t, g)
    ensures Buildable(r, g)
  {
    assert Lookup(r, g, "children") == Lookup(t, g, "children");
    assert Children(r, g) == Children(t, g);
    var c :| c in Children(t, g) && Truthy(ChildObj(t, c));
    assert Truthy(ChildObj(r, c));
  }

  datatype GroupPhase = GroupPhase(table: Table, groups: seq<Value>, members: seq<Value>, children: map<string, seq<Value>>)

  /** The second loop of `create_fields`: groups in order, each built (and
      stored as its `field_obj`) only when some child has a field object at
      that point; the children gathered are remembered as group members,
      and each built group's children under its name (a group listed twice
      keeps its last children, as its `field_obj` is the last one built).
      `BuildGroupsSnoc` states the step exactly. */
  function BuildGroups(t: Table, groups: seq<string>): (r: GroupPhase)
    ensures SameButFieldObjs(t, r.table) && FieldObjsKept(t, r.table)
    ensures forall x :: x in r.groups ==> x.Obj? && x.handle in groups && x.handle in r.children
    ensures forall x :: x in r.members ==> Truthy(x)
    ensures forall g :: g in r.children ==> Obj(g) in r.groups && |r.children[g]| > 0
    ensures forall g :: g in groups && Buildable(t, g) ==> Obj(g) in r.groups
    ensures |groups| > 0 && !Buildable(t, groups[0]) && groups[0] !in groups[1..] ==> Obj(groups[0]) !in r.groups
    decreases |groups|
  {
    if |groups| == 0 then GroupPhase(t, [], [], map[])
    else
      var g := groups[0];
      var kids := ChildFields(t, Children(t, g));
      if |kids| > 0 then
        var t1 := SetInfo(t, g, "field_obj", Obj(g));
        SetFieldObjKeeps(t, g, Obj(g));
        var rest := BuildGroups(t1, groups[1..]);
        KeptTransitive(t, t1, rest.table);
        forall h | h in groups[1..] && Buildable(t, h) ensures Obj(h) in rest.groups {
          BuildableKept(t, t1, h);
        }
        GroupPhase(rest.table, [Obj(g)] + rest.groups, kids + rest.members, map[g := kids] + rest.children)
      else
        BuildGroups(t, groups[1..])
  }

  /** What one more group at the end of the loop does: it is built, with
      the children that have field objects after all earlier groups, exactly
      when it is buildable at its turn; otherwise nothing changes. */
  ghost predicate AppendsGroup(t: Table, groups: seq<string>, g: string) {
    var p := BuildGroups(t, groups);
    var r := BuildGroups(t, groups + [g]);
    var kids := ChildFields(p.table, Children(p.table, g));
    if Buildable(p.table, g) then
      r.table == SetInfo(p.table, g, "field_obj", Obj(g)) && r.groups == p.groups + [Obj(g)]
      && r.members == p.members + kids && r.children == p.children[g := kids]
    else
      r.table == p.table && r.groups == p.groups && r.members == p.members && r.children == p.children
  }

  /** The group loop run one group further is the exact step of
      `AppendsGroup`. */
  lemma {:induction false} BuildGroupsSnoc(t: Table, groups: seq<string>, g: string)
    ensures AppendsGroup(t, groups, g)
    decreases |groups|
  {
    if |groups| == 0 {
      AppendsToNone(t, g);
    } else if |ChildFields(t, Children(t, groups[0]))| > 0 {
      BuildGroupsSnoc(SetInfo(t, groups[0], "field_obj", Obj(groups[0])), groups[1..], g);
      AppendsAfterBuilt(t, groups, g);
    } else {
      BuildGroupsSnoc(t, groups[1..], g);
      AppendsAfterSkipped(t, groups, g);
    }
  }

  lemma AppendsToNone(t: Table, g: string)
    ensures AppendsGroup(t, [], g)
  {
    assert [] + [g] == [g];
    assert [Obj(g)] + [] == [] + [Obj(g)];
  }

  lemma AppendsAfterSkipped(t: Table, groups: seq<string>, g: string)
    requires |groups| > 0 && |ChildFields(t, Children(t, groups[0]))| == 0
    requires AppendsGroup(t, groups[1..], g)
    ensures AppendsGroup(t, groups, g)
  {
    assert (groups + [g])[0] == groups[0];
    assert (groups + [g])[1..] == groups[1..] + [g];
  }

  lemma AppendsAfterBuilt(t: Table, groups: seq<string>, g: string)
    requires |groups| > 0 && |ChildFields(t, Children(t, groups[0]))| > 0
    requires AppendsGroup(SetInfo(t, groups[0], "field_obj", Obj(groups[0])), groups[1..], g)
    ensures AppendsGroup(t, groups, g)
  {
    var h := groups[0];
    var kh := ChildFields(t, Children(t, h));
    var t1 := SetInfo(t, h, "field_obj", Obj(h));
    assert (groups + [g])[0] == h;
    assert (groups + [g])[1..] == groups[1..] + [g];
    var q := BuildGroups(t1, groups[1..]);
    var p := BuildGroups(t, groups);
    assert p.table == q.table && p.groups == [Obj(h)] + q.groups;
    assert p.members == kh + q.members && p.children == map[h := kh] + q.children;
    var r1 := BuildGroups(t1, groups[1..] + [g]);
    var r := BuildGroups(t, groups + [g]);
    assert r.table == r1.table && r.groups == [Obj(h)] + r1.groups;
    assert r.members == kh + r1.members && r.children == map[h := kh] + r1.children;
    var kids := ChildFields(q.table, Children(q.table, g));
    if Buildable(q.table, g) {
      Base.ConcatAssoc([Obj(h)], q.groups, [Obj(g)]);
      Base.ConcatAssoc(kh, q.members, kids);
      Base.UnionUpdate(map[h := kh], q.children, g, kids);
    }
  }

  /** Setting a truthy field object changes nothing else and keeps every
      existing field object truthy. */
  lemma SetFieldObjKeeps(t: Table, key: string, v: Value)
    requires Truthy(v)
    ensures SameButFieldObjs(t, SetInfo(t, key, "field_obj", v))
    ensures FieldObjsKept(t, SetInfo(t, key, "field_obj", v))
  {
    var r := SetInfo(t, key, "field_obj", v);
    forall k | Truthy(GetInfo(t, k, "field_obj", Null)) ensures Truthy(GetInfo(r, k, "field_obj", Null)) {
      if k != key {
        assert Lookup(r, k, "field_obj") == Lookup(t, k, "field_obj");
      }
    }
  }

  lemma KeptTransitive(a: Table, b: Table, c: Table)
    requires SameButFieldObjs(a, b) && FieldObjsKept(a, b)
    requires SameButFieldObjs(b, c) && FieldObjsKept(b, c)
    ensures SameButFieldObjs(a, c) && FieldObjsKept(a, c)
  {
  }

  /** The outcome of `create_fields`: the table with its `field_obj`
      entries, the members of the root group, and each built group's
      children. */
  datatype Built = Built(table: Table, root: seq<Value>, groupChildren: map<string, seq<Value>>)

  /** The constructed fields that are not members of any built group. */
  function Loose(fields: seq<Value>, members: seq<Value>): (r: seq<Value>)
    ensures forall x :: x in r <==> x in fields && !LooseIn(x, members)
  {
    if |fields| == 0 then []
    else
      var rest := Loose(fields[1..], members);
      if LooseIn(fields[0], members) then rest else [fields[0]] + rest
  }

  /** `create_fields`: non-group fields first, then groups; the root group
      holds every built group, then every built field that no built group
      took as a child. */
  function CreateFields(t: Table, fieldList: Value): (r: Built)
    ensures SameButFieldObjs(t, r.table)
    ensures forall g :: g in r.groupChildren ==> Obj(g) in r.root && |r.groupChildren[g]| > 0
    ensures forall x :: x in r.root <==>
      x in BuildGroups(BuildFields(t, KeysWith(t, "field_type", Null, false), fieldList).table,
                       BuildFields(t, KeysWith(t, "field_type", Null, false), fieldList).groups).groups
      || (x in BuildFields(t, KeysWith(t, "field_type", Null, false), fieldList).fields
          && !LooseIn(x, BuildGroups(BuildFields(t, KeysWith(t, "field_type", Null, false), fieldList).table,
                                     BuildFields(t, KeysWith(t, "field_type", Null, false), fieldList).groups).members))
  {
    var fp := BuildFields(t, KeysWith(t, "field_type", Null, false), fieldList);
    var gp := BuildGroups(fp.table, fp.groups);
    Built(gp.table, gp.groups + Loose(fp.fields, gp.members), gp.children)
  }

  /** Because fields are built before groups, a selected group that lists a
      selected non-group field as a child is always built and sits in the
      root. */
  lemma FieldsBeforeGroups(t: Table, fieldList: Value, g: string, c: string)
    requires g in t.keys && IsSet(t, g, "field_type") && IsGroupType(t, g) && Selected(fieldList, g)
    requires c in t.keys && IsSet(t, c, "field_type") && !IsGroupType(t, c) && Selected(fieldList, c)
    requires Str(c) in Children(t, g)
    ensures Obj(g) in CreateFields(t, fieldList).root
  {
    var keys := KeysWith(t, "field_type", Null, false);
    assert HasInfo(t, g, "field_type", Null) && HasInfo(t, c, "field_type", Null);
    var fp := BuildFields(t, keys, fieldList);
    assert GetInfo(fp.table, c, "field_obj", Null) == Obj(c);
    assert Lookup(fp.table, g, "children") == Lookup(t, g, "children");
    assert Children(fp.table, g) == Children(t, g);
    assert ChildObj(fp.table, Str(c)) == Obj(c);
    assert Buildable(fp.table, g);
    assert g in fp.groups;
  }
}

=== FILE: numeric_string.dfy ===
/** PHP 8 numeric strings: the texts `is_numeric` accepts and that loose
    comparison and arithmetic read as numbers. A numeric string is optional
    leading white space, an optional sign, decimal digits with an optional
    fractional part (at least one digit in all), an optional exponent, and
    optional trailing white space. Its value is kept as an exact decimal
    (`real`); PHP's conversion to a 64-bit integer or an IEEE double is not
    modelled. */
module NumericString {
  import opened Strings

  /** White space allowed around a numeric string: space, tab, line feed,
      carriage return, vertical tab and form feed. */
  predicate IsNumericSpace(c: char) {
    c == ' ' || c == '\t' || c == '\n' || c == '\r' || c as int == 11 || c as int == 12
  }

  function TrimLeadingSpace(s: string): (r: string)
    ensures |r| <= |s|
  {
    if |s| > 0 && IsNumericSpace(s[0]) then TrimLeadingSpace(s[1..]) else s
  }

  function TrimTrailingSpace(s: string): (r: string)
    ensures |r| <= |s|
  {
    if |s| > 0 && IsNumericSpace(s[|s| - 1]) then TrimTrailingSpace(s[..|s| - 1]) else s
  }

  lemma {:induction false} TrimTrailingPrefix(s: string)
    ensures TrimTrailingSpace(s) == s[..|TrimTrailingSpace(s)|]
  {
    if |s| > 0 && IsNumericSpace(s[|s| - 1]) {
      TrimTrailingPrefix(s[..|s| - 1]);
    }
  }

  /** The number of decimal digits at the start of `s`. */
  function DigitRun(s: string): (n: nat)
    ensures n <= |s|
    ensures forall i :: 0 <= i < n ==> IsDigit(s[i])
    ensures n < |s| ==> !IsDigit(s[n])
  {
    if |s| > 0 && IsDigit(s[0]) then 1 + DigitRun(s[1..]) else 0
  }

  /** The reading of a string: not numeric, or a decimal numeral with its
      sign, integer digits, fraction digits and power-of-ten exponent. */
  datatype Parse =
    | NotNumeric
    | Numeral(negative: bool, whole: string, fraction: string, exponent: int)

  predicate IsDigits(s: string) {
    forall i :: 0 <= i < |s| ==> IsDigit(s[i])
  }

  /** The exponent part: empty, or `e`/`E`, an optional sign and digits. */
  function ParseExponent(e: string): (r: Parse)
    ensures r.Numeral? ==> r.whole == "" && r.fraction == ""
  {
    if |e| == 0 then Numeral(false, "", "", 0)
    else if e[0] != 'e' && e[0] != 'E' then NotNumeric
    else
      var d := if |e| > 1 && (e[1] == '-' || e[1] == '+') then e[2..] else e[1..];
      if !AllDigits(d) then NotNumeric
      else if e[1] == '-' then Numeral(false, "", "", -(DigitsValue(d) as int))
      else Numeral(false, "", "", DigitsValue(d))
  }

  /** What follows the integer digits: an optional `.` with fraction
      digits, then the exponent part. */
  function ParseAfterWhole(whole: string, rest: string): (r: Parse)
    requires IsDigits(whole)
    ensures r.Numeral? ==> r.whole == whole && IsDigits(r.fraction) && !r.negative
    ensures r.Numeral? ==> |r.whole| + |r.fraction| > 0
  {
    if |rest| > 0 && rest[0] == '.' then
      var v := rest[1..];
      var f := DigitRun(v);
      ParseTail(whole, v[..f], v[f..])
    else ParseTail(whole, "", rest)
  }

  /** A numeral with at least one digit and a well-formed exponent part. */
  function ParseTail(whole: string, fraction: string, e: string): (r: Parse)
    requires IsDigits(whole) && IsDigits(fraction)
    ensures r.Numeral? ==> r.whole == whole && r.fraction == fraction && !r.negative
    ensures r.Numeral? ==> |r.whole| + |r.fraction| > 0
  {
    var exponent := ParseExponent(e);
    if |whole| + |fraction| == 0 || exponent.NotNumeric? then NotNumeric
    else Numeral(false, whole, fraction, exponent.exponent)
  }

  /** An unsigned numeral: integer digits first. */
  function ParseUnsigned(u: string): (r: Parse)
    ensures r.Numeral? ==> IsDigits(r.whole) && IsDigits(r.fraction) && !r.negative
    ensures r.Numeral? ==> |r.whole| + |r.fraction| > 0
  {
    var w := DigitRun(u);
    ParseAfterWhole(u[..w], u[w..])
  }

  function Negate(n: Parse): (r: Parse)
    ensures r.Numeral? <==> n.Numeral?
    ensures r.Numeral? ==> r.whole == n.whole && r.fraction == n.fraction && r.exponent == n.exponent
  {
    if n.Numeral? then n.(negative := !n.negative) else n
  }

  /** PHP 8's numeric-string grammar (`_is_numeric_string_ex`): white space,
      an optional sign, an unsigned numeral, white space. */
  function ParseNumeral(s: string): (r: Parse)
    ensures r.Numeral? ==> IsDigits(r.whole) && IsDigits(r.fraction)
    ensures r.Numeral? ==> |r.whole| + |r.fraction| > 0
  {
    var t := TrimTrailingSpace(TrimLeadingSpace(s));
    if |t| > 0 && t[0] == '-' then Negate(ParseUnsigned(t[1..]))
    else if |t| > 0 && t[0] == '+' then ParseUnsigned(t[1..])
    else ParseUnsigned(t)
  }

  /** A string of digits reads as itself. */
  lemma DigitsParse(u: string)
    requires AllDigits(u)
    ensures ParseUnsigned(u) == Numeral(false, u, "", 0)
  {
    DigitRunAll(u);
    assert u[..|u|] == u && u[|u|..] == "";
  }

  function Pow10(n: nat): (r: nat)
    ensures r >= 1
  {
    if n == 0 then 1 else 10 * Pow10(n - 1)
  }

  /** The exact value of a numeral. */
  function NumeralValue(n: Parse): real
    requires n.Numeral? && IsDigits(n.whole + n.fraction)
  {
    var m := DigitsValue(n.whole + n.fraction) as real;
    var e := n.exponent - |n.fraction|;
    var magnitude := if e >= 0 then m * Pow10(e) as real else m / Pow10(-e) as real;
    if n.negative then -magnitude else magnitude
  }

  /** `is_numeric` on a string. */
  predicate IsNumericString(s: string) {
    ParseNumeral(s).Numeral?
  }

  function NumericStringValue(s: string): real
    requires IsNumericString(s)
  {
    var n := ParseNumeral(s);
    assert IsDigits(n.whole + n.fraction);
    NumeralValue(n)
  }

  /** Every integer string is numeric, and its numeric value is its integer
      value: the integer forms are a sub-grammar. */
  lemma IntegerStringNumeric(s: string)
    requires IsIntegerString(s)
    ensures IsNumericString(s)
    ensures NumericStringValue(s) == IntegerStringValue(s) as real
  {
    assert !IsNumericSpace(s[0]) && !IsNumericSpace(s[|s| - 1]);
    assert TrimLeadingSpace(s) == s;
    assert TrimTrailingSpace(s) == s;
    var u := if AllDigits(s) then s else s[1..];
    DigitsParse(u);
    assert u + "" == u;
  }

  lemma {:induction false} DigitRunAll(u: string)
    requires IsDigits(u)
    ensures DigitRun(u) == |u|
  {
    if |u| > 0 {
      DigitRunAll(u[1..]);
    }
  }

  /** Digits followed by a non-digit: the run stops at the non-digit. */
  lemma {:induction false} DigitRunStops(t: string, rest: string)
    requires IsDigits(t)
    requires |rest| == 0 || !IsDigit(rest[0])
    ensures DigitRun(t + rest) == |t|
  {
    if |t| > 0 {
      assert (t + rest)[1..] == t[1..] + rest;
      DigitRunStops(t[1..], rest);
    }
  }

  /** Digits, a point and one fraction digit: the number `t.d`. */
  lemma FractionDigit(t: string, d: char)
    requires AllDigits(t) && IsDigit(d)
    ensures IsNumericString(t + "." + [d])
    ensures NumericStringValue(t + "." + [d]) == DigitsValue(t) as real + DigitValue(d) as real / 10.0
  {
    FractionDigitParse(t, d);
    var n := Numeral(false, t, [d], 0);
    FractionDigitValue(t, d);
    assert NumericStringValue(t + "." + [d]) == NumeralValue(n);
  }

  lemma FractionDigitValue(t: string, d: char)
    requires AllDigits(t) && IsDigit(d)
    ensures IsDigits(t + [d])
    ensures NumeralValue(Numeral(false, t, [d], 0)) == DigitsValue(t) as real + DigitValue(d) as real / 10.0
  {
    assert (t + [d])[..|t|] == t;
    var a := DigitsValue(t);
    var b := DigitValue(d);
    assert DigitsValue(t + [d]) == 10 * a + b;
    assert Pow10(1) == 10;
    assert NumeralValue(Numeral(false, t, [d], 0)) == (10 * a + b) as real / 10.0;
    assert (10 * a + b) as real / 10.0 == a as real + b as real / 10.0;
  }

  lemma FractionDigitParse(t: string, d: char)
    requires AllDigits(t) && IsDigit(d)
    ensures ParseNumeral(t + "." + [d]) == Numeral(false, t, [d], 0)
  {
    var s := t + "." + [d];
    assert s[0] == t[0] && s[|s| - 1] == d;
    assert TrimLeadingSpace(s) == s;
    assert TrimTrailingSpace(s) == s;
    FractionAfterWhole(t, d);
    assert s == t + ("." + [d]);
    DigitRunStops(t, "." + [d]);
    assert s[..|t|] == t && s[|t|..] == "." + [d];
  }

  lemma FractionAfterWhole(t: string, d: char)
    requires IsDigits(t) && IsDigit(d)
    ensures ParseAfterWhole(t, "." + [d]) == Numeral(false, t, [d], 0)
  {
    assert ("." + [d])[1..] == [d];
    assert DigitRun([d]) == 1;
    assert [d][..1] == [d] && [d][1..] == "";
  }

  /** The empty string, and a string starting with a letter, are not
      numeric. */
  lemma NotNumericForms(s: string)
    requires |s| == 0 || IsAsciiLetter(s[0])
    ensures !IsNumericString(s)
  {
    if |s| > 0 {
      assert TrimLeadingSpace(s) == s;
      var t := TrimTrailingSpace(s);
      TrimTrailingPrefix(s);
      if |t| > 0 {
        assert t[0] == s[0];
        assert DigitRun(t) == 0;
      }
    }
  }

  /** `(int)` of the leading numeric part of a string, as PHP's arithmetic
      and bitwise operators read a string: the longest prefix that is a
      numeric string, truncated toward zero. */
  function NumericPrefix(s: string, k: nat): (r: nat)
    requires k <= |s|
    ensures r <= k
    ensures r > 0 ==> IsNumericString(s[..r])
    ensures forall j {:trigger IsNumericString(s[..j])} :: r < j <= k ==> !IsNumericString(s[..j])
  {
    if k == 0 || IsNumericString(s[..k]) then k
    else
      var r := NumericPrefix(s, k - 1);
      assert forall j {:trigger IsNumericString(s[..j])} :: r < j <= k ==> !IsNumericString(s[..j]) by {
        forall j | r < j <= k ensures !IsNumericString(s[..j]) {
          if j == k {
            assert !IsNumericString(s[..k]);
          }
        }
      }
      r
  }

  /** Truncation toward zero, as PHP's float-to-int conversion does. */
  function TruncateReal(x: real): int {
    if x >= 0.0 then x.Floor else -((-x).Floor)
  }
}

=== FILE: paging.dfy ===
/** `Paging`: splitting `total` records into pages of `increment` records.
    The arithmetic is modelled on explicit arguments; the object fields the
    PHP methods fall back to are the caller's business. */
module Paging {
  import opened Strings
  import opened Php

  /** `floor(a / b)` for a non-zero divisor (Dafny's `/` is Euclidean). */
  function FloorDiv(a: int, b: int): int
    requires b != 0
  {
    if b > 0 then a / b else (-a) / (-b)
  }

  /** `ceil(a / b)` for a non-zero divisor. */
  function CeilDiv(a: int, b: int): int
    requires b != 0
  {
    -FloorDiv(-a, b)
  }

  /** For a positive divisor, `CeilDiv` is the least `q` with `q * b >= a`. */
  lemma CeilDivBounds(a: int, b: int)
    requires b > 0
    ensures CeilDiv(a, b) * b >= a
    ensures (CeilDiv(a, b) - 1) * b < a
  {
    var q := (-a) / b;
    var r := (-a) % b;
    assert -a == q * b + r && 0 <= r < b;
    assert CeilDiv(a, b) == -q;
    assert -q * b == a + r;
  }

  /** The `q` bracketing `a` between `(q - 1) * b` and `q * b` is unique. */
  lemma CeilDivUnique(a: int, b: int, q: int)
    requires b > 0
    requires q * b >= a && (q - 1) * b < a
    ensures CeilDiv(a, b) == q
  {
    CeilDivBounds(a, b);
  }

  /** `calc_total_pages`: `ceil(total / increment)`; PHP raises
      `DivisionByZeroError` for a zero increment. */
  function TotalPages(total: int, increment: int): (r: Outcome<int>)
    ensures increment == 0 <==> r.Raised?
    ensures increment > 0 ==> r.value * increment >= total && (r.value - 1) * increment < total
  {
    if increment == 0 then Raised("Division by zero")
    else
      assert increment > 0 ==> CeilDiv(total, increment) * increment >= total && (CeilDiv(total, increment) - 1) * increment < total by {
        if increment > 0 { CeilDivBounds(total, increment); }
      }
      Ok(CeilDiv(total, increment))
  }

  /** `calc_start`: the first record (0-based) of `page`, with the page
      clamped to the last page; 0 unless page, increment and total are all
      positive. */
  function Start(page: int, increment: int, total: int): (r: int)
    ensures !(page > 0 && increment > 0 && total > 0) ==> r == 0
    ensures page > 0 && increment > 0 && total > 0 ==> 0 <= r < total
    ensures page > 0 && increment > 0 && total > 0 && page <= CeilDiv(total, increment) ==>
      r == (page - 1) * increment
    ensures page > 0 && increment > 0 && total > 0 && page > CeilDiv(total, increment) ==>
      r == (CeilDiv(total, increment) - 1) * increment
  {
    if page > 0 && increment > 0 && total > 0 then
      var lastPage := CeilDiv(total, increment);
      CeilDivBounds(total, increment);
      var p := if page > lastPage then lastPage else page;
      assert lastPage >= 1;
      assert (p - 1) * increment <= (lastPage - 1) * increment;
      (p - 1) * increment
    else 0
  }

  /** `calc_end`: one past the last record shown, capped at `total`. */
  function End(start: int, increment: int, total: int): (r: int)
    ensures r <= total && r <= start + increment
    ensures r == total || r == start + increment
  {
    if start + increment > total then total else start + increment
  }

  /** For valid arguments a page's records lie within the record set:
      `start <= end <= total`, and the page is non-empty. */
  lemma PageWithinTotal(page: int, increment: int, total: int)
    requires page > 0 && increment > 0 && total > 0
    ensures 0 <= Start(page, increment, total) < End(Start(page, increment, total), increment, total) <= total
  {
  }

  /** `calc_page`: the page holding record `start`; 1 unless start and
      increment are positive. */
  function PageOf(start: int, increment: int): (r: int)
    ensures r >= 1 || (start > 0 && increment > 0)
  {
    if start > 0 && increment > 0 then CeilDiv(start + 1, increment) else 1
  }

  /** The page `PageOf` returns is the one that contains record `start`. */
  lemma PageOfContains(start: int, increment: int)
    requires start >= 0 && increment > 0
    ensures (PageOf(start, increment) - 1) * increment <= start < PageOf(start, increment) * increment
  {
    if start > 0 {
      CeilDivBounds(start + 1, increment);
    }
  }

  lemma MulMonotone(x: int, y: int, b: int)
    requires x >= y && b >= 0
    ensures x * b >= y * b
  {
  }

  /** Mapping a page to its first record and back is the identity for every
      page that exists; re-paging after an increment change relies on it. */
  lemma PageOfStart(page: int, increment: int, total: int)
    requires increment > 0 && total > 0
    requires 1 <= page <= CeilDiv(total, increment)
    ensures PageOf(Start(page, increment, total), increment) == page
  {
    var s := Start(page, increment, total);
    assert s == (page - 1) * increment;
    if page > 1 {
      assert page * increment == s + increment;
      assert s >= increment by {
        MulMonotone(page - 1, 1, increment);
      }
      CeilDivUnique(s + 1, increment, page);
    }
  }

  /** When the increment changes, the constructor shows the page that holds
      the first record of the old page. */
  function Repage(page: int, prevIncrement: int, increment: int, total: int): (r: int)
    requires increment > 0
    ensures page > 0 && prevIncrement > 0 && total > 0 ==>
      (r - 1) * increment <= Start(page, prevIncrement, total) < r * increment
  {
    var s := Start(page, prevIncrement, total);
    PageOfContains(s, increment);
    PageOf(s, increment)
  }

  /** `limit_sql`: the MySQL LIMIT clause for the current page. */
  function LimitSql(start: int, increment: int): (r: string)
    ensures StartsWith(r, "LIMIT ")
  {
    "LIMIT " + IntToString(start) + ", " + IntToString(increment)
  }

  /** The clause reads back as the two numbers it was built from. */
  lemma LimitSqlReadsBack(start: int, increment: int)
    ensures var r := LimitSql(start, increment);
      var a := IntToString(start);
      r[6..6 + |a|] == a && IsIntegerString(a) && IntegerStringValue(a) == start
      && r[6 + |a|..8 + |a|] == ", "
      && IsIntegerString(r[8 + |a|..]) && IntegerStringValue(r[8 + |a|..]) == increment
  {
    var r := LimitSql(start, increment);
    var a := IntToString(start);
    assert r[6..6 + |a|] == a;
    assert r[8 + |a|..] == IntToString(increment);
    IntToStringRoundTrip(start);
    IntToStringRoundTrip(increment);
  }
}

=== FILE: php.dfy ===
/** The PHP values the toolkit passes around, with the three notions of
    equality and truth its code relies on: strict identity (`===`, which is
    Dafny's `==` here), loose equality (`==`, PHP 8 rules) and truthiness
    (`if ($x)`, `empty`). */
module Php {
  import opened Strings
  import opened NumericString

  /** A PHP value. `List` is an indexed array; `Obj` is an object, identified
      by a handle. */
  datatype Value =
    | Null
    | Bool(b: bool)
    | Int(i: int)
    | Str(s: string)
    | List(items: seq<Value>)
    | Obj(handle: string)

  /** An associative array keyed by strings (entity data, request values). */
  type Data = map<string, Value>

  /** The outcome of a computation that PHP may abort with an exception. */
  datatype Outcome<T> = Ok(value: T) | Raised(reason: string)

  /** An optional argument or array entry. */
  datatype Option<T> = None | Some(value: T)

  /** An argument tested with `is_array`: an associative array of values,
      or anything else. */
  datatype Input = Assoc(m: Data) | Scalar(v: Value)

  /** A list read as an array keyed by strings: item `i` sits under the
      key "i", which is how PHP finds `$list["0"]`. */
  function ListAsData(items: seq<Value>): (m: Data)
    ensures forall i :: 0 <= i < |items| ==> NatToString(i) in m && m[NatToString(i)] == items[i]
    ensures forall k :: k in m ==> AllDigits(k)
  {
    forall i: nat, j: nat | i < |items| && j < |items| && NatToString(i) == NatToString(j)
      ensures i == j
    {
      NatToStringRoundTrip(i);
      NatToStringRoundTrip(j);
    }
    map i | 0 <= i < |items| :: NatToString(i) := items[i]
  }

  /** `is_array($input)`: an associative array, or a list. */
  predicate IsArray(input: Input) {
    input.Assoc? || input.v.List?
  }

  /** The entries of an array argument, keyed by string. */
  function Entries(input: Input): (m: Data)
    requires IsArray(input)
    ensures input.Assoc? ==> m == input.m
    ensures input.Scalar? ==> m == ListAsData(input.v.items)
  {
    if input.Assoc? then input.m else ListAsData(input.v.items)
  }

  /** The keys of a list of key/value entries, in order. */
  function KeysOf(pairs: seq<(string, Value)>): (ks: seq<string>)
    ensures |ks| == |pairs| && forall i :: 0 <= i < |pairs| ==> ks[i] == pairs[i].0
  {
    seq(|pairs|, i requires 0 <= i < |pairs| => pairs[i].0)
  }

  /** Truthiness: the value of `(bool)$v`; `empty($v)` is its negation. */
  predicate Truthy(v: Value) {
    match v
    case Null => false
    case Bool(b) => b
    case Int(i) => i != 0
    case Str(s) => s != "" && s != "0"
    case List(items) => |items| > 0
    case Obj(_) => true
  }

  /** `isset($a[$k])`: the key is present and its value is not null. */
  predicate IsSetIn(a: Data, k: string) {
    k in a && a[k] != Null
  }

  /** `(string)$v`. Arrays print as "Array"; objects are printed as "Object",
      standing in for the conversion error PHP raises. */
  function ToStr(v: Value): string {
    match v
    case Null => ""
    case Bool(b) => if b then "1" else ""
    case Int(i) => IntToString(i)
    case Str(s) => s
    case List(_) => "Array"
    case Obj(_) => "Object"
  }

  /** `is_numeric`: an integer, or a numeric string. */
  predicate IsNumeric(v: Value) {
    v.Int? || (v.Str? && IsNumericString(v.s))
  }

  /** The number a numeric value stands for. */
  function NumericValue(v: Value): real
    requires IsNumeric(v)
  {
    if v.Int? then v.i as real else NumericStringValue(v.s)
  }

  /** The integer PHP's arithmetic and bitwise operators read from a string:
      its longest numeric prefix, truncated toward zero; `None` when no
      prefix is numeric (PHP 8 then raises a `TypeError`). */
  function LeadingInt(s: string): (r: Option<int>)
    ensures r.None? <==> forall j {:trigger IsNumericString(s[..j])} :: 0 <= j <= |s| ==> !IsNumericString(s[..j])
    ensures IsNumericString(s) ==> r == Some(TruncateReal(NumericStringValue(s)))
  {
    var k := NumericPrefix(s, |s|);
    assert s[..|s|] == s;
    assert !IsNumericString(s[..0]) by {
      NotNumericForms(s[..0]);
    }
    if k == 0 then None else Some(TruncateReal(NumericStringValue(s[..k])))
  }

  /** PHP 8 loose equality `$a == $b`. A comparison involving a boolean or
      null (other than null against a string) compares truthiness; two
      numeric strings, or a number and a numeric string, compare as numbers;
      any other pair of strings compares byte-wise; arrays compare
      element-wise. */
  predicate LooseEq(a: Value, b: Value)
    decreases a, b
  {
    match (a, b)
    case (Bool(x), _) => x == Truthy(b)
    case (_, Bool(y)) => Truthy(a) == y
    case (Null, Str(t)) => t == ""
    case (Str(s), Null) => s == ""
    case (Null, _) => !Truthy(b)
    case (_, Null) => !Truthy(a)
    case (Int(x), Int(y)) => x == y
    case (Int(x), Str(t)) => IsNumericString(t) && NumericStringValue(t) == x as real
    case (Str(s), Int(y)) => IsNumericString(s) && NumericStringValue(s) == y as real
    case (Str(s), Str(t)) =>
      if IsNumericString(s) && IsNumericString(t)
      then NumericStringValue(s) == NumericStringValue(t)
      else s == t
    case (List(xs), List(ys)) =>
      |xs| == |ys| && forall k :: 0 <= k < |xs| ==> LooseEq(xs[k], ys[k])
    case (Obj(x), Obj(y)) => x == y
    case _ => false
  }

  /** `$v == null`: the values that loosely equal null are exactly the falsy
      ones, except that the string "0" does not. */
  lemma LooseNull(v: Value)
    ensures LooseEq(v, Null) <==> (!Truthy(v) && v != Str("0"))
    ensures LooseEq(Null, v) <==> LooseEq(v, Null)
  {
  }

  /** Loose equality is reflexive. */
  lemma {:induction false} LooseEqReflexive(v: Value)
    ensures LooseEq(v, v)
    decreases v
  {
    match v
    case List(xs) =>
      forall k | 0 <= k < |xs| ensures LooseEq(xs[k], xs[k]) {
        LooseEqReflexive(xs[k]);
      }
    case _ =>
  }

  /** Loose equality is symmetric. */
  lemma {:induction false} LooseEqSymmetric(a: Value, b: Value)
    ensures LooseEq(a, b) <==> LooseEq(b, a)
    decreases a, b
  {
    match (a, b)
    case (List(xs), List(ys)) =>
      if |xs| == |ys| {
        forall k | 0 <= k < |xs| ensures LooseEq(xs[k], ys[k]) <==> LooseEq(ys[k], xs[k]) {
          LooseEqSymmetric(xs[k], ys[k]);
        }
      }
    case _ =>
  }

  /** Strict identity implies loose equality. */
  lemma StrictImpliesLoose(a: Value, b: Value)
    requires a == b
    ensures LooseEq(a, b)
  {
    LooseEqReflexive(a);
  }

  /** Loose equality is not transitive: "1" == true and true == "2", but
      "1" != "2". */
  lemma LooseEqNotTransitive()
    ensures LooseEq(Str("1"), Bool(true)) && LooseEq(Bool(true), Str("2"))
    ensures !LooseEq(Str("1"), Str("2"))
  {
    assert AllDigits("1") && AllDigits("2");
    assert IntegerStringValue("1") == 1 by { assert DigitsValue("1") == 1; }
    assert IntegerStringValue("2") == 2 by { assert DigitsValue("2") == 2; }
    IntegerStringNumeric("1");
    IntegerStringNumeric("2");
  }

  /** Loose comparison reads every numeric form as a number: an exponent
      and surrounding white space count, while a trailing letter makes the
      string non-numeric. */
  lemma LooseNumericForms()
    ensures LooseEq(Int(100), Str("1e2"))
    ensures LooseEq(Str(" 7"), Int(7))
    ensures !LooseEq(Int(7), Str("7x"))
  {
    ExponentForm();
    SpaceForm();
    TrailingLetterForm();
  }

  lemma ExponentForm()
    ensures IsNumericString("1e2") && NumericStringValue("1e2") == 100.0
  {
    var s := "1e2";
    assert TrimLeadingSpace(s) == s;
    assert TrimTrailingSpace(s) == s;
    assert DigitRun(s) == 1 by { assert DigitRun(s[1..]) == 0; }
    assert s[..1] == "1" && s[1..] == "e2";
    assert ParseExponent("e2") == Numeral(false, "", "", 2) by {
      assert "e2"[1..] == "2";
      assert DigitsValue("2") == 2;
    }
    assert ParseNumeral(s) == Numeral(false, "1", "", 2);
    assert DigitsValue("1" + "") == 1 by { assert "1" + "" == "1"; }
  }

  /** An integer loosely equals its decimal text with one fraction digit
      exactly when that digit is zero: `1 == "1.0"` but `1 != "1.5"`. */
  lemma FractionForms(n: nat, d: char)
    requires IsDigit(d)
    ensures LooseEq(Int(n), Str(NatToString(n) + "." + [d])) <==> d == '0'
  {
    FractionDigit(NatToString(n), d);
    NatToStringRoundTrip(n);
  }

  lemma SpaceForm()
    ensures IsNumericString(" 7") && NumericStringValue(" 7") == 7.0
  {
    var s := " 7";
    assert TrimLeadingSpace(s) == "7" by { assert s[1..] == "7"; }
    assert TrimTrailingSpace("7") == "7";
    DigitsParse("7");
    assert ParseNumeral(s) == Numeral(false, "7", "", 0);
    assert DigitsValue("7" + "") == 7 by { assert "7" + "" == "7"; }
  }

  lemma TrailingLetterForm()
    ensures !IsNumericString("7x")
  {
  }

  /** `in_array($needle, $list, true)` / `array_search(..., true) !== false`. */
  predicate StrictIn(needle: Value, list: seq<Value>) {
    exists k :: 0 <= k < |list| && list[k] == needle
  }

  /** `in_array($needle, $list)` / `array_search(...) !== false`. */
  predicate LooseIn(needle: Value, list: seq<Value>) {
    exists k :: 0 <= k < |list| && LooseEq(list[k], needle)
  }
}

=== FILE: record_table.dfy ===
/** `RecordTable`: a meta table bound to one database table. The record
    builds its INSERT, UPDATE, SELECT and DELETE text from the meta table and
    its current values, decides whether it is new, and (with `retainDirty`)
    keeps a snapshot of the data as last loaded or saved.

    The database is abstract: `qstr` and the column wrappers come from a
    `Db`, and what `execute`, `GetRowAssoc` and `Insert_ID` return is passed
    in as a parameter. The Couchbase subclass is the `couchbase` flag of the
    configuration; its overrides live in module `Couchbase`. */
module RecordTable {
  import opened Strings
  import opened Php
  import opened NumericString
  import Base
  import opened MetaTable
  import opened Database
  import opened Sql
  import Couchbase

  /** The record: settings, meta table, current data, the `old_data`
      snapshot and the error list inherited from `Base`. */
  datatype Record = Record(config: Config, meta: Table, data: Data, oldData: Data, errors: seq<string>)

  function WithError(r: Record, message: string): (r2: Record)
    ensures r2.errors == Base.AddError(r.errors, Base.One(message))
    ensures message in r2.errors
    ensures r2 == r.(errors := r2.errors)
  {
    r.(errors := Base.AddError(r.errors, Base.One(message)))
  }

  /** `get_id`: the key field's value. */
  function GetId(r: Record, env: Env): Value {
    GetValue(r.meta, env, r.data, r.config.keyField, Null)
  }

  /** A falsy id argument stands for the record's own id (`is_new`, `load`,
      `delete`, `update_fields`). */
  function ResolveId(r: Record, env: Env, id: Value): (i: Value)
    ensures Truthy(id) ==> i == id
    ensures !Truthy(id) ==> i == GetId(r, env)
  {
    if Truthy(id) then id else GetId(r, env)
  }

  // ---------------------------------------------------------------------
  // WHERE clause and newness
  // ---------------------------------------------------------------------

  /** The left side of the WHERE clause: the key field, or the document id
      for a Couchbase table with generated keys. */
  function KeyColumn(c: Config): string {
    if c.couchbase then Couchbase.KeyExpression(c) else c.keyField
  }

  /** `where_clause`: a null id stands for the record's own id (only null:
      `""` and `0` are used as given); the id is quoted when numbers are
      quoted or it is a string. */
  function WhereClause(r: Record, env: Env, db: Db, id: Value): (w: string)
    ensures var idv := if id == Null then GetId(r, env) else id;
      StartsWith(w, KeyColumn(r.config) + " = ")
      && w[|KeyColumn(r.config) + " = "|..] == EncodeId(r.config, db, idv)
  {
    var idv := if id == Null then GetId(r, env) else id;
    if r.config.couchbase then Couchbase.CouchbaseWhere(r.config, db, idv)
    else RelationalWhere(r.config, db, idv)
  }

  /** Without number quoting, an integer id is written as its decimal text
      and reads back as the id; a string id always goes through `qstr`. */
  lemma WhereReadsBack(r: Record, env: Env, db: Db, id: Value)
    requires id != Null
    ensures var w := WhereClause(r, env, db, id)[|KeyColumn(r.config) + " = "|..];
      (id.Int? && !r.config.quoteNumbers ==> IsIntegerString(w) && IntegerStringValue(w) == id.i)
      && (id.Str? ==> w == db.qstr(id.s))
  {
    if id.Int? {
      IntToStringRoundTrip(id.i);
    }
  }

  /** The query `is_new` runs for a key that is not generated. */
  function ProbeSql(r: Record, env: Env, db: Db, id: Value): string {
    "SELECT " + r.config.keyField + " FROM " + r.config.tableName + " WHERE "
      + WhereClause(r, env, db, ResolveId(r, env, id))
  }

  /** `is_new`. A generated key is new unless it is a number of at least 1
      (relational) or a version-4 UUID string (Couchbase); otherwise the
      record is new when `probe`, the result of `ProbeSql`, failed or found
      no row. */
  function IsNew(r: Record, env: Env, db: Db, id: Value, probe: QueryResult): (b: bool)
    ensures var i := ResolveId(r, env, id);
      (r.config.autoKey && !r.config.couchbase ==> (b <==> !(IsNumeric(i) && NumericValue(i) >= 1.0)))
      && (r.config.autoKey && r.config.couchbase ==> (b <==> Couchbase.IsNewAuto(i)))
      && (!r.config.autoKey ==> (b <==> !ResultTruthy(probe) || probe == QRecordSet(true)))
  {
    var i := ResolveId(r, env, id);
    if r.config.autoKey then
      if r.config.couchbase then Couchbase.IsNewAuto(i)
      else !(IsNumeric(i) && NumericValue(i) >= 1.0)
    else !ResultTruthy(probe) || (probe.QRecordSet? && probe.eof)
  }

  /** With a generated relational key, a non-zero integer id, or its
      decimal text, is new exactly when it is below 1. */
  lemma IsNewByNumber(r: Record, env: Env, db: Db, n: int, probe: QueryResult)
    requires r.config.autoKey && !r.config.couchbase && n != 0
    ensures IsNew(r, env, db, Int(n), probe) <==> n < 1
    ensures IsNew(r, env, db, Str(IntToString(n)), probe) <==> n < 1
  {
    var t := IntToString(n);
    IntToStringRoundTrip(n);
    IntegerStringNumeric(t);
    assert t != "0" by {
      assert IsIntegerString("0") && IntegerStringValue("0") == 0 by {
        assert DigitsValue("0") == 0;
      }
    }
    assert Truthy(Str(t)) && Truthy(Int(n));
    assert NumericValue(Str(t)) == n as real;
  }

  /** With a generated relational key, a decimal id such as "0.5" or "2.5"
      is read as a number: it is new exactly when its integer part is 0. */
  lemma IsNewDecimal(r: Record, env: Env, db: Db, n: nat, d: char, probe: QueryResult)
    requires r.config.autoKey && !r.config.couchbase && IsDigit(d)
    ensures IsNew(r, env, db, Str(NatToString(n) + "." + [d]), probe) <==> n == 0
  {
    var t := NatToString(n);
    FractionDigit(t, d);
    NatToStringRoundTrip(n);
    assert (t + "." + [d])[|t|] == '.';
  }

  /** A falsy id asks about the record itself. */
  lemma IsNewFallsBack(r: Record, env: Env, db: Db, id: Value, probe: QueryResult)
    requires !Truthy(id)
    ensures IsNew(r, env, db, id, probe) == IsNew(r, env, db, GetId(r, env), probe)
  {
  }

  // ---------------------------------------------------------------------
  // Dirty tracking
  // ---------------------------------------------------------------------

  /** What `get_old_data` returns: the whole snapshot or one value. */
  datatype OldData = WholeOld(m: Data) | OldValue(v: Value)

  /** `get_old_data`: null without `retainDirty`; the whole snapshot for a
      falsy field name; else the field's snapshot value, or null. */
  function GetOldData(r: Record, field: string): (o: OldData)
    ensures !r.config.retainDirty ==> o == OldValue(Null)
    ensures r.config.retainDirty && !Truthy(Str(field)) ==> o == WholeOld(r.oldData)
    ensures r.config.retainDirty && Truthy(Str(field)) ==>
      o == OldValue(if IsSetIn(r.oldData, field) then r.oldData[field] else Null)
  {
    if !r.config.retainDirty then OldValue(Null)
    else if !Truthy(Str(field)) then WholeOld(r.oldData)
    else OldValue(if IsSetIn(r.oldData, field) then r.oldData[field] else Null)
  }

  /** `===` between an old-data answer and a value; the whole snapshot is
      an array, identical to a value only when both are empty arrays. */
  predicate Identical(o: OldData, v: Value) {
    match o
    case OldValue(x) => x == v
    case WholeOld(m) => m == map[] && v == List([])
  }

  /** `is_dirty`: a null value stands for the stored one when that is set;
      the field is dirty when its old data is not identical to the value. */
  predicate IsDirty(r: Record, field: string, value: Value) {
    var v := if value == Null && IsSetIn(r.data, field) then r.data[field] else value;
    !Identical(GetOldData(r, field), v)
  }

  /** Without a snapshot every non-null value is dirty. */
  lemma DirtyWithoutSnapshot(r: Record, field: string, value: Value)
    requires !r.config.retainDirty
    ensures IsDirty(r, field, value) <==> (value != Null || IsSetIn(r.data, field))
  {
  }

  /** Right after the snapshot is taken (`oldData == data`), no stored
      field is dirty, whether asked with its value or with null. */
  lemma SnapshotIsClean(r: Record, field: string)
    requires r.config.retainDirty && r.oldData == r.data
    requires Truthy(Str(field)) && IsSetIn(r.data, field)
    ensures !IsDirty(r, field, r.data[field])
    ensures !IsDirty(r, field, Null)
  {
  }

  /** `Record_Table::set`: the meta-table `set`; a null argument also
      empties the snapshot. */
  function SetRecord(r: Record, env: Env, input: Input): (r2: Record)
    ensures r2.config == r.config && r2.meta == r.meta && r2.errors == r.errors
    ensures r2.data == SetData(r.meta, env, r.data, input)
    ensures input == Scalar(Null) ==> r2.oldData == map[]
    ensures input != Scalar(Null) ==> r2.oldData == r.oldData
  {
    r.(data := SetData(r.meta, env, r.data, input),
       oldData := if input == Scalar(Null) then map[] else r.oldData)
  }

  /** After `set(null)` the snapshot is forgotten: every non-null value of a
      named field counts as dirty. */
  lemma ClearedIsDirty(r: Record, env: Env, field: string, value: Value)
    requires r.config.retainDirty && Truthy(Str(field)) && value != Null
    ensures IsDirty(SetRecord(r, env, Scalar(Null)), field, value)
  {
  }

  // ---------------------------------------------------------------------
  // Column and value text
  // ---------------------------------------------------------------------

  /** The column a key is stored in: its `field_as`, else the key. */
  function ColumnName(r: Record, key: string): string {
    ToStr(GetInfo(r.meta, key, "field_as", Str(key)))
  }

  /** The literal `save` and `create_save_sql` write for a key. */
  function ValueText(r: Record, env: Env, db: Db, key: string): string {
    EncodeValue(r.config, db, GetInfo(r.meta, key, "db_null", Null), GetValue(r.meta, env, r.data, key, Null))
  }

  function WrappedNames(r: Record, db: Db, keys: seq<string>): (s: seq<string>)
    ensures |s| == |keys|
  {
    seq(|keys|, i requires 0 <= i < |keys| => Wrap(db, ColumnName(r, keys[i])))
  }

  function ValueTexts(r: Record, env: Env, db: Db, keys: seq<string>): (s: seq<string>)
    ensures |s| == |keys|
  {
    seq(|keys|, i requires 0 <= i < |keys| => ValueText(r, env, db, keys[i]))
  }

  function Assignments(r: Record, env: Env, db: Db, keys: seq<string>): (s: seq<string>)
    ensures |s| == |keys|
  {
    seq(|keys|, i requires 0 <= i < |keys| => Wrap(db, ColumnName(r, keys[i])) + " = " + ValueText(r, env, db, keys[i]))
  }

  // ---------------------------------------------------------------------
  // save
  // ---------------------------------------------------------------------

  /** The keys `save` considers: those given, or every `db_field`. */
  function SaveList(r: Record, fields: seq<string>): (s: seq<string>)
    ensures |fields| == 0 ==> forall k :: k in s <==> k in r.meta.keys && HasInfo(r.meta, k, "db_field", Bool(true))
    ensures |fields| > 0 ==> s == fields
  {
    if |fields| == 0 then KeysWith(r.meta, "db_field", Bool(true), false) else fields
  }

  /** The column filter of `save`: not the generated key (compared
      loosely), not read-only, and dirty when dirty tracking is on. */
  predicate Writes(r: Record, env: Env, key: string) {
    (!LooseEq(Str(key), Str(r.config.keyField)) || !r.config.autoKey)
    && !Truthy(GetInfo(r.meta, key, "db_readonly", Null))
    && (!r.config.retainDirty || IsDirty(r, key, GetValue(r.meta, env, r.data, key, Null)))
  }

  /** The keys `save` writes, in order. */
  function Columns(r: Record, env: Env, keys: seq<string>): (cols: seq<string>)
    ensures forall k :: k in cols <==> k in keys && Writes(r, env, k)
    ensures |cols| <= |keys|
  {
    if |keys| == 0 then []
    else
      var rest := Columns(r, env, keys[1..]);
      if Writes(r, env, keys[0]) then [keys[0]] + rest else rest
  }

  /** The statement `save` executes for a non-empty column list. */
  function SaveSql(r: Record, env: Env, db: Db, isNew: bool, cols: seq<string>): (s: string)
    ensures isNew ==> StartsWith(s, "INSERT INTO " + r.config.tableName + " (")
    ensures !isNew ==> StartsWith(s, "UPDATE " + r.config.tableName + " SET ")
  {
    if isNew then
      var head := "INSERT INTO " + r.config.tableName + " (";
      var rest := Join(WrappedNames(r, db, cols), ", ") + ") VALUES (" + Join(ValueTexts(r, env, db, cols), ", ") + ")" + " ";
      PrefixStartsWith(head, rest);
      head + rest
    else
      var head := "UPDATE " + r.config.tableName + " SET ";
      var rest := Join(Assignments(r, env, db, cols), ", ") + " " + "WHERE " + WhereClause(r, env, db, Null);
      PrefixStartsWith(head, rest);
      head + rest
  }

  /** The values written, by key (`$updated_data`). */
  function Written(r: Record, env: Env, cols: seq<string>): (m: Data)
    ensures m.Keys == set k | k in cols
    ensures forall k :: k in m ==> m[k] == GetValue(r.meta, env, r.data, k, Null)
  {
    map k | k in cols :: GetValue(r.meta, env, r.data, k, Null)
  }

  /** When a successful save of a new record with a generated key assigns
      `Insert_ID` to the key: as the source does it, also when no statement
      ran; or only after an INSERT actually ran. */
  datatype KeyRule = AsWritten | OnlyAfterInsert

  /** What one `save` did: the record after it, the statement executed (if
      any), the keys written and the result returned. */
  datatype SaveRun = SaveRun(record: Record, sql: Option<string>, written: seq<string>, result: QueryResult)

  /** `save($fields)` (`fields` empty for every `db_field`). `probe` is the
      result of `is_new`'s query, `exec` that of the statement, `insertId`
      what `Insert_ID` answers. The `on_save` hooks run afterwards and can
      turn the result false; a hook raising aborts the save. */
  function SaveWith(r: Record, env: Env, db: Db, fields: seq<string>, probe: QueryResult,
                    exec: QueryResult, insertId: Value, rule: KeyRule): (o: Outcome<SaveRun>)
    ensures o.Ok? ==> o.value.record.config == r.config && o.value.record.meta == r.meta
    ensures o.Ok? ==> forall k :: k in o.value.written <==> k in SaveList(r, fields) && Writes(r, env, k)
    ensures o.Ok? ==> (o.value.sql.Some? <==> |o.value.written| > 0)
    ensures o.Ok? && o.value.sql.Some? ==>
      o.value.sql.value == SaveSql(r, env, db, IsNew(r, env, db, Null, probe), o.value.written)
    ensures o.Ok? && |SaveList(r, fields)| == 0 ==>
      !ResultTruthy(o.value.result) && "No Database Fields Found" in o.value.record.errors
    ensures o.Ok? && o.value.sql.Some? && !ResultTruthy(exec) ==>
      !ResultTruthy(o.value.result) && "Unable to save to " + r.config.tableName in o.value.record.errors
    ensures o.Ok? && ResultTruthy(o.value.result) ==> |SaveList(r, fields)| > 0
    ensures o.Ok? && ResultTruthy(o.value.result) && IsNew(r, env, db, Null, probe) && r.config.autoKey
      && (rule.AsWritten? || o.value.sql.Some?)
      ==> o.value.record.data == SetValue(r.meta, env, r.data, r.config.keyField, insertId)
    ensures o.Ok? && rule.OnlyAfterInsert? && o.value.sql.None? ==> o.value.record.data == r.data
    ensures o.Ok? && !(IsNew(r, env, db, Null, probe) && r.config.autoKey) ==> o.value.record.data == r.data
    ensures o.Ok? && r.config.retainDirty && ResultTruthy(o.value.result) ==>
      o.value.record.oldData == o.value.record.data + Written(r, env, o.value.written)
    ensures o.Ok? && !(r.config.retainDirty && ResultTruthy(o.value.result)) ==>
      o.value.record.oldData == r.oldData
    ensures o.Ok? && r.config.couchbase ==> o.value.result == QTrue || !ResultTruthy(o.value.result)
    ensures o.Ok? && |SaveList(r, fields)| > 0 ==> o.value.written == Columns(r, env, SaveList(r, fields))
    ensures o.Ok? && |SaveList(r, fields)| > 0 && |o.value.written| == 0
      && RunHooks(r.meta, env, o.value.record.data, "on_save") == Ok(true)
      ==> o.value.result == QTrue
  {
    var isNew := IsNew(r, env, db, Null, probe);
    var list := SaveList(r, fields);
    var cols := Columns(r, env, list);
    var sql := if |cols| > 0 then Some(SaveSql(r, env, db, isNew, cols)) else None;
    var saved := if |list| == 0 then QFalse else if |cols| > 0 then exec else QTrue;
    var r1 :=
      if |list| == 0 then WithError(r, "No Database Fields Found")
      else if !ResultTruthy(saved) then WithError(r, "Unable to save to " + r.config.tableName)
      else if isNew && r.config.autoKey && (rule.AsWritten? || |cols| > 0)
      then r.(data := SetValue(r.meta, env, r.data, r.config.keyField, insertId))
      else r;
    match RunHooks(r1.meta, env, r1.data, "on_save")
    case Raised(e) => Raised(e)
    case Ok(hooksOk) =>
      var saved2 := if hooksOk then saved else QFalse;
      var r2 := if ResultTruthy(saved2) && r.config.retainDirty
        then r1.(oldData := r1.data + Written(r, env, cols)) else r1;
      var result := if r.config.couchbase then Couchbase.SaveResult(saved2) else saved2;
      Ok(SaveRun(r2, if |list| == 0 then None else sql, if |list| == 0 then [] else cols, result))
  }

  /** `save` never writes the generated key, never writes a read-only
      field, and with dirty tracking writes only dirty fields. */
  lemma SaveFilters(r: Record, env: Env, db: Db, fields: seq<string>, probe: QueryResult,
                    exec: QueryResult, insertId: Value, rule: KeyRule)
    requires SaveWith(r, env, db, fields, probe, exec, insertId, rule).Ok?
    ensures var w := SaveWith(r, env, db, fields, probe, exec, insertId, rule).value.written;
      (r.config.autoKey ==> r.config.keyField !in w)
      && (forall k :: k in w ==> !Truthy(GetInfo(r.meta, k, "db_readonly", Null)))
      && (r.config.retainDirty ==> forall k :: k in w ==> IsDirty(r, k, GetValue(r.meta, env, r.data, k, Null)))
  {
    LooseEqReflexive(Str(r.config.keyField));
  }

  /** With nothing to write, no statement runs and (hooks permitting) the
      save succeeds. */
  lemma SaveNothingToWrite(r: Record, env: Env, db: Db, fields: seq<string>, probe: QueryResult,
                           exec: QueryResult, insertId: Value, rule: KeyRule)
    requires |SaveList(r, fields)| > 0
    requires forall k :: k in SaveList(r, fields) ==> !Writes(r, env, k)
    requires SaveWith(r, env, db, fields, probe, exec, insertId, rule).Ok?
    ensures var run := SaveWith(r, env, db, fields, probe, exec, insertId, rule).value;
      run.sql.None? && |run.written| == 0
      && (RunHooks(r.meta, env, run.record.data, "on_save") == Ok(true) ==> run.result == QTrue)
  {
    ColumnsNone(r, env, SaveList(r, fields));
  }

  lemma {:induction false} ColumnsNone(r: Record, env: Env, keys: seq<string>)
    requires forall k :: k in keys ==> !Writes(r, env, k)
    ensures Columns(r, env, keys) == []
  {
    if |keys| > 0 {
      assert keys[0] in keys;
      assert forall k :: k in keys[1..] ==> k in keys;
      ColumnsNone(r, env, keys[1..]);
    }
  }

  /** A successful save that did not assign a key leaves every written
      field clean (unless it reads back as null). */
  lemma SaveCleansWritten(r: Record, env: Env, db: Db, fields: seq<string>, probe: QueryResult,
                          exec: QueryResult, insertId: Value, rule: KeyRule, k: string)
    requires r.config.retainDirty && Truthy(Str(k))
    requires SaveWith(r, env, db, fields, probe, exec, insertId, rule).Ok?
    requires var run := SaveWith(r, env, db, fields, probe, exec, insertId, rule).value;
      ResultTruthy(run.result) && run.record.data == r.data && k in run.written
    requires GetValue(r.meta, env, r.data, k, Null) != Null
    ensures var r2 := SaveWith(r, env, db, fields, probe, exec, insertId, rule).value.record;
      !IsDirty(r2, k, GetValue(r2.meta, env, r2.data, k, Null))
  {
  }

  /** The defect: a new record with a generated key and nothing to write
      runs no INSERT, yet takes `Insert_ID` (whatever the connection last
      inserted) as its key. */
  lemma SaveAssignsStaleKey(r: Record, env: Env, db: Db, fields: seq<string>, probe: QueryResult,
                            exec: QueryResult, insertId: Value)
    requires r.config.autoKey && IsNew(r, env, db, Null, probe)
    requires |SaveList(r, fields)| > 0
    requires forall k :: k in SaveList(r, fields) ==> !Writes(r, env, k)
    requires SaveWith(r, env, db, fields, probe, exec, insertId, AsWritten).Ok?
    requires RunHooks(r.meta, env, SetValue(r.meta, env, r.data, r.config.keyField, insertId), "on_save") == Ok(true)
    ensures var run := SaveWith(r, env, db, fields, probe, exec, insertId, AsWritten).value;
      run.sql.None? && run.record.data == SetValue(r.meta, env, r.data, r.config.keyField, insertId)
  {
    SaveNothingToWrite(r, env, db, fields, probe, exec, insertId, AsWritten);
  }

  /** The intended rule: the key changes only when an INSERT ran. */
  lemma SaveKeyOnlyAfterInsert(r: Record, env: Env, db: Db, fields: seq<string>, probe: QueryResult,
                               exec: QueryResult, insertId: Value)
    requires SaveWith(r, env, db, fields, probe, exec, insertId, OnlyAfterInsert).Ok?
    ensures var run := SaveWith(r, env, db, fields, probe, exec, insertId, OnlyAfterInsert).value;
      run.record.data != r.data ==>
        run.sql.Some? && StartsWith(run.sql.value, "INSERT INTO " + r.config.tableName + " (")
        && ResultTruthy(exec)
  {
  }

  /** After `init_couchbase` the key field is read-only, so `save` never
      writes it, whether or not the key is generated. */
  lemma CouchbaseNeverWritesKey(c: Config, t: Table, r: Record, env: Env, db: Db, fields: seq<string>,
                                probe: QueryResult, exec: QueryResult, insertId: Value, rule: KeyRule)
    requires c.keyField in t.info
    requires r.config == Couchbase.InitCouchbase(c, t).config
    requires r.meta == Couchbase.InitCouchbase(c, t).table
    requires SaveWith(r, env, db, fields, probe, exec, insertId, rule).Ok?
    ensures c.keyField !in SaveWith(r, env, db, fields, probe, exec, insertId, rule).value.written
  {
  }

  // ---------------------------------------------------------------------
  // create_save_sql
  // ---------------------------------------------------------------------

  /** The keys without the first one loosely equal to `key`
      (`array_search` then `unset`). */
  function RemoveFirstLoose(keys: seq<string>, key: string): (r: seq<string>)
    ensures |r| == |keys| || |r| == |keys| - 1
    ensures forall k :: k in r ==> k in keys
    ensures forall k :: k in keys && !LooseEq(Str(k), Str(key)) ==> k in r
    ensures Base.NoDuplicates(keys) ==> Base.NoDuplicates(r)
    ensures Base.NoDuplicates(keys) && !IsNumericString(key) ==> key !in r
    ensures !IsNumericString(key) ==> forall k :: k in keys && k != key ==> k in r
  {
    if |keys| == 0 then []
    else if LooseEq(Str(keys[0]), Str(key)) then
      assert Base.NoDuplicates(keys) ==> Base.NoDuplicates(keys[1..]) by {
        if Base.NoDuplicates(keys) {
          Base.NoDuplicatesTail(keys);
        }
      }
      assert Base.NoDuplicates(keys) && !IsNumericString(key) ==> key !in keys[1..] by {
        if Base.NoDuplicates(keys) && !IsNumericString(key) {
          Base.NoDuplicatesTail(keys);
        }
      }
      keys[1..]
    else
      var rest := RemoveFirstLoose(keys[1..], key);
      assert Base.NoDuplicates(keys) ==> Base.NoDuplicates([keys[0]] + rest) by {
        if Base.NoDuplicates(keys) {
          Base.NoDuplicatesTail(keys);
          Base.NoDuplicatesCons(keys[0], rest);
        }
      }
      assert keys[0] != key by {
        LooseEqReflexive(Str(key));
      }
      [keys[0]] + rest
  }

  /** Integer texts compare by value: `array_search` can remove `01` for
      the key field `1` and leave `1` in the list. */
  lemma RemoveFirstLooseNumeric()
    ensures RemoveFirstLoose(["01", "1"], "1") == ["1"]
  {
    assert IsIntegerString("01") && IntegerStringValue("01") == 1 by {
      assert DigitsValue("01") == 1;
    }
    assert IsIntegerString("1") && IntegerStringValue("1") == 1 by {
      assert DigitsValue("1") == 1;
    }
    IntegerStringNumeric("01");
    IntegerStringNumeric("1");
    assert ["01", "1"][1..] == ["1"];
  }

  /** `array_diff`: the keys not among `drop`, in order. */
  function Difference(keys: seq<string>, drop: seq<string>): (r: seq<string>)
    ensures forall k :: k in r <==> k in keys && k !in drop
    ensures |r| <= |keys|
    ensures Base.NoDuplicates(keys) ==> Base.NoDuplicates(r)
  {
    if |keys| == 0 then []
    else
      var rest := Difference(keys[1..], drop);
      assert Base.NoDuplicates(keys) ==> Base.NoDuplicates(rest) && keys[0] !in rest by {
        if Base.NoDuplicates(keys) {
          Base.NoDuplicatesTail(keys);
        }
      }
      if keys[0] in drop then rest
      else
        assert Base.NoDuplicates(keys) ==> Base.NoDuplicates([keys[0]] + rest) by {
          if Base.NoDuplicates(keys) {
            Base.NoDuplicatesCons(keys[0], rest);
          }
        }
        [keys[0]] + rest
  }

  /** The parameters of `create_save_sql`; `None` for an absent entry. */
  datatype SaveSqlParams = SaveSqlParams(fields: Option<seq<string>>, isNew: Option<bool>, includeReadonly: bool)

  /** The key list `create_save_sql` starts from: the named fields, or else
      the `db_field` keys; `None` when that lookup finds none. */
  function SaveListed(r: Record, p: SaveSqlParams): Option<seq<string>> {
    if p.fields.Some? then Some(p.fields.value)
    else
      var ks := KeysWith(r.meta, "db_field", Bool(true), false);
      if |ks| == 0 then None else Some(ks)
  }

  /** A key the meta table marks `db_readonly`. */
  predicate ReadOnlyKey(t: Table, k: string) {
    k in t.keys && HasInfo(t, k, "db_readonly", Bool(true))
  }

  /** The keys `create_save_sql` writes: the listed keys, without the first
      one loosely equal to the key field when the key is generated (whether
      or not fields are named), and without the read-only keys unless they
      are asked for. Null when there is no key list at all; with a generated
      key and no list `array_search` raises. */
  function SaveSqlKeys(r: Record, p: SaveSqlParams): (o: Outcome<Option<seq<string>>>)
    ensures o.Raised? <==> SaveListed(r, p).None? && r.config.autoKey
    ensures o.Ok? && o.value.None? <==> SaveListed(r, p).None? && !r.config.autoKey
    ensures p.fields.Some? ==> o.Ok? && o.value.Some?
    ensures o.Ok? && o.value.Some? ==> forall k :: k in o.value.value ==>
      k in SaveListed(r, p).value && (p.includeReadonly || !ReadOnlyKey(r.meta, k))
    ensures o.Ok? && o.value.Some? && Base.NoDuplicates(SaveListed(r, p).value) ==>
      Base.NoDuplicates(o.value.value)
    ensures o.Ok? && o.value.Some? && Base.NoDuplicates(SaveListed(r, p).value)
      && !IsNumericString(r.config.keyField)
      ==> forall k :: k in o.value.value <==>
        k in SaveListed(r, p).value && !(r.config.autoKey && k == r.config.keyField)
        && (p.includeReadonly || !ReadOnlyKey(r.meta, k))
    ensures o.Ok? && o.value.Some? && !p.includeReadonly && r.meta.Valid() ==>
      forall k :: k in o.value.value ==> !HasInfo(r.meta, k, "db_readonly", Bool(true))
    ensures o.Ok? && o.value.Some? && r.config.autoKey && r.meta.Valid() && p.fields.None?
      && !IsNumericString(r.config.keyField)
      ==> r.config.keyField !in o.value.value
  {
    var listed := SaveListed(r, p);
    if r.config.autoKey && listed.None? then Raised("array_search(): Argument #2 ($haystack) must be of type array")
    else if listed.None? then Ok(None)
    else
      var keys := if r.config.autoKey then RemoveFirstLoose(listed.value, r.config.keyField) else listed.value;
      assert r.meta.Valid() && p.fields.None? ==> Base.NoDuplicates(listed.value) by {
        if r.meta.Valid() && p.fields.None? {
          KeysWithDistinct(r.meta, "db_field", Bool(true));
        }
      }
      if p.includeReadonly then Ok(Some(keys))
      else Ok(Some(Difference(keys, KeysWith(r.meta, "db_readonly", Bool(true), false))))
  }

  /** Naming the fields does not keep the auto key: it is dropped from the
      named list too, and the other named field stays. */
  lemma NamedFieldsLoseAutoKey(r: Record, f: string)
    requires r.config.autoKey && !IsNumericString(r.config.keyField) && f != r.config.keyField
    ensures SaveSqlKeys(r, SaveSqlParams(Some([r.config.keyField, f]), None, true)) == Ok(Some([f]))
  {
    assert LooseEq(Str(r.config.keyField), Str(r.config.keyField));
    assert [r.config.keyField, f][1..] == [f];
  }

  /** Key lists drawn from a valid table are duplicate-free. */
  lemma KeysWithDistinct(t: Table, infoKey: string, value: Value)
    requires t.Valid()
    ensures Base.NoDuplicates(KeysWith(t, infoKey, value, false))
  {
    KeysWithOrdered(t, infoKey, value, false);
    SubsequenceDistinct(KeysWith(t, infoKey, value, false), t.keys);
  }

  lemma {:induction false} SubsequenceDistinct(a: seq<string>, b: seq<string>)
    requires IsSubsequence(a, b) && Base.NoDuplicates(b)
    ensures Base.NoDuplicates(a)
    decreases |b|
  {
    if |a| > 0 && |b| > 0 {
      Base.NoDuplicatesTail(b);
      if a[0] == b[0] {
        SubsequenceDistinct(a[1..], b[1..]);
        SubsequenceMembers(a[1..], b[1..]);
        Base.NoDuplicatesCons(a[0], a[1..]);
        assert a == [a[0]] + a[1..];
      } else {
        SubsequenceDistinct(a, b[1..]);
      }
    }
  }

  lemma {:induction false} SubsequenceMembers(a: seq<string>, b: seq<string>)
    requires IsSubsequence(a, b)
    ensures forall x :: x in a ==> x in b
    decreases |b|
  {
    if |a| > 0 && |b| > 0 {
      if a[0] == b[0] {
        SubsequenceMembers(a[1..], b[1..]);
        assert forall x :: x in a ==> x == a[0] || x in a[1..];
      } else {
        SubsequenceMembers(a, b[1..]);
      }
    }
  }

  /** `create_save_sql`: the INSERT (plain `field_as` names, no wrappers)
      or UPDATE text for the chosen keys, without the dirty filter; null
      without a key list. */
  function CreateSaveSql(r: Record, env: Env, db: Db, p: SaveSqlParams, probe: QueryResult): (o: Outcome<Option<string>>)
    ensures p.fields.Some? ==> o.Ok? && o.value.Some?
    ensures o.Ok? && o.value.Some? ==>
      var isNew := if p.isNew.Some? then p.isNew.value else IsNew(r, env, db, Null, probe);
      (isNew ==> StartsWith(o.value.value, "INSERT INTO " + r.config.tableName + "("))
      && (!isNew ==> StartsWith(o.value.value, "UPDATE " + r.config.tableName + " SET "))
  {
    match SaveSqlKeys(r, p)
    case Raised(e) => Raised(e)
    case Ok(None) => Ok(None)
    case Ok(Some(keys)) =>
      var isNew := if p.isNew.Some? then p.isNew.value else IsNew(r, env, db, Null, probe);
      if isNew then
        var head := "INSERT INTO " + r.config.tableName + "(";
        var names := seq(|keys|, i requires 0 <= i < |keys| => ColumnName(r, keys[i]));
        var rest := Join(names, ", ") + ") VALUES (" + Join(ValueTexts(r, env, db, keys), ", ") + ")";
        PrefixStartsWith(head, rest);
        Ok(Some(head + rest))
      else
        Ok(Some(UpdateText(r, env, db, keys)))
  }

  /** The UPDATE text both builders produce for a list of keys. */
  function UpdateText(r: Record, env: Env, db: Db, keys: seq<string>): (s: string)
    ensures StartsWith(s, "UPDATE " + r.config.tableName + " SET ")
  {
    var head := "UPDATE " + r.config.tableName + " SET ";
    var rest := Join(Assignments(r, env, db, keys), ", ") + " WHERE " + WhereClause(r, env, db, Null);
    PrefixStartsWith(head, rest);
    head + rest
  }

  /** For an existing record, `save` executes exactly the UPDATE that
      `create_save_sql` builds for the same columns. */
  lemma UpdateTextsAgree(r: Record, env: Env, db: Db, cols: seq<string>)
    ensures SaveSql(r, env, db, false, cols) == UpdateText(r, env, db, cols)
  {
    var head := "UPDATE " + r.config.tableName + " SET ";
    var a := Join(Assignments(r, env, db, cols), ", ");
    var w := WhereClause(r, env, db, Null);
    assert SaveSql(r, env, db, false, cols) == head + (a + " " + "WHERE " + w);
    assert UpdateText(r, env, db, cols) == head + (a + " WHERE " + w);
    assert a + " " + "WHERE " == a + " WHERE ";
  }

  // ---------------------------------------------------------------------
  // load
  // ---------------------------------------------------------------------

  /** The fetch mode `load` switches to (`ADODB_FETCH_DEFAULT`). */
  const FetchDefault: Value := Int(0)

  /** One column of `load`'s SELECT: `field_as AS` (when not empty)
      before the wrapped key. */
  function SelectItem(r: Record, db: Db, key: string): (s: string)
    ensures exists p :: s == p + Wrap(db, key)
  {
    var fa := GetInfo(r.meta, key, "field_as", Null);
    (if Truthy(fa) then ToStr(fa) + " AS " else "") + Wrap(db, key)
  }

  function LoadSql(r: Record, db: Db, keys: seq<string>, where: string): (s: string)
    ensures StartsWith(s, "SELECT ")
  {
    var items := seq(|keys|, i requires 0 <= i < |keys| => SelectItem(r, db, keys[i]));
    var rest := Join(items, ", ") + " FROM " + r.config.tableName + " WHERE " + where;
    PrefixStartsWith("SELECT ", rest);
    "SELECT " + rest
  }

  datatype LoadRun = LoadRun(record: Record, sql: Option<string>, loaded: bool, fetch: FetchState)

  /** `load($id, $fields)`: `result` is what the SELECT returned and `row`
      its first row. The fetch mode is pushed and popped around the query;
      the `on_load` hooks run whatever happened. */
  function Load(r: Record, env: Env, db: Db, id: Value, fields: seq<string>, fetch: FetchState,
                result: QueryResult, row: Data): (o: Outcome<LoadRun>)
    ensures o.Ok? ==> o.value.fetch == fetch
    ensures o.Ok? ==> o.value.record.config == r.config && o.value.record.meta == r.meta
    ensures o.Ok? && !Truthy(ResolveId(r, env, id)) ==>
      !o.value.loaded && o.value.sql.None? && "Unable to determine ID" in o.value.record.errors
    ensures o.Ok? && Truthy(ResolveId(r, env, id)) && |SaveList(r, fields)| == 0 ==>
      !o.value.loaded && o.value.sql.None? && "No Database Fields Found" in o.value.record.errors
    ensures o.Ok? && Truthy(ResolveId(r, env, id)) && |SaveList(r, fields)| > 0 ==>
      o.value.sql == Some(LoadSql(r, db, SaveList(r, fields), WhereClause(r, env, db, ResolveId(r, env, id))))
    ensures o.Ok? && o.value.loaded ==>
      ResultsCheck(result, true) && o.value.record.data == SetData(r.meta, env, r.data, Assoc(row))
      && RunHooks(r.meta, env, o.value.record.data, "on_load") == Ok(true)
    ensures o.Ok? && Truthy(ResolveId(r, env, id)) && |SaveList(r, fields)| > 0 && ResultsCheck(result, true)
      && RunHooks(r.meta, env, SetData(r.meta, env, r.data, Assoc(row)), "on_load") == Ok(true)
      ==> o.value.loaded
    ensures o.Ok? && o.value.loaded && r.config.retainDirty ==> o.value.record.oldData == o.value.record.data
    ensures o.Ok? && !o.value.loaded ==> o.value.record.data == r.data || ResultsCheck(result, true)
  {
    var st := PushFetchMode(fetch, FetchDefault);
    var i := ResolveId(r, env, id);
    var list := SaveList(r, fields);
    var ok := Truthy(i) && |list| > 0 && ResultsCheck(result, true);
    var r1 :=
      if !Truthy(i) then WithError(r, "Unable to determine ID")
      else if |list| == 0 then WithError(r, "No Database Fields Found")
      else if ResultsCheck(result, true) then SetRecord(r, env, Assoc(row))
      else r;
    var sql := if Truthy(i) && |list| > 0 then Some(LoadSql(r, db, list, WhereClause(r, env, db, i))) else None;
    PushPopRestores(fetch, FetchDefault);
    var r2 := if ok && r.config.retainDirty then r1.(oldData := r1.data) else r1;
    match RunHooks(r2.meta, env, r2.data, "on_load")
    case Raised(e) => Raised(e)
    case Ok(hooksOk) => Ok(LoadRun(r2, sql, ok && hooksOk, PopFetchMode(st)))
  }

  /** With dirty tracking, a record just loaded has no dirty field. */
  lemma LoadedIsClean(r: Record, env: Env, db: Db, id: Value, fields: seq<string>, fetch: FetchState,
                      result: QueryResult, row: Data, k: string)
    requires r.config.retainDirty && Truthy(Str(k))
    requires Load(r, env, db, id, fields, fetch, result, row).Ok?
    requires var run := Load(r, env, db, id, fields, fetch, result, row).value;
      run.loaded && IsSetIn(run.record.data, k)
    ensures var r2 := Load(r, env, db, id, fields, fetch, result, row).value.record;
      !IsDirty(r2, k, r2.data[k]) && !IsDirty(r2, k, Null)
  {
    var r2 := Load(r, env, db, id, fields, fetch, result, row).value.record;
    SnapshotIsClean(r2, k);
  }

  // ---------------------------------------------------------------------
  // delete
  // ---------------------------------------------------------------------

  datatype DeleteRun = DeleteRun(record: Record, sql: string, result: QueryResult)

  /** `delete($id)`: deletes the row of the id (the record's own for a
      falsy id); a failure is reported and nothing else changes. */
  function Delete(r: Record, env: Env, db: Db, id: Value, exec: QueryResult): (d: DeleteRun)
    ensures var head := "DELETE FROM " + r.config.tableName + " WHERE ";
      StartsWith(d.sql, head) && d.sql[|head|..] == WhereClause(r, env, db, ResolveId(r, env, id))
    ensures d.result == exec
    ensures ResultTruthy(exec) ==> d.record == r
    ensures !ResultTruthy(exec) ==> d.record == WithError(r, "Unable to delete from " + r.config.tableName)
  {
    var head := "DELETE FROM " + r.config.tableName + " WHERE ";
    var w := WhereClause(r, env, db, ResolveId(r, env, id));
    PrefixStartsWith(head, w);
    DeleteRun(if ResultTruthy(exec) then r else WithError(r, "Unable to delete from " + r.config.tableName),
              head + w, exec)
  }

  /** `delete()` addresses the record itself: its WHERE clause encodes the
      record's id. */
  lemma DeleteOwnRow(r: Record, env: Env, db: Db, exec: QueryResult)
    requires GetId(r, env) != Null
    ensures var d := Delete(r, env, db, Null, exec);
      var head := "DELETE FROM " + r.config.tableName + " WHERE " + KeyColumn(r.config) + " = ";
      StartsWith(d.sql, head) && d.sql[|head|..] == EncodeId(r.config, db, GetId(r, env))
  {
    var d := Delete(r, env, db, Null, exec);
    var h1 := "DELETE FROM " + r.config.tableName + " WHERE ";
    var w := WhereClause(r, env, db, GetId(r, env));
    assert d.sql == h1 + w;
    assert StartsWith(w, KeyColumn(r.config) + " = ");
    StartsWithExtend(h1, w, KeyColumn(r.config) + " = ");
    assert h1 + (KeyColumn(r.config) + " = ") == h1 + KeyColumn(r.config) + " = ";
  }

  // ---------------------------------------------------------------------
  // update_fields
  // ---------------------------------------------------------------------

  /** A field `update_fields` may write locally: forced, or not read-only. */
  predicate Settable(t: Table, key: string, force: bool) {
    force || !Truthy(GetInfo(t, key, "db_readonly", Null))
  }

  /** A field `update_fields` writes to the database: a `db_field` that is
      settable. */
  predicate Updatable(t: Table, key: string, force: bool) {
    Truthy(GetInfo(t, key, "db_field", Null)) && Settable(t, key, force)
  }

  function UpdateItems(t: Table, pairs: seq<(string, Value)>, force: bool): (s: seq<(string, Value)>)
    ensures forall p :: p in s <==> p in pairs && Updatable(t, p.0, force)
  {
    if |pairs| == 0 then []
    else
      var rest := UpdateItems(t, pairs[1..], force);
      if Updatable(t, pairs[0].0, force) then [pairs[0]] + rest else rest
  }

  /** The statement of `update_fields`: each column set with a trailing
      space, then the WHERE clause. */
  function UpdateFieldsSql(r: Record, env: Env, db: Db, items: seq<(string, Value)>, id: Value): (s: string)
    ensures StartsWith(s, "UPDATE " + r.config.tableName + " SET ")
  {
    var sets := seq(|items|, i requires 0 <= i < |items| =>
      Wrap(db, ColumnName(r, items[i].0)) + " = " + EncodeUpdate(r.config, db, items[i].1) + " ");
    var head := "UPDATE " + r.config.tableName + " SET ";
    var rest := Join(sets, ", ") + "WHERE " + WhereClause(r, env, db, id);
    PrefixStartsWith(head, rest);
    head + rest
  }

  /** The local `set_value` of every settable pair, in order. */
  function ApplyPairs(t: Table, env: Env, data: Data, pairs: seq<(string, Value)>, force: bool): (d: Data)
    ensures d.Keys == data.Keys + set p | p in pairs && Settable(t, p.0, force) :: p.0
    decreases |pairs|
  {
    if |pairs| == 0 then data
    else
      var k := pairs[0].0;
      var next := if Settable(t, k, force) then SetValue(t, env, data, k, pairs[0].1) else data;
      ApplyPairs(t, env, next, pairs[1..], force)
  }

  /** With distinct keys, a settable plain pair ends up stored as its
      prepared value. */
  lemma {:induction false} ApplyPairsStores(t: Table, env: Env, data: Data, pairs: seq<(string, Value)>,
                                            force: bool, i: int)
    requires Base.NoDuplicates(KeysOf(pairs)) && 0 <= i < |pairs|
    requires Settable(t, pairs[i].0, force)
    requires Classify(env, GetInfo(t, pairs[i].0, "set_value", Null)).Literal?
    requires !CanDefault(PrepareValue(t, env, pairs[i].0, pairs[i].1))
    ensures ApplyPairs(t, env, data, pairs, force)[pairs[i].0] == PrepareValue(t, env, pairs[i].0, pairs[i].1)
    decreases |pairs|
  {
    var k := pairs[0].0;
    var next := if Settable(t, k, force) then SetValue(t, env, data, k, pairs[0].1) else data;
    assert KeysOf(pairs[1..]) == KeysOf(pairs)[1..];
    Base.NoDuplicatesTail(KeysOf(pairs));
    if i == 0 {
      ApplyPairsKeeps(t, env, next, pairs[1..], force, k);
    } else {
      ApplyPairsStores(t, env, next, pairs[1..], force, i - 1);
    }
  }

  /** A key no later pair names keeps its value. */
  lemma {:induction false} ApplyPairsKeeps(t: Table, env: Env, data: Data, pairs: seq<(string, Value)>,
                                           force: bool, k: string)
    requires k in data && k !in KeysOf(pairs)
    ensures k in ApplyPairs(t, env, data, pairs, force) && ApplyPairs(t, env, data, pairs, force)[k] == data[k]
    decreases |pairs|
  {
    if |pairs| > 0 {
      var next := if Settable(t, pairs[0].0, force) then SetValue(t, env, data, pairs[0].0, pairs[0].1) else data;
      assert KeysOf(pairs[1..]) == KeysOf(pairs)[1..];
      assert pairs[0].0 == KeysOf(pairs)[0];
      ApplyPairsKeeps(t, env, next, pairs[1..], force, k);
    }
  }

  datatype UpdateRun = UpdateRun(record: Record, sql: Option<string>, updated: bool)

  /** `update_fields($fields, $force, $id)`: writes the settable
      `db_field` pairs of the row of the id; executed only when at least one
      pair qualifies. On success, when the id loosely equals the record's
      own, every settable pair is also set locally. */
  function UpdateFields(r: Record, env: Env, db: Db, pairs: seq<(string, Value)>, force: bool,
                        id: Value, exec: QueryResult): (u: UpdateRun)
    ensures var i := ResolveId(r, env, id);
      (u.updated <==> Truthy(i) && |UpdateItems(r.meta, pairs, force)| > 0 && exec != QFalse)
      && (u.sql.Some? <==> Truthy(i) && |UpdateItems(r.meta, pairs, force)| > 0)
    ensures u.record.config == r.config && u.record.meta == r.meta && u.record.oldData == r.oldData
    ensures !Truthy(ResolveId(r, env, id)) ==> u.record == WithError(r, "Unable to determine ID")
    ensures Truthy(ResolveId(r, env, id)) && !u.updated ==> u.record == WithError(r, "Unable to update fields.")
    ensures u.updated && !LooseEq(ResolveId(r, env, id), GetId(r, env)) ==> u.record == r
    ensures u.updated && LooseEq(ResolveId(r, env, id), GetId(r, env)) ==>
      u.record == r.(data := ApplyPairs(r.meta, env, r.data, pairs, force))
  {
    var i := ResolveId(r, env, id);
    if !Truthy(i) then UpdateRun(WithError(r, "Unable to determine ID"), None, false)
    else
      var items := UpdateItems(r.meta, pairs, force);
      var sql := if |items| > 0 then Some(UpdateFieldsSql(r, env, db, items, i)) else None;
      var updated := |items| > 0 && ResultsCheck(exec, false);
      if !updated then UpdateRun(WithError(r, "Unable to update fields."), sql, false)
      else if LooseEq(i, GetId(r, env)) then
        UpdateRun(r.(data := ApplyPairs(r.meta, env, r.data, pairs, force)), sql, true)
      else UpdateRun(r, sql, true)
  }

  /** A successful update of the record's own row stores each settable
      plain value locally as written. */
  lemma UpdateStoresLocally(r: Record, env: Env, db: Db, pairs: seq<(string, Value)>, force: bool,
                            id: Value, exec: QueryResult, j: int)
    requires Base.NoDuplicates(KeysOf(pairs)) && 0 <= j < |pairs|
    requires Settable(r.meta, pairs[j].0, force)
    requires Classify(env, GetInfo(r.meta, pairs[j].0, "set_value", Null)).Literal?
    requires !CanDefault(PrepareValue(r.meta, env, pairs[j].0, pairs[j].1))
    requires UpdateFields(r, env, db, pairs, force, id, exec).updated
    requires LooseEq(ResolveId(r, env, id), GetId(r, env))
    ensures UpdateFields(r, env, db, pairs, force, id, exec).record.data[pairs[j].0]
      == PrepareValue(r.meta, env, pairs[j].0, pairs[j].1)
  {
    ApplyPairsStores(r.meta, env, r.data, pairs, force, j);
  }

  // ---------------------------------------------------------------------
  // create_meta_table_select_clause
  // ---------------------------------------------------------------------

  /** `create_meta_table_select_clause`: `*` and ` TOP 1 *` pass through;
      null selects every `db_field` (raising when there is none, since
      `implode` then gets null), an array its elements, any other value
      itself; each name is qualified by the table and wrapped. */
  function SelectClause(r: Record, db: Db, fields: Value): (o: Outcome<string>)
    ensures fields == Str("*") || fields == Str(" TOP 1 *") ==> o == Ok(fields.s)
    ensures o.Ok? && !(fields == Str("*") || fields == Str(" TOP 1 *")) && |ClauseNames(r, fields)| > 0 ==>
      o.value == Join(Qualified(r.config.tableName, db, ClauseNames(r, fields)), ", ")
    ensures o.Raised? <==> fields == Null && |KeysWith(r.meta, "db_field", Bool(true), false)| == 0
  {
    if fields == Str("*") || fields == Str(" TOP 1 *") then Ok(fields.s)
    else if fields == Null && |KeysWith(r.meta, "db_field", Bool(true), false)| == 0 then
      Raised("implode(): Argument #2 ($array) must be of type ?array")
    else
      var names := ClauseNames(r, fields);
      var a := r.config.tableName + "." + db.wrapLeft;
      var text := a + Join(names, db.wrapRight + ", " + a) + db.wrapRight;
      QualifiedList(r.config.tableName, db, names);
      Ok(text)
  }

  /** The names the select clause lists for a value that is not passed
      through. */
  function ClauseNames(r: Record, fields: Value): seq<string> {
    match fields
    case Null => KeysWith(r.meta, "db_field", Bool(true), false)
    case List(items) => seq(|items|, i requires 0 <= i < |items| => ToStr(items[i]))
    case _ => [ToStr(fields)]
  }

  /** Each name qualified by the table and wrapped. */
  function Qualified(table: string, db: Db, names: seq<string>): (q: seq<string>)
    ensures |q| == |names|
    ensures forall i :: 0 <= i < |names| ==> q[i] == table + "." + Wrap(db, names[i])
  {
    seq(|names|, i requires 0 <= i < |names| => table + "." + Wrap(db, names[i]))
  }

  lemma QualifiedList(table: string, db: Db, names: seq<string>)
    ensures var a := table + "." + db.wrapLeft;
      |names| > 0 ==> a + Join(names, db.wrapRight + ", " + a) + db.wrapRight == Join(Qualified(table, db, names), ", ")
  {
    if |names| > 0 {
      var a := table + "." + db.wrapLeft;
      JoinQualified(a, db.wrapRight, names, ", ");
      EncloseQualified(table, db, names);
    }
  }

  lemma EncloseQualified(table: string, db: Db, names: seq<string>)
    ensures Enclose(table + "." + db.wrapLeft, names, db.wrapRight) == Qualified(table, db, names)
  {
    var a := table + "." + db.wrapLeft;
    forall i | 0 <= i < |names|
      ensures Enclose(a, names, db.wrapRight)[i] == Qualified(table, db, names)[i]
    {
      assert Wrap(db, names[i]) == db.wrapLeft + (names[i] + db.wrapRight);
    }
  }

  /** Every element between `a` and `b`. */
  function Enclose(a: string, xs: seq<string>, b: string): (q: seq<string>)
    ensures |q| == |xs|
    ensures forall i :: 0 <= i < |xs| ==> q[i] == a + xs[i] + b
  {
    seq(|xs|, i requires 0 <= i < |xs| => a + xs[i] + b)
  }

  /** Joining with `b + sep + a` between `a` and `b` qualifies every
      element. */
  lemma {:induction false} JoinQualified(a: string, b: string, xs: seq<string>, sep: string)
    requires |xs| > 0
    ensures a + Join(xs, b + sep + a) + b == Join(Enclose(a, xs, b), sep)
    decreases |xs|
  {
    var q := Enclose(a, xs, b);
    if |xs| > 1 {
      JoinQualified(a, b, xs[1..], sep);
      assert q[1..] == Enclose(a, xs[1..], b);
      var s := b + sep + a;
      var tail := Join(xs[1..], s);
      calc {
        a + Join(xs, s) + b;
        a + (xs[0] + s + tail) + b;
        (a + xs[0] + b) + sep + (a + tail + b);
        q[0] + sep + Join(q[1..], sep);
        Join(q, sep);
      }
    }
  }

  // ---------------------------------------------------------------------
  // Enum options
  // ---------------------------------------------------------------------

  /** A value as MySQL lists it inside `enum(...)`: quoted, with inner
      quotes doubled. */
  function EnumLiteral(x: string): (s: string)
    ensures |s| >= 2 && s[0] == '\'' && s[|s| - 1] == '\''
  {
    "'" + DoubleQuotes(x) + "'"
  }

  /** `clean_enum_options` as written: trim every quote at either end, then
      collapse doubled quotes. */
  function CleanEnumOption(o: string): string {
    ReplaceAll(Trim(o, '\''), "''", "'")
  }

  /** For values that neither start nor end with a quote, cleaning recovers
      the value. */
  lemma CleanEnumOptionPlain(x: string)
    requires |x| == 0 || (x[0] != '\'' && x[|x| - 1] != '\'')
    ensures CleanEnumOption(EnumLiteral(x)) == x
  {
    var d := DoubleQuotes(x);
    DoubleQuotesEnds(x);
    assert EnumLiteral(x) == "'" + (d + "'");
    if |d| == 0 {
      TrimLeftQuote("'");
      TrimLeftQuote("");
    } else {
      TrimLeftQuote(d + "'");
      assert TrimLeft(d + "'", '\'') == d + "'";
      TrimRightQuote(d);
      TrimUntouched(d, '\'');
    }
    assert Trim(EnumLiteral(x), '\'') == d;
    CollapseUndoesDouble(x);
  }

  lemma TrimLeftQuote(t: string)
    ensures TrimLeft("'" + t, '\'') == TrimLeft(t, '\'')
  {
    assert ("'" + t)[1..] == t;
  }

  lemma TrimRightQuote(t: string)
    ensures TrimRight(t + "'", '\'') == TrimRight(t, '\'')
  {
    assert (t + "'")[..|t|] == t;
  }

  /** Doubling quotes keeps the first and last characters of a value that
      neither starts nor ends with a quote. */
  lemma DoubleQuotesEnds(x: string)
    requires |x| == 0 || (x[0] != '\'' && x[|x| - 1] != '\'')
    ensures var d := DoubleQuotes(x); |d| == 0 || (d[0] != '\'' && d[|d| - 1] != '\'')
  {
    if |x| > 0 {
      DoubleQuotesLast(x);
    }
  }

  lemma {:induction false} DoubleQuotesLast(x: string)
    requires |x| > 0
    ensures var d := DoubleQuotes(x);
      |d| > 0 && d[0] == (if x[0] == '\'' then '\'' else x[0]) && d[|d| - 1] == x[|x| - 1]
    decreases |x|
  {
    if |x| > 1 {
      DoubleQuotesLast(x[1..]);
    }
  }

  /** The defect: an option whose value is quoted loses its quotes, since
      `trim` strips all of them at both ends. */
  lemma CleanEnumOptionLosesQuotes()
    ensures EnumLiteral("'a'") == "'''a'''"
    ensures CleanEnumOption(EnumLiteral("'a'")) == "a"
  {
    QuotedValueDoubled();
    assert "'''a'''" == "'" + ("'" + ("'" + "a'''"));
    TrimLeftQuote("'" + ("'" + "a'''"));
    TrimLeftQuote("'" + "a'''");
    TrimLeftQuote("a'''");
    assert TrimLeft("'''a'''", '\'') == "a'''";
    assert "a'''" == ("a'" + "'") + "'";
    TrimRightQuote("a'" + "'");
    TrimRightQuote("a'");
    TrimRightQuote("a");
    assert TrimRight("a'''", '\'') == "a";
    assert ReplaceAll("a", "''", "'") == "a";
  }

  lemma QuotedValueDoubled()
    ensures DoubleQuotes("'a'") == "''a''"
    ensures EnumLiteral("'a'") == "'''a'''"
  {
    assert "'"[1..] == "";
    assert DoubleQuotes("'") == "''";
    assert "a'"[1..] == "'";
    assert DoubleQuotes("a'") == "a''";
    assert "'a'"[1..] == "a'";
  }

  /** The intended cleaning: drop exactly one enclosing quote pair, then
      collapse doubled quotes. */
  function CleanEnumOptionExact(o: string): (v: string)
    ensures forall x :: o == EnumLiteral(x) ==> v == x
  {
    var inner := if |o| >= 2 && o[0] == '\'' && o[|o| - 1] == '\'' then o[1..|o| - 1] else o;
    assert forall x :: o == EnumLiteral(x) ==> inner == DoubleQuotes(x) by {
      forall x | o == EnumLiteral(x) ensures inner == DoubleQuotes(x) {
        assert o[1..|o| - 1] == DoubleQuotes(x);
      }
    }
    assert forall x :: o == EnumLiteral(x) ==> ReplaceAll(inner, "''", "'") == x by {
      forall x | o == EnumLiteral(x) ensures ReplaceAll(inner, "''", "'") == x {
        CollapseUndoesDouble(x);
      }
    }
    ReplaceAll(inner, "''", "'")
  }

  /** The intended cleaning agrees with the source on every value the
      source handles correctly. */
  lemma CleanEnumAgrees(x: string)
    requires |x| == 0 || (x[0] != '\'' && x[|x| - 1] != '\'')
    ensures CleanEnumOptionExact(EnumLiteral(x)) == CleanEnumOption(EnumLiteral(x))
  {
    CleanEnumOptionPlain(x);
  }
}

=== FILE: sql.dfy ===
/** `Sql`: the record configuration and the literal encoding shared by the
    relational record table and its Couchbase variant. The database
    connection is reduced to what the text builders use: the literal quoting
    function `qstr` and the column wrapper characters. */
module Sql {
  import opened Strings
  import opened Php

  /** The connection as the SQL builders see it; `qstr` is abstract. */
  datatype Db = Db(qstr: string -> string, wrapLeft: string, wrapRight: string)

  /** The record table's settings. `couchbase` selects the Couchbase
      subclass's overrides of `where_clause`, `is_new` and `save`. */
  datatype Config = Config(
    tableName: string,
    keyField: string,
    autoKey: bool,
    quoteNumbers: bool,
    retainDirty: bool,
    couchbase: bool)

  /** A column name between the connection's wrappers. */
  function Wrap(db: Db, name: string): (r: string)
    ensures StartsWith(r, db.wrapLeft)
  {
    PrefixStartsWith(db.wrapLeft, name + db.wrapRight);
    db.wrapLeft + (name + db.wrapRight)
  }

  /** Whether a value is written through `qstr`: always when numbers are
      quoted, otherwise only strings and null. */
  predicate Quoted(c: Config, v: Value) {
    c.quoteNumbers || v.Str? || v.Null?
  }

  /** The literal of a value in `save`/`create_save_sql`: `NULL` for a null
      value of a `db_null` field; otherwise quoted (null as the empty
      string) or raw. */
  function EncodeValue(c: Config, db: Db, dbNull: Value, v: Value): (r: string)
    ensures Truthy(dbNull) && v == Null ==> r == "NULL"
    ensures !(Truthy(dbNull) && v == Null) && Quoted(c, v) ==> r == db.qstr(ToStr(v))
    ensures !(Truthy(dbNull) && v == Null) && !Quoted(c, v) ==> r == ToStr(v)
  {
    if Truthy(dbNull) && v == Null then "NULL"
    else if Quoted(c, v) then db.qstr(if v == Null then "" else ToStr(v))
    else ToStr(v)
  }

  /** The literal of a value in `update_fields`, which has no `db_null`
      rule. */
  function EncodeUpdate(c: Config, db: Db, v: Value): (r: string)
    ensures r == EncodeValue(c, db, Bool(false), v)
  {
    if Quoted(c, v) then db.qstr(if v == Null then "" else ToStr(v)) else ToStr(v)
  }

  /** Outside a `db_null` field, null is saved exactly as the empty string
      is, and `NULL` is written only for a null value. */
  lemma NullWithoutDbNull(c: Config, db: Db, dbNull: Value, v: Value)
    ensures !Truthy(dbNull) ==> EncodeValue(c, db, dbNull, Null) == EncodeValue(c, db, dbNull, Str(""))
    ensures EncodeValue(c, db, dbNull, v) == "NULL" && v != Null ==>
      (Quoted(c, v) && db.qstr(ToStr(v)) == "NULL") || (!Quoted(c, v) && ToStr(v) == "NULL")
  {
  }

  /** Without number quoting an integer is written as its decimal text, so
      the text reads back as the integer. */
  lemma RawIntegers(c: Config, db: Db, dbNull: Value, n: int)
    requires !c.quoteNumbers
    ensures IsIntegerString(EncodeValue(c, db, dbNull, Int(n)))
    ensures IntegerStringValue(EncodeValue(c, db, dbNull, Int(n))) == n
  {
    IntToStringRoundTrip(n);
  }

  /** The id literal of `where_clause`: quoted when numbers are quoted or
      the id is a string. */
  function EncodeId(c: Config, db: Db, id: Value): (r: string)
    ensures c.quoteNumbers || id.Str? ==> r == db.qstr(ToStr(id))
    ensures !(c.quoteNumbers || id.Str?) ==> r == ToStr(id)
  {
    if c.quoteNumbers || id.Str? then db.qstr(ToStr(id)) else ToStr(id)
  }

  /** `Record_Table::where_clause` for an id already resolved. */
  function RelationalWhere(c: Config, db: Db, id: Value): (r: string)
    ensures StartsWith(r, c.keyField + " = ")
  {
    PrefixStartsWith(c.keyField + " = ", EncodeId(c, db, id));
    c.keyField + " = " + EncodeId(c, db, id)
  }
}

=== FILE: strings.dfy ===
/** Character classes, decimal conversion and the string primitives PHP's
    library offers the toolkit (`str_replace`, `trim`, `explode`, `implode`),
    each as a small total function with the law that characterises it. */
module Strings {

  predicate IsDigit(c: char) { '0' <= c <= '9' }

  predicate IsLowerHex(c: char) { IsDigit(c) || 'a' <= c <= 'f' }

  predicate IsAsciiLetter(c: char) { 'a' <= c <= 'z' || 'A' <= c <= 'Z' }

  /** ASCII lower-casing (`strtolower` in the C locale). */
  function LowerAscii(s: string): (r: string)
    ensures |r| == |s|
    ensures forall i :: 0 <= i < |s| ==> !('A' <= r[i] <= 'Z')
    ensures forall i :: 0 <= i < |s| && !('A' <= s[i] <= 'Z') ==> r[i] == s[i]
  {
    if |s| == 0 then ""
    else [if 'A' <= s[0] <= 'Z' then (s[0] as int + 32) as char else s[0]] + LowerAscii(s[1..])
  }

  /** `ctype_digit` on a string: non-empty and decimal digits only. */
  predicate AllDigits(s: string) {
    |s| > 0 && forall i :: 0 <= i < |s| ==> IsDigit(s[i])
  }

  /** `ctype_alnum` on a string (C locale): non-empty, letters and digits only. */
  predicate AllAlnum(s: string) {
    |s| > 0 && forall i :: 0 <= i < |s| ==> IsDigit(s[i]) || IsAsciiLetter(s[i])
  }

  function DigitValue(c: char): nat
    requires IsDigit(c)
  {
    (c as int - '0' as int) as nat
  }

  function DigitChar(d: nat): (c: char)
    requires d < 10
    ensures IsDigit(c) && DigitValue(c) == d
  {
    ('0' as int + d) as char
  }

  /** Decimal text of a natural number, without leading zeros. */
  function NatToString(n: nat): (s: string)
    ensures AllDigits(s)
    ensures s[0] == '0' ==> n == 0
    decreases n
  {
    if n < 10 then [DigitChar(n)] else NatToString(n / 10) + [DigitChar(n % 10)]
  }

  /** Value of a string of decimal digits (the empty string reads as 0). */
  function DigitsValue(s: string): nat
    requires forall i :: 0 <= i < |s| ==> IsDigit(s[i])
  {
    if |s| == 0 then 0 else 10 * DigitsValue(s[..|s| - 1]) + DigitValue(s[|s| - 1])
  }

  /** Reading back the decimal text of `n` gives `n`. */
  lemma {:induction false} NatToStringRoundTrip(n: nat)
    ensures DigitsValue(NatToString(n)) == n
    decreases n
  {
    if n >= 10 {
      var s := NatToString(n);
      NatToStringRoundTrip(n / 10);
      assert s[..|s| - 1] == NatToString(n / 10);
    }
  }

  /** PHP's string conversion of an integer. */
  function IntToString(i: int): string {
    if i < 0 then "-" + NatToString(-i) else NatToString(i)
  }

  /** An integer-form numeric string: an optional sign followed by digits. */
  predicate IsIntegerString(s: string) {
    AllDigits(s) || (|s| > 1 && (s[0] == '-' || s[0] == '+') && AllDigits(s[1..]))
  }

  function IntegerStringValue(s: string): int
    requires IsIntegerString(s)
  {
    if AllDigits(s) then DigitsValue(s)
    else if s[0] == '-' then -(DigitsValue(s[1..]) as int)
    else DigitsValue(s[1..])
  }

  /** The decimal text of every integer is an integer string that reads back
      as that integer. */
  lemma IntToStringRoundTrip(i: int)
    ensures IsIntegerString(IntToString(i))
    ensures IntegerStringValue(IntToString(i)) == i
  {
    if i < 0 {
      var s := IntToString(i);
      assert s[1..] == NatToString(-i);
      NatToStringRoundTrip(-i);
    } else {
      NatToStringRoundTrip(i);
    }
  }

  predicate StartsWith(s: string, p: string) {
    |p| <= |s| && s[..|p|] == p
  }

  lemma PrefixStartsWith(a: string, b: string)
    ensures StartsWith(a + b, a)
  {
    assert (a + b)[..|a|] == a;
  }

  lemma StartsWithExtend(a: string, x: string, p: string)
    requires StartsWith(x, p)
    ensures StartsWith(a + x, a + p)
  {
    assert (a + x)[..|a + p|] == a + x[..|p|];
  }

  lemma StartsWithAppend(s: string, p: string, x: string)
    requires StartsWith(s, p)
    ensures StartsWith(s + x, p)
  {
    assert (s + x)[..|p|] == s[..|p|];
  }

  predicate EndsWith(s: string, p: string) {
    |p| <= |s| && s[|s| - |p|..] == p
  }

  lemma SuffixEndsWith(a: string, b: string)
    ensures EndsWith(a + b, b)
  {
    assert (a + b)[|a|..] == b;
  }

  /** `pat` occurs in `s` starting at position `i`. */
  predicate OccursAt(s: string, pat: string, i: int) {
    0 <= i <= |s| - |pat| && s[i..i + |pat|] == pat
  }

  /** `pat` occurs in `s` at some position. */
  ghost predicate Contains(s: string, pat: string) {
    exists i :: OccursAt(s, pat, i)
  }

  /** PHP `str_replace` for one needle: left-to-right, non-overlapping. */
  function ReplaceAll(s: string, pat: string, rep: string): string
    requires |pat| > 0
    decreases |s|
  {
    if |s| < |pat| then s
    else if s[..|pat|] == pat then rep + ReplaceAll(s[|pat|..], pat, rep)
    else [s[0]] + ReplaceAll(s[1..], pat, rep)
  }

  /** A needle that never occurs leaves the text unchanged. */
  lemma {:induction false} ReplaceAbsent(s: string, pat: string, rep: string)
    requires |pat| > 0
    requires !Contains(s, pat)
    ensures ReplaceAll(s, pat, rep) == s
    decreases |s|
  {
    if |s| >= |pat| {
      assert !OccursAt(s, pat, 0);
      assert s[..|pat|] != pat;
      forall i | OccursAt(s[1..], pat, i)
        ensures OccursAt(s, pat, i + 1)
      {
        assert s[i + 1..i + 1 + |pat|] == s[1..][i..i + |pat|];
      }
      ReplaceAbsent(s[1..], pat, rep);
    }
  }

  /** Replacing a single character by a single character acts pointwise. */
  lemma {:induction false} ReplaceCharPointwise(s: string, c: char, d: char)
    ensures |ReplaceAll(s, [c], [d])| == |s|
    ensures forall i :: 0 <= i < |s| ==>
      ReplaceAll(s, [c], [d])[i] == (if s[i] == c then d else s[i])
    decreases |s|
  {
    if |s| > 0 {
      ReplaceCharPointwise(s[1..], c, d);
      assert s[..1] == [s[0]];
    }
  }

  /** Replacement never lengthens text when the replacement is no longer
      than the needle. */
  lemma {:induction false} ReplaceShrinks(s: string, pat: string, rep: string)
    requires |pat| > 0 && |rep| <= |pat|
    ensures |ReplaceAll(s, pat, rep)| <= |s|
    decreases |s|
  {
    if |s| >= |pat| {
      if s[..|pat|] == pat {
        ReplaceShrinks(s[|pat|..], pat, rep);
      } else {
        ReplaceShrinks(s[1..], pat, rep);
      }
    }
  }

  /** Every quote doubled: the escaping a SQL enum literal carries. */
  function DoubleQuotes(s: string): (r: string)
    ensures |r| >= |s|
  {
    if |s| == 0 then ""
    else if s[0] == '\'' then "''" + DoubleQuotes(s[1..])
    else [s[0]] + DoubleQuotes(s[1..])
  }

  /** Collapsing `''` to `'` undoes `DoubleQuotes`. */
  lemma {:induction false} CollapseUndoesDouble(s: string)
    ensures ReplaceAll(DoubleQuotes(s), "''", "'") == s
    decreases |s|
  {
    if |s| > 0 {
      CollapseUndoesDouble(s[1..]);
      var d := DoubleQuotes(s);
      if s[0] == '\'' {
        assert d[..2] == "''";
        assert d[2..] == DoubleQuotes(s[1..]);
      } else {
        assert d[0] == s[0];
        assert d[1..] == DoubleQuotes(s[1..]);
        if |d| >= 2 {
          assert d[..2] != "''";
        }
      }
      assert s == [s[0]] + s[1..];
    }
  }

  function TrimLeft(s: string, c: char): (r: string)
    ensures |r| == 0 || r[0] != c
    ensures |r| <= |s| && r == s[|s| - |r|..]
  {
    if |s| > 0 && s[0] == c then TrimLeft(s[1..], c) else s
  }

  function TrimRight(s: string, c: char): (r: string)
    ensures |r| == 0 || r[|r| - 1] != c
    ensures |r| <= |s| && r == s[..|r|]
  {
    if |s| > 0 && s[|s| - 1] == c then TrimRight(s[..|s| - 1], c) else s
  }

  /** PHP `trim($s, $c)` for a single character `c`. */
  function Trim(s: string, c: char): string {
    TrimRight(TrimLeft(s, c), c)
  }

  /** Trimming a string that neither starts nor ends with `c` is the identity. */
  lemma TrimUntouched(s: string, c: char)
    requires |s| == 0 || (s[0] != c && s[|s| - 1] != c)
    ensures Trim(s, c) == s
  {
  }

  /** PHP `implode($sep, $parts)`. */
  function Join(parts: seq<string>, sep: string): string {
    if |parts| == 0 then ""
    else if |parts| == 1 then parts[0]
    else parts[0] + sep + Join(parts[1..], sep)
  }

  /** PHP `explode($sep, $s)` for a non-empty separator: the pieces between
      left-to-right, non-overlapping occurrences of `sep`. */
  function Explode(s: string, sep: string): (parts: seq<string>)
    requires |sep| > 0
    ensures |parts| >= 1
    decreases |s|
  {
    if |s| < |sep| then [s]
    else if s[..|sep|] == sep then [""] + Explode(s[|sep|..], sep)
    else
      var rest := Explode(s[1..], sep);
      [[s[0]] + rest[0]] + rest[1..]
  }

  /** Joining the pieces of `explode` with the same separator gives the text
      back. */
  lemma {:induction false} JoinExplode(s: string, sep: string)
    requires |sep| > 0
    ensures Join(Explode(s, sep), sep) == s
    decreases |s|
  {
    if |s| >= |sep| {
      if s[..|sep|] == sep {
        JoinExplode(s[|sep|..], sep);
        assert s == sep + s[|sep|..];
      } else {
        var rest := Explode(s[1..], sep);
        JoinExplode(s[1..], sep);
        var parts := [[s[0]] + rest[0]] + rest[1..];
        assert Explode(s, sep) == parts;
        if |rest| == 1 {
          assert Join(parts, sep) == [s[0]] + rest[0];
        } else {
          assert parts[1..] == rest[1..];
          assert Join(rest, sep) == rest[0] + sep + Join(rest[1..], sep);
        }
        assert s == [s[0]] + s[1..];
      }
    }
  }
}

=== FILE: validate.dfy ===
/** `Validate`: the validators a form field or field group runs. A validator
    carries a rule, the name and description it was set up with, an
    alternative error message and, like every toolkit object, a list of
    error messages. Single-value rules look at one value; group rules look at
    the values of the fields they were set up with. */
module Validate {
  import opened Strings
  import opened Php
  import Base

  // ---------------------------------------------------------------------
  // Rules
  // ---------------------------------------------------------------------

  /** The single-value validators. */
  datatype Rule =
    | Require(errorValues: seq<Value>)
    | MinLength(length: int)
    | MaxLength(length: int)
    | ExactLength(length: int)
    | Digit
    | AlphaNum
    | CreditCardCheckSum
    | WhiteList(accepted: seq<Value>)
    | BlackList(rejected: seq<Value>)
    | RequireCountDelimited(required: int, delimiter: string)
    | Disable
    | ReadOnly

  /** The group validators. `groups` holds the normalised groups of entries
      of the two validators that take them. */
  datatype GroupRule =
    | RequireCount(required: int)
    | RequireAllOrNone
    | GroupMatch
    | GroupNoMatch
    | GroupMask(groups: seq<seq<Value>>, allowed: int)
    | RequireOneGroup(groups: seq<seq<Value>>)

  /** A scalar argument stands for the one-element array. */
  function ValueList(v: Value): (r: seq<Value>)
    ensures v.List? ==> r == v.items
    ensures !v.List? ==> r == [v]
  {
    if v.List? then v.items else [v]
  }

  /** The values `ValidRequire` rejects by default. */
  const BlankValues: seq<Value> := [Str(""), Null]

  /** The `ValidRequire` constructor: extra error values (unless `false`)
      come before the default ones. */
  function NewRequire(extra: Value): (r: Rule)
    ensures r.Require? && StrictIn(Str(""), r.errorValues) && StrictIn(Null, r.errorValues)
    ensures extra != Bool(false) ==> forall x :: x in ValueList(extra) ==> StrictIn(x, r.errorValues)
  {
    var ev := if extra == Bool(false) then BlankValues else ValueList(extra) + BlankValues;
    assert ev[|ev| - 2] == Str("") && ev[|ev| - 1] == Null;
    assert extra != Bool(false) ==> forall x :: x in ValueList(extra) ==> StrictIn(x, ev) by {
      if extra != Bool(false) {
        forall x | x in ValueList(extra) ensures StrictIn(x, ev) {
          var k :| 0 <= k < |ValueList(extra)| && ValueList(extra)[k] == x;
          assert ev[k] == x;
        }
      }
    }
    Require(ev)
  }

  /** The `ValidRequireOneGroup`/`ValidGroupMask` constructors: a scalar is
      one group, and a scalar group is a group of one. */
  function GroupsOf(v: Value): (r: seq<seq<Value>>)
    ensures |r| == |ValueList(v)|
    ensures forall i :: 0 <= i < |r| ==> r[i] == ValueList(ValueList(v)[i])
  {
    var outer := ValueList(v);
    seq(|outer|, i requires 0 <= i < |outer| => ValueList(outer[i]))
  }

  // ---------------------------------------------------------------------
  // Single-value checks
  // ---------------------------------------------------------------------

  /** `(string)$v`; objects without a string form raise. */
  function StrCast(v: Value): (r: Outcome<string>)
    ensures v.Obj? <==> r.Raised?
    ensures r.Ok? ==> r.value == ToStr(v)
  {
    if v.Obj? then Raised("Object could not be converted to string") else Ok(ToStr(v))
  }

  /** The length validators skip values loosely null, non-strings and the
      empty string. */
  predicate LengthSkipped(v: Value) {
    LooseEq(v, Null) || !v.Str? || LooseEq(v, Str(""))
  }

  /** `ValidDigit`/`ValidAlphaNum` skip values loosely null or loosely
      empty. */
  predicate Blank(v: Value) {
    LooseEq(v, Null) || LooseEq(v, Str(""))
  }

  /** Every character a decimal digit (the empty string included). */
  predicate Digits(s: string) {
    forall i :: 0 <= i < |s| ==> IsDigit(s[i])
  }

  /** The Luhn term of digit `d` at position `p` from the right: doubled at
      odd positions, less 9 when the double exceeds 9. */
  function LuhnTerm(d: nat, p: nat): nat {
    if p % 2 == 1 then (if 2 * d > 9 then 2 * d - 9 else 2 * d) else d
  }

  /** The Luhn sum of a digit string: the first digit is at position
      `|s| - 1` from the right. */
  function LuhnSum(s: string): nat
    requires Digits(s)
  {
    if |s| == 0 then 0 else LuhnTerm(DigitValue(s[0]), |s| - 1) + LuhnSum(s[1..])
  }

  /** `ValidRequireCountDelimitedString`'s piece count: `explode` raises for
      an empty delimiter and for an array or object. */
  function DelimitedCount(v: Value, delimiter: string): (r: Outcome<int>)
    ensures r.Ok? ==> r.value >= 1
    ensures r.Raised? <==> delimiter == "" || v.List? || v.Obj?
  {
    if v.List? || v.Obj? then Raised("explode(): Argument #2 ($string) must be of type string")
    else if delimiter == "" then Raised("explode(): Argument #1 ($separator) cannot be empty")
    else Ok(|Explode(ToStr(v), delimiter)|)
  }

  /** Whether a single-value rule accepts a value. */
  function Passes(rule: Rule, v: Value): (r: Outcome<bool>)
    ensures rule.Require? ==> r == Ok(!StrictIn(v, rule.errorValues))
    ensures rule.WhiteList? ==> r == Ok(LooseEq(v, Null) || StrictIn(v, rule.accepted))
    ensures rule.BlackList? ==> r == Ok(LooseEq(v, Null) || !LooseIn(v, rule.rejected))
    ensures rule.Disable? || rule.ReadOnly? ==> r == Ok(true)
    ensures (rule.MinLength? || rule.MaxLength? || rule.ExactLength?) && LengthSkipped(v) ==> r == Ok(true)
    ensures (rule.Digit? || rule.AlphaNum?) && Blank(v) ==> r == Ok(true)
    ensures rule.RequireCountDelimited? && (v == Null || v == Str("")) ==> r == Ok(false)
  {
    match rule
    case Require(ev) => Ok(!StrictIn(v, ev))
    case MinLength(n) => Ok(LengthSkipped(v) || |v.s| >= n)
    case MaxLength(n) => Ok(LengthSkipped(v) || |v.s| <= n)
    case ExactLength(n) => Ok(LengthSkipped(v) || |v.s| == n)
    case Digit =>
      if Blank(v) then Ok(true)
      else (match StrCast(v) case Raised(e) => Raised(e) case Ok(s) => Ok(AllDigits(s)))
    case AlphaNum =>
      if Blank(v) then Ok(true)
      else (match StrCast(v) case Raised(e) => Raised(e) case Ok(s) => Ok(AllAlnum(s)))
    case CreditCardCheckSum =>
      (match StrCast(v)
       case Raised(e) => Raised(e)
       case Ok(s) => if Digits(s) then Ok(LuhnSum(s) % 10 == 0) else Raised("Unsupported operand types: string << int"))
    case WhiteList(l) => Ok(LooseEq(v, Null) || StrictIn(v, l))
    case BlackList(l) => Ok(LooseEq(v, Null) || !LooseIn(v, l))
    case RequireCountDelimited(n, d) =>
      if v == Null || v == Str("") then Ok(false)
      else (match DelimitedCount(v, d) case Raised(e) => Raised(e) case Ok(c) => Ok(c >= n))
    case Disable => Ok(true)
    case ReadOnly => Ok(true)
  }

  /** The loose empty string is only the empty string. */
  lemma LooseEmpty(s: string)
    ensures LooseEq(Str(s), Str("")) <==> s == ""
    ensures LooseEq(Str(s), Null) <==> s == ""
  {
    assert !IsIntegerString("");
  }

  /** The length validators test the character count of a non-empty string
      and accept everything else. */
  lemma LengthRules(v: Value, n: int)
    ensures var counted := v.Str? && v.s != "";
      (Passes(MinLength(n), v) == Ok(!counted || |v.s| >= n))
      && (Passes(MaxLength(n), v) == Ok(!counted || |v.s| <= n))
      && (Passes(ExactLength(n), v) == Ok(!counted || |v.s| == n))
  {
    if v.Str? {
      LooseEmpty(v.s);
    }
  }

  /** `ValidRequire` with the default error values rejects exactly the
      empty string and null. */
  lemma RequireDefault(v: Value)
    ensures Passes(NewRequire(Bool(false)), v) == Ok(v != Str("") && v != Null)
  {
    if v == Str("") {
      assert BlankValues[0] == v;
    } else if v == Null {
      assert BlankValues[1] == v;
    }
  }

  /** `ValidDigit` on integers: zero (loosely null) and non-negative numbers
      pass, negative numbers fail. */
  lemma DigitIntegers(n: int)
    ensures Passes(Digit, Int(n)) == Ok(n >= 0)
  {
    if n > 0 {
      assert !LooseEq(Int(n), Str("")) by {
        assert !IsIntegerString("");
      }
      assert ToStr(Int(n)) == NatToString(n);

    } else if n < 0 {
      assert !LooseEq(Int(n), Str("")) by {
        assert !IsIntegerString("");
      }
      assert ToStr(Int(n))[0] == '-';
    }
  }

  /** Whatever `ValidDigit` accepts, `ValidAlphaNum` accepts too. */
  lemma DigitImpliesAlphaNum(v: Value)
    requires Passes(Digit, v) == Ok(true)
    ensures Passes(AlphaNum, v) == Ok(true)
  {
  }

  /** The same list used both ways: a value that is not loosely null and is
      on the white list is refused by the black list, and a value the black
      list lets through is refused by the white list. */
  lemma WhiteAndBlackDisagree(v: Value, l: seq<Value>)
    requires !LooseEq(v, Null)
    ensures Passes(WhiteList(l), v) == Ok(true) ==> Passes(BlackList(l), v) == Ok(false)
    ensures Passes(BlackList(l), v) == Ok(true) ==> Passes(WhiteList(l), v) == Ok(false)
  {
    if StrictIn(v, l) {
      var k :| 0 <= k < |l| && l[k] == v;
      LooseEqReflexive(v);
      assert LooseEq(l[k], v);
    }
  }

  /** `ValidRequire` refuses each extra error value as well as the blank
      ones. */
  lemma RequireRefusesExtra(extra: Value, x: Value)
    requires extra != Bool(false) && x in ValueList(extra)
    ensures Passes(NewRequire(extra), x) == Ok(false)
    ensures Passes(NewRequire(extra), Str("")) == Ok(false) && Passes(NewRequire(extra), Null) == Ok(false)
  {
  }

  // ---------------------------------------------------------------------
  // The credit-card checksum loop
  // ---------------------------------------------------------------------

  /** `& 1` on a non-negative integer is its remainder modulo 2, and the
      source's shift `(1 + len) & 1 + i & 1` is the parity of the position
      from the right. */
  lemma ShiftIsPosition(len: int, i: int)
    requires 0 <= i < len
    ensures ((1 + len) % 2 + i) % 2 == (len - 1 - i) % 2
  {
    if len % 2 == 0 {
      assert (1 + len) % 2 == 1;
      if i % 2 == 0 {
        assert (1 + i) % 2 == 1 && (len - 1 - i) % 2 == 1;
      } else {
        assert (1 + i) % 2 == 0 && (len - 1 - i) % 2 == 0;
      }
    } else {
      assert (1 + len) % 2 == 0;
      if i % 2 == 0 {
        assert (len - 1 - i) % 2 == 0;
      } else {
        assert (len - 1 - i) % 2 == 1;
      }
    }
  }

  /** `ValidCreditCardCheckSum.validate`: walks the string from its last
      character, shifting every other digit left by one; a character that
      is not a digit raises, since PHP 8 refuses to shift a non-numeric
      string. */
  method CheckSum(v: Value) returns (r: Outcome<bool>)
    ensures v.Obj? ==> r.Raised?
    ensures !v.Obj? && !Digits(ToStr(v)) ==> r.Raised?
    ensures !v.Obj? && Digits(ToStr(v)) ==> r == Ok(LuhnSum(ToStr(v)) % 10 == 0)
  {
    if v.Obj? {
      return Raised("Object could not be converted to string");
    }
    var s := ToStr(v);
    var sum := 0;
    var i := |s|;
    var offset := (1 + i) % 2;
    while i > 0
      invariant 0 <= i <= |s|
      invariant Digits(s[i..]) && sum == LuhnSum(s[i..])
    {
      i := i - 1;
      if !IsDigit(s[i]) {
        return Raised("Unsupported operand types: string << int");
      }
      var d := DigitValue(s[i]);
      var sub := if (offset + i) % 2 == 1 then 2 * d else d;
      ShiftIsPosition(|s|, i);
      LuhnStep(s, i);
      if sub > 9 {
        sum := sum + sub - 9;
      } else {
        sum := sum + sub;
      }
    }
    assert s[0..] == s;
    r := Ok(sum % 10 == 0);
  }

  /** The example of the source's documentation: the card number
      6011000000000004 has a valid checksum. */
  lemma DiscoverExample()
    ensures Digits("6011000000000004") && LuhnSum("6011000000000004") == 10
  {
    var z := "00000000000" + "4";
    ZerosThenDigit("00000000000", '4');
    DiscoverPrefix(z);
    assert "6011" + z == "6011000000000004";
  }

  /** The four leading digits 6, 0, 1, 1 add 3 + 0 + 2 + 1 in front of
      twelve digits. */
  lemma DiscoverPrefix(z: string)
    requires Digits(z) && |z| == 12
    ensures Digits("6011" + z) && LuhnSum("6011" + z) == 6 + LuhnSum(z)
  {
    LuhnCons('1', z);
    LuhnCons('1', ['1'] + z);
    LuhnCons('0', ['1'] + (['1'] + z));
    LuhnCons('6', ['0'] + (['1'] + (['1'] + z)));
    assert ['6'] + (['0'] + (['1'] + (['1'] + z))) == "6011" + z;
  }

  /** One step of the checksum loop: the digit at `i` adds its Luhn term. */
  lemma LuhnStep(s: string, i: nat)
    requires i < |s| && IsDigit(s[i]) && Digits(s[i + 1..])
    ensures Digits(s[i..])
    ensures LuhnSum(s[i..]) == LuhnTerm(DigitValue(s[i]), |s| - 1 - i) + LuhnSum(s[i + 1..])
  {
    assert s[i..][1..] == s[i + 1..];
  }

  lemma LuhnCons(c: char, s: string)
    requires IsDigit(c) && Digits(s)
    ensures Digits([c] + s) && LuhnSum([c] + s) == LuhnTerm(DigitValue(c), |s|) + LuhnSum(s)
  {
    assert ([c] + s)[1..] == s;
  }

  lemma {:induction false} ZerosThenDigit(s: string, c: char)
    requires IsDigit(c) && forall i :: 0 <= i < |s| ==> s[i] == '0'
    ensures Digits(s + [c]) && LuhnSum(s + [c]) == DigitValue(c)
    decreases |s|
  {
    if |s| == 0 {
      assert s + [c] == [c];
    } else {
      ZerosThenDigit(s[1..], c);
      assert (s + [c])[1..] == s[1..] + [c];
    }
  }

  // ---------------------------------------------------------------------
  // Delimited strings
  // ---------------------------------------------------------------------

  /** With a one-character delimiter `explode` yields one piece more than
      there are delimiters. */
  lemma {:induction false} ExplodeCountChar(s: string, c: char)
    ensures |Explode(s, [c])| == 1 + multiset(s)[c]
    decreases |s|
  {
    if |s| >= 1 {
      ExplodeCountChar(s[1..], c);
      assert s == [s[0]] + s[1..];
      assert multiset(s) == multiset{s[0]} + multiset(s[1..]);
      assert s[..1] == [s[0]];
    }
  }

  /** `ValidRequireCountDelimitedString` with a one-character delimiter
      accepts a non-empty string exactly when it holds at least
      `required - 1` delimiters. */
  lemma DelimitedRequirement(s: string, c: char, required: int)
    requires s != ""
    ensures Passes(RequireCountDelimited(required, [c]), Str(s)) == Ok(1 + multiset(s)[c] >= required)
  {
    ExplodeCountChar(s, c);
  }

  // ---------------------------------------------------------------------
  // Group checks
  // ---------------------------------------------------------------------

  /** The array key a group validator reads for an entry: `$field->name`,
      which for anything but a field object is null, used as the key "". */
  function FieldKey(f: Value): (k: string)
    ensures f.Obj? ==> k == f.handle
    ensures !f.Obj? ==> k == ""
  {
    if f.Obj? then f.handle else ""
  }

  /** `isset($values[$key])` and `ValidRequire` with the default error
      values: present, not null, not the empty string. */
  predicate Filled(values: Data, key: string) {
    IsSetIn(values, key) && values[key] != Str("")
  }

  function CountFilled(fields: seq<Value>, values: Data): (n: nat)
    ensures n <= |fields|
  {
    if |fields| == 0 then 0
    else (if Filled(values, FieldKey(fields[0])) then 1 else 0) + CountFilled(fields[1..], values)
  }

  /** The last kind of entry `ValidRequireAllOrNone` has seen. */
  datatype Seen = NothingYet | SawBlank | SawValue

  /** `ValidRequireAllOrNone`'s loop: fails on the first switch between
      blank and filled entries. */
  function AllOrNoneScan(fields: seq<Value>, values: Data, last: Seen): bool {
    if |fields| == 0 then true
    else if !Filled(values, FieldKey(fields[0])) then
      if last == SawValue then false else AllOrNoneScan(fields[1..], values, SawBlank)
    else
      if last == SawBlank then false else AllOrNoneScan(fields[1..], values, SawValue)
  }

  predicate AllFilled(fields: seq<Value>, values: Data) {
    forall i :: 0 <= i < |fields| ==> Filled(values, FieldKey(fields[i]))
  }

  predicate NoneFilled(fields: seq<Value>, values: Data) {
    forall i :: 0 <= i < |fields| ==> !Filled(values, FieldKey(fields[i]))
  }

  /** The loop accepts exactly when every entry is filled or none is. */
  lemma {:induction false} AllOrNoneScanMeaning(fields: seq<Value>, values: Data, last: Seen)
    ensures last == NothingYet ==> (AllOrNoneScan(fields, values, last) <==> AllFilled(fields, values) || NoneFilled(fields, values))
    ensures last == SawBlank ==> (AllOrNoneScan(fields, values, last) <==> NoneFilled(fields, values))
    ensures last == SawValue ==> (AllOrNoneScan(fields, values, last) <==> AllFilled(fields, values))
    decreases |fields|
  {
    if |fields| > 0 {
      AllOrNoneScanMeaning(fields[1..], values, SawBlank);
      AllOrNoneScanMeaning(fields[1..], values, SawValue);
      assert forall i :: 1 <= i < |fields| ==> fields[i] == fields[1..][i - 1];
    }
  }

  /** An entry `ValidGroupMatch`/`ValidGroupNoMatch` skip: missing, null or
      loosely null. */
  predicate Skipped(values: Data, key: string) {
    !IsSetIn(values, key) || LooseEq(values[key], Null)
  }

  /** The values the match validators compare, in field order. */
  function Present(fields: seq<Value>, values: Data): (p: seq<Value>)
    ensures |p| <= |fields|
  {
    if |fields| == 0 then []
    else
      var k := FieldKey(fields[0]);
      if Skipped(values, k) then Present(fields[1..], values) else [values[k]] + Present(fields[1..], values)
  }

  /** `ValidGroupMatch`'s loop: the first value kept is the reference; each
      present value must loosely equal it. */
  function MatchScan(fields: seq<Value>, values: Data, first: Option<Value>): bool {
    if |fields| == 0 then true
    else
      var k := FieldKey(fields[0]);
      if Skipped(values, k) then MatchScan(fields[1..], values, first)
      else
        var reference := if first.None? then values[k] else first.value;
        if !LooseEq(values[k], reference) then false
        else MatchScan(fields[1..], values, Some(reference))
  }

  /** Every value of `p` loosely equals `v`. */
  predicate AllMatch(p: seq<Value>, v: Value) {
    forall i :: 0 <= i < |p| ==> LooseEq(p[i], v)
  }

  /** Every value of `p` loosely equals the first. */
  predicate AllMatchFirst(p: seq<Value>) {
    |p| == 0 || AllMatch(p, p[0])
  }

  lemma AllMatchCons(x: Value, rest: seq<Value>, v: Value)
    ensures AllMatch([x] + rest, v) <==> LooseEq(x, v) && AllMatch(rest, v)
  {
    if LooseEq(x, v) && AllMatch(rest, v) {
      forall i | 0 <= i < |[x] + rest| ensures LooseEq(([x] + rest)[i], v) {
        if i > 0 {
          assert ([x] + rest)[i] == rest[i - 1];
        }
      }
    }
    if AllMatch([x] + rest, v) {
      assert ([x] + rest)[0] == x;
      forall i | 0 <= i < |rest| ensures LooseEq(rest[i], v) {
        assert ([x] + rest)[i + 1] == rest[i];
      }
    }
  }

  /** The loop accepts exactly when every present value loosely equals the
      first present value (or the reference already taken). */
  lemma {:induction false} MatchScanMeaning(fields: seq<Value>, values: Data, first: Option<Value>)
    ensures first.Some? ==> (MatchScan(fields, values, first) <==> AllMatch(Present(fields, values), first.value))
    ensures first.None? ==> (MatchScan(fields, values, first) <==> AllMatchFirst(Present(fields, values)))
    decreases |fields|
  {
    if |fields| > 0 {
      var k := FieldKey(fields[0]);
      var rest := Present(fields[1..], values);
      if Skipped(values, k) {
        MatchScanMeaning(fields[1..], values, first);
      } else {
        var x := values[k];
        var reference := if first.None? then x else first.value;
        MatchScanMeaning(fields[1..], values, Some(reference));
        LooseEqReflexive(x);
        assert Present(fields, values) == [x] + rest;
        AllMatchCons(x, rest, reference);
      }
    }
  }

  /** `ValidGroupNoMatch`'s loop: each present value must loosely differ
      from every value kept before it. */
  function NoMatchScan(fields: seq<Value>, values: Data, seen: seq<Value>): bool {
    if |fields| == 0 then true
    else
      var k := FieldKey(fields[0]);
      if Skipped(values, k) then NoMatchScan(fields[1..], values, seen)
      else if LooseIn(values[k], seen) then false
      else NoMatchScan(fields[1..], values, seen + [values[k]])
  }

  predicate PairwiseDistinct(p: seq<Value>) {
    forall i, j :: 0 <= i < j < |p| ==> !LooseEq(p[i], p[j])
  }

  /** The loop accepts exactly when the present values, after the ones
      already seen, are pairwise loosely distinct. */
  lemma {:induction false} NoMatchScanMeaning(fields: seq<Value>, values: Data, seen: seq<Value>)
    requires PairwiseDistinct(seen)
    ensures NoMatchScan(fields, values, seen) <==> PairwiseDistinct(seen + Present(fields, values))
    decreases |fields|
  {
    if |fields| > 0 {
      var k := FieldKey(fields[0]);
      var rest := Present(fields[1..], values);
      if Skipped(values, k) {
        NoMatchScanMeaning(fields[1..], values, seen);
      } else {
        var v := values[k];
        assert seen + Present(fields, values) == (seen + [v]) + rest;
        if LooseIn(v, seen) {
          var j :| 0 <= j < |seen| && LooseEq(seen[j], v);
          var all := (seen + [v]) + rest;
          assert all[j] == seen[j] && all[|seen|] == v;
          assert !PairwiseDistinct(all);
        } else {
          assert PairwiseDistinct(seen + [v]) by {
            forall i, j | 0 <= i < j < |seen| + 1 ensures !LooseEq((seen + [v])[i], (seen + [v])[j]) {
              if j == |seen| {
                assert !LooseEq(seen[i], v);
              }
            }
          }
          NoMatchScanMeaning(fields[1..], values, seen + [v]);
        }
      }
    }
  }

  /** The number of groups with at least one filled entry, keyed by `key`. */
  function GroupsWithInput(groups: seq<seq<Value>>, values: Data, byName: bool): (n: nat)
    ensures n <= |groups|
  {
    if |groups| == 0 then 0
    else
      (if exists i :: 0 <= i < |groups[0]| && Filled(values, EntryKey(groups[0][i], byName)) then 1 else 0)
      + GroupsWithInput(groups[1..], values, byName)
  }

  /** Whether every entry of a group is filled. */
  predicate GroupFilled(group: seq<Value>, values: Data, byName: bool) {
    forall i :: 0 <= i < |group| ==> Filled(values, EntryKey(group[i], byName))
  }

  /** Whether some group has every entry filled. */
  predicate SomeGroupFilled(groups: seq<seq<Value>>, values: Data, byName: bool) {
    exists g :: 0 <= g < |groups| && GroupFilled(groups[g], values, byName)
  }

  /** The key an entry of a group of names stands for: as the source reads
      it (`$field->name`), or by name as its documentation intends (a
      string entry is the field name itself). */
  function EntryKey(e: Value, byName: bool): (k: string)
    ensures !byName ==> k == FieldKey(e)
    ensures byName && e.Str? ==> k == e.s
  {
    if byName && e.Str? then e.s else FieldKey(e)
  }

  /** Whether a group rule accepts the values. The two validators that take
      groups of field names read them by name: this is the corrected
      reading; the source's `$field->name` reading is `EntryKey(_, false)`,
      which `GroupsOfNamesIgnored` shows never sees a string entry filled. */
  function GroupPasses(rule: GroupRule, fields: seq<Value>, values: Data): (ok: bool)
    ensures rule.RequireCount? ==> (ok <==> CountFilled(fields, values) >= rule.required)
    ensures rule.GroupMask? ==> (ok <==> GroupsWithInput(rule.groups, values, true) <= rule.allowed)
    ensures rule.RequireOneGroup? ==> (ok <==> SomeGroupFilled(rule.groups, values, true))
  {
    match rule
    case RequireCount(n) => CountFilled(fields, values) >= n
    case RequireAllOrNone => AllOrNoneScan(fields, values, NothingYet)
    case GroupMatch => MatchScan(fields, values, None)
    case GroupNoMatch => NoMatchScan(fields, values, [])
    case GroupMask(groups, allowed) => GroupsWithInput(groups, values, true) <= allowed
    case RequireOneGroup(groups) => SomeGroupFilled(groups, values, true)
  }

  /** `ValidRequireAllOrNone` accepts exactly when all fields or none are
      filled. */
  lemma AllOrNoneMeaning(fields: seq<Value>, values: Data)
    ensures GroupPasses(RequireAllOrNone, fields, values) <==> AllFilled(fields, values) || NoneFilled(fields, values)
  {
    AllOrNoneScanMeaning(fields, values, NothingYet);
  }

  /** `ValidGroupMatch` accepts exactly when every present value loosely
      equals the first. */
  lemma GroupMatchMeaning(fields: seq<Value>, values: Data)
    ensures GroupPasses(GroupMatch, fields, values) <==> AllMatchFirst(Present(fields, values))
  {
    MatchScanMeaning(fields, values, None);
  }

  /** `ValidGroupNoMatch` accepts exactly when the present values are
      pairwise loosely distinct. */
  lemma GroupNoMatchMeaning(fields: seq<Value>, values: Data)
    ensures GroupPasses(GroupNoMatch, fields, values) <==> PairwiseDistinct(Present(fields, values))
  {
    assert GroupPasses(GroupNoMatch, fields, values) == NoMatchScan(fields, values, []);
    NoMatchScanMeaning(fields, values, []);
    assert [] + Present(fields, values) == Present(fields, values);
  }

  /** Filling one more field never breaks `ValidRequireCount`. */
  lemma {:induction false} RequireCountMonotone(fields: seq<Value>, values: Data, key: string, v: Value)
    requires v != Null && v != Str("")
    ensures CountFilled(fields, values[key := v]) >= CountFilled(fields, values)
    decreases |fields|
  {
    if |fields| > 0 {
      RequireCountMonotone(fields[1..], values, key, v);
    }
  }

  /** Filling one more field never lowers the number of groups with input. */
  lemma {:induction false} GroupsWithInputMonotone(groups: seq<seq<Value>>, values: Data, byName: bool, key: string, v: Value)
    requires v != Null && v != Str("")
    ensures GroupsWithInput(groups, values[key := v], byName) >= GroupsWithInput(groups, values, byName)
    decreases |groups|
  {
    if |groups| > 0 {
      GroupsWithInputMonotone(groups[1..], values, byName, key, v);
      if exists i :: 0 <= i < |groups[0]| && Filled(values, EntryKey(groups[0][i], byName)) {
        var i :| 0 <= i < |groups[0]| && Filled(values, EntryKey(groups[0][i], byName));
        assert Filled(values[key := v], EntryKey(groups[0][i], byName));
      }
    }
  }

  /** So `ValidGroupMask` accepting after one more field is filled means it
      accepted before. */
  lemma GroupMaskMonotone(groups: seq<seq<Value>>, allowed: int, fields: seq<Value>, values: Data, key: string, v: Value)
    requires v != Null && v != Str("")
    ensures GroupPasses(GroupMask(groups, allowed), fields, values[key := v]) ==>
      GroupPasses(GroupMask(groups, allowed), fields, values)
  {
    GroupsWithInputMonotone(groups, values, true, key, v);
  }

  /** Filling one more field never breaks `ValidRequireOneGroup`. */
  lemma RequireOneGroupMonotone(groups: seq<seq<Value>>, values: Data, byName: bool, key: string, v: Value)
    requires v != Null && v != Str("")
    requires SomeGroupFilled(groups, values, byName)
    ensures SomeGroupFilled(groups, values[key := v], byName)
  {
    var g :| 0 <= g < |groups| && GroupFilled(groups[g], values, byName);
    assert GroupFilled(groups[g], values[key := v], byName);
  }

  /** The defect: the source reads `$field->name` of a string entry, which is
      null, so `ValidRequireOneGroup` rejects a group of names whose fields
      are all filled and `ValidGroupMask` counts no group at all. */
  lemma GroupsOfNamesIgnored()
    ensures var values := map["a" := Str("x"), "b" := Str("y")];
      var groups := GroupsOf(Str("a")) + GroupsOf(Str("b"));
      !SomeGroupFilled(groups, values, false) && SomeGroupFilled(groups, values, true)
      && GroupsWithInput(groups, values, false) == 0 && GroupsWithInput(groups, values, true) == 2
  {
    var values := map["a" := Str("x"), "b" := Str("y")];
    var groups := GroupsOf(Str("a")) + GroupsOf(Str("b"));
    assert groups == [[Str("a")], [Str("b")]];
    assert !Filled(values, "");
    assert Filled(values, EntryKey(groups[0][0], true));
    assert groups[1..] == [[Str("b")]];
    assert Filled(values, EntryKey(groups[1][0], true));
    assert groups[1..][1..] == [];
  }

  /** Read by name, a group of names is satisfied exactly when its fields
      are filled; field objects are read the same way in both readings. */
  lemma GroupsByName(groups: seq<seq<Value>>, values: Data)
    requires forall g, i :: 0 <= g < |groups| && 0 <= i < |groups[g]| ==> groups[g][i].Obj?
    ensures SomeGroupFilled(groups, values, true) <==> SomeGroupFilled(groups, values, false)
    ensures GroupsWithInput(groups, values, true) == GroupsWithInput(groups, values, false)
  {
    forall g | 0 <= g < |groups|
      ensures GroupFilled(groups[g], values, true) <==> GroupFilled(groups[g], values, false)
    {
      assert forall i :: 0 <= i < |groups[g]| ==> EntryKey(groups[g][i], true) == EntryKey(groups[g][i], false);
    }
    GroupsWithInputByName(groups, values);
  }

  lemma {:induction false} GroupsWithInputByName(groups: seq<seq<Value>>, values: Data)
    requires forall g, i :: 0 <= g < |groups| && 0 <= i < |groups[g]| ==> groups[g][i].Obj?
    ensures GroupsWithInput(groups, values, true) == GroupsWithInput(groups, values, false)
    decreases |groups|
  {
    if |groups| > 0 {
      GroupsWithInputByName(groups[1..], values);
      assert forall i :: 0 <= i < |groups[0]| ==> EntryKey(groups[0][i], true) == EntryKey(groups[0][i], false);
    }
  }

  // ---------------------------------------------------------------------
  // Validator objects
  // ---------------------------------------------------------------------

  datatype Kind = FieldKind(rule: Rule) | GroupKind(group: GroupRule)

  /** A validator object: its kind, what `setup` gave it and its errors. */
  datatype Validator = Validator(kind: Kind, name: string, desc: string, altError: Value,
                                 fields: seq<Value>, errors: seq<string>)

  /** A new validator (the constructors store the alternative error). */
  function NewValidator(kind: Kind, altError: Value): (v: Validator)
    ensures v.kind == kind && v.altError == altError && v.errors == [] && v.fields == []
  {
    Validator(kind, "", "", altError, [], [])
  }

  /** An alternative error starting with a space is appended to the
      description. */
  predicate StartsWithSpace(alt: Value) {
    match alt
    case Str(s) => |s| > 0 && s[0] == ' '
    case List(xs) => |xs| > 0 && LooseEq(xs[0], Str(" "))
    case _ => false
  }

  datatype SetupRun = SetupRun(validator: Validator, attributes: seq<(string, Value)>)

  /** `setup($name, $desc[, $fields])`: records name and description,
      prefixes an alternative error starting with a space with the
      description, stores a group validator's fields (a scalar as a list of
      one) and returns the field attributes the validator asks for. */
  function Setup(v: Validator, name: string, desc: string, fields: Value): (r: SetupRun)
    ensures r.validator.kind == v.kind && r.validator.errors == v.errors
    ensures r.validator.name == name && r.validator.desc == desc
    ensures Truthy(v.altError) && StartsWithSpace(v.altError) ==> r.validator.altError == Str(desc + ToStr(v.altError))
    ensures !(Truthy(v.altError) && StartsWithSpace(v.altError)) ==> r.validator.altError == v.altError
    ensures v.kind.GroupKind? ==> r.validator.fields == ValueList(fields) && r.attributes == []
    ensures v.kind.FieldKind? ==> r.validator.fields == v.fields
    ensures v.kind.FieldKind? && (v.kind.rule.MaxLength? || v.kind.rule.ExactLength?) ==>
      r.attributes == [("maxlength", Int(v.kind.rule.length))]
    ensures v.kind == FieldKind(Disable) ==> r.attributes == [("disabled", Str("disabled"))]
    ensures v.kind == FieldKind(ReadOnly) ==> r.attributes == [("readonly", Str(""))]
  {
    var alt := if Truthy(v.altError) && StartsWithSpace(v.altError) then Str(desc + ToStr(v.altError)) else v.altError;
    var base := v.(name := name, desc := desc, altError := alt);
    match v.kind
    case GroupKind(_) => SetupRun(base.(fields := ValueList(fields)), [])
    case FieldKind(rule) =>
      var attributes := match rule
        case MaxLength(n) => [("maxlength", Int(n))]
        case ExactLength(n) => [("maxlength", Int(n))]
        case Disable => [("disabled", Str("disabled"))]
        case ReadOnly => [("readonly", Str(""))]
        case _ => [];
      SetupRun(base, attributes)
  }

  /** "is"/"are" in the count validators' message. */
  function CountMessage(required: int, desc: string): string {
    "At least " + IntToString(required) + " " + desc + (if required == 1 then " is " else " are ") + "required"
  }

  /** The message each validator reports when it fails. */
  function DefaultMessage(kind: Kind, desc: string): string {
    match kind
    case FieldKind(rule) =>
      (match rule
       case Require(_) => desc + " is required."
       case MinLength(n) => desc + " must contain at least " + IntToString(n) + " characters."
       case MaxLength(n) => desc + " may only contain up to " + IntToString(n) + " characters."
       case ExactLength(n) => desc + " must be " + IntToString(n) + " characters."
       case Digit => desc + " must be numbers only."
       case AlphaNum => desc + " must only contain letters and numbers."
       case CreditCardCheckSum => desc + " is invalid."
       case WhiteList(_) => desc + " is not valid."
       case BlackList(_) => desc + " is not valid."
       case RequireCountDelimited(n, _) => CountMessage(n, desc)
       case Disable => ""
       case ReadOnly => "")
    case GroupKind(group) =>
      (match group
       case RequireCount(n) => CountMessage(n, desc)
       case RequireAllOrNone => desc + " must have all fields filled out."
       case GroupMatch => desc + " do not match."
       case GroupNoMatch => desc + " must be different."
       case GroupMask(_, _) => desc + " has too many responses."
       case RequireOneGroup(_) => desc + " is required.")
  }

  /** The messages an alternative error stands for. */
  function AltMessage(alt: Value): Base.Message {
    if alt.List? then Base.Many(seq(|alt.items|, i requires 0 <= i < |alt.items| => ToStr(alt.items[i])))
    else Base.One(ToStr(alt))
  }

  /** `valid_error`: the alternative error if set, else the default. */
  function ValidError(v: Validator, default: string): (r: Validator)
    ensures r == v.(errors := r.errors)
    ensures Truthy(v.altError) ==> r.errors == Base.AddError(v.errors, AltMessage(v.altError))
    ensures !Truthy(v.altError) ==> default in r.errors && r.errors == Base.AddError(v.errors, Base.One(default))
  {
    v.(errors := Base.AddError(v.errors, if Truthy(v.altError) then AltMessage(v.altError) else Base.One(default)))
  }

  datatype ValidatorRun = ValidatorRun(ok: bool, validator: Validator)

  /** `validate`: a single-value validator checks `value`, a group
      validator the `values` of its fields; on failure the error is
      recorded. */
  function Validate(v: Validator, value: Value, values: Data): (r: Outcome<ValidatorRun>)
    ensures v.kind.GroupKind? ==> r.Ok? && (r.value.ok <==> GroupPasses(v.kind.group, v.fields, values))
    ensures v.kind.FieldKind? ==> (r.Ok? <==> Passes(v.kind.rule, value).Ok?)
    ensures v.kind.FieldKind? && r.Ok? ==> r.value.ok == Passes(v.kind.rule, value).value
    ensures r.Ok? && r.value.ok ==> r.value.validator == v
    ensures r.Ok? && !r.value.ok ==> r.value.validator == ValidError(v, DefaultMessage(v.kind, v.desc))
  {
    var verdict := match v.kind
      case FieldKind(rule) => Passes(rule, value)
      case GroupKind(group) => Ok(GroupPasses(group, v.fields, values));
    match verdict
    case Raised(e) => Raised(e)
    case Ok(ok) => Ok(ValidatorRun(ok, if ok then v else ValidError(v, DefaultMessage(v.kind, v.desc))))
  }

  /** A failing validator always leaves a message: its alternative error or
      the default one. */
  lemma FailureReported(v: Validator, value: Value, values: Data)
    requires Validate(v, value, values).Ok? && !Validate(v, value, values).value.ok
    ensures var errs := Validate(v, value, values).value.validator.errors;
      (Truthy(v.altError) && !v.altError.List? ==> ToStr(v.altError) in errs)
      && (!Truthy(v.altError) ==> DefaultMessage(v.kind, v.desc) in errs)
  {
  }
}
